=== FILE: README.md ===
# Aviroze shop: a Dafny model of its shop rules

Aviroze is a small online shop. Its FastAPI backend keeps users, products, orders, order lines, reviews, addresses, wishlists, collections and banners in a relational database and takes payment through a hosted checkout. Its Next.js frontend keeps the cart, the login session and a few pricing and formatting helpers in the browser. This project models the decision logic of that shop as pure Dafny functions over immutable data and proves what each route and helper promises.

Tables are sequences of rows (`seq<User>`, `seq<Product>`, …). New ids are one more than the largest id in use (`Common.NextId`). Time is an integer clock. Prices are exact `real`s. Every route is one function from the tables and the request to either an HTTP error (`Common.Error`) or the new tables and the response. Whatever the shop hands to a library is a parameter of the function that needs it:
- the password check (`verify`);
- date parsing (`parseDate`);
- base64 encoding;
- JSON decoding of the cart snapshot and the stored user (`decodeCart`, `roleOf`);
- the rupiah-to-cents conversion for the payment gateway (`toCents`);
- the e-mail validator behind pydantic's `EmailStr` (`check`), which either normalises an address or refuses it with a reason.

Two parts of the framework's reading of a request are modelled. A body whose `EmailStr` field the validator refuses is a 422 before the route runs (`Users.ValidEmail`). A form field sent as the empty text reaches the route as not sent (`Common.FormValue`), and a required one is then a 422 (`Common.RequiredForm`).

Modules follow the source files:

| module | models |
|---|---|
| `Common` | `Option`/`Result`, the HTTP errors, ASCII lower-casing, substring search, paging, fresh ids, lookup of a row by key |
| `Sorting` | a stable insertion sort under a total preorder, used for every ORDER BY |
| `Decimal` | decimal digits of a number and JavaScript's `parseInt` without a radix |
| `Models` | the rows of `db_models.py`, their column defaults and uniqueness constraints |
| `Ledger` | the order and order-line tables, the cart loop shared by both payment paths, the clamped stock decrement, cascading order deletion |
| `Payments` | checkout validation, the discounted unit price, line names, the cart snapshot, session-status reconciliation |
| `Orders` | the payment webhook, order lookup and listing, status updates |
| `Products` | listing filters, the response projection, partial update, categories, bestsellers |
| `Comments` | review creation with purchase checks, editing, deletion, eligible purchases |
| `Addresses` | the address form bounds and the single-default address book |
| `Wishlists` | one entry per product per user |
| `Uploads` | data URLs for uploaded images |
| `Collections` | named collections with unique names |
| `Users` | admin user management and its protected accounts |
| `Auth` | registration and login outcomes |
| `Activity` | the request logger's skip list and activity classifier |
| `Customers` | the gateway customer's country code and shipping block |
| `Banners` | banner windows, ordering, partial update, view and click counters |
| `Cart` | the browser cart keyed by product, size and colour |
| `Currency` | rupiah formatting and the shared discount helpers |
| `Csv` | the CSV export, with a reader that proves it can be read back |
| `Session` | the browser session store and its two-hour expiry |
| `PageTracking` | the page-visit classifier |
| `Carousel` | the banner carousel's index arithmetic |
| `AdminProducts` | the admin product page's price, badge and colour-list helpers |
| `WishlistPage` | the wishlist page's price, stock message, slug and removal helpers |

Invariants a route keeps are stated as ghost predicates and proved preserved:
- one default address per user (`AtMostOneDefault`);
- one wishlist entry per product (`OnePerProduct`);
- unique collection names and user emails;
- unique voucher codes;
- one review per purchase;
- unique cart keys.

Where the routes and `db_models.py` disagree (the routes use tables and columns the model file does not declare, such as addresses, wishlists, collections, banners and the review's order id), the routes are followed. The code keeps one stored stock counter per product and lowers it with `max(0, stock - qty)`, and this model follows the code.

## Model

| member | source | states |
|---|---|---|
| Addresses.NewAddress | backend/app/schemas/address.py:5-14 | a form within the field bounds gives an address within them; every form column is stored as sent, the country and default flag as supplied or else Indonesia and off, under the given id, owner and creation time |
| Addresses.ApplyUpdate | backend/app/routes/addresses.py:105-108 | field by field, each of the nine editable fields keeps its stored value when the update leaves it out and takes the supplied value when it is given; the id, owner and creation time never change |
| Addresses.ClearDefaults | backend/app/routes/addresses.py:98-103 | exactly the given user's addresses other than the kept one lose the default flag; every other address is untouched |
| Addresses.IndexOwned | backend/app/routes/addresses.py:31-34 | finds an address with that id owned by the caller, or certifies that none exists |
| Addresses.Owned | backend/app/routes/addresses.py:18-19 | holds exactly the caller's addresses |
| Addresses.GetAddresses | backend/app/routes/addresses.py:12-22 | a permutation of the caller's addresses, ordered default first and then newest first |
| Addresses.DefaultListedFirst | backend/app/routes/addresses.py:20 | in the listing no non-default address comes before a default one |
| Addresses.GetAddress | backend/app/routes/addresses.py:24-42 | succeeds exactly when the caller owns an address with that id, and returns it; otherwise 404 "Address not found" |
| Addresses.CreateAddress | backend/app/routes/addresses.py:44-76 | a valid form is appended under a fresh id; a default one first clears the caller's other defaults; other users' addresses are untouched; an invalid form is a 422 |
| Addresses.CreateKeepsOneDefault | backend/app/routes/addresses.py:51-61 | creation keeps every user at one default address or none |
| Addresses.UpdateAddress | backend/app/routes/addresses.py:78-122 | 422 for an invalid form, 404 unless the caller owns the address; otherwise only that address is rewritten, plus clearing the caller's other defaults when it becomes default |
| Addresses.UpdateKeepsOneDefault | backend/app/routes/addresses.py:97-108 | an update keeps every user at one default address or none |
| Addresses.DeleteAddress | backend/app/routes/addresses.py:124-145 | 404 unless the caller owns the address; otherwise exactly that address is removed |
| Addresses.DeleteDefaultLeavesNone | backend/app/routes/addresses.py:142-145 | deleting the default address promotes no other, so the caller is left with none |
| Addresses.DeleteKeepsOneDefault | backend/app/routes/addresses.py:124-145 | deletion keeps every user at one default address or none |
| Addresses.SetDefault | backend/app/routes/addresses.py:147-184 | 404 unless the caller owns the address; otherwise it becomes default and the caller's other addresses lose the flag, while other users are untouched |
| Addresses.SetDefaultIsOnlyDefault | backend/app/routes/addresses.py:165-174 | afterwards the chosen address is the caller's only default, and every user has at most one |
| Comments.FindOwnOrder | backend/app/routes/comments.py:178-181 | finds the named order only when it belongs to the caller, or certifies that no such order exists |
| Comments.PurchaseProblem | backend/app/routes/comments.py:177-219 | a review naming an order passes exactly when the order is the caller's, completed, contains the product and is not yet reviewed by the caller for that product; every failure is a 403 except the repeat review, a 400 |
| Comments.CreateComment | backend/app/routes/comments.py:153-249 | 404 for an unknown product before anything else, then 400 for a rating outside 1..5, then the purchase checks; on success exactly one review by the caller with the request's fields and a fresh id is added |
| Comments.CreateKeepsOneReviewPerPurchase | backend/app/routes/comments.py:208-219 | creation keeps at most one review per (user, product, order), provided order reference 0 is not used |
| Comments.NoOrderNoPurchaseChecks | backend/app/routes/comments.py:175-177 | without an order reference an existing product and a valid rating are enough |
| Comments.SecondReviewRefused | backend/app/routes/comments.py:215-219 | a second review of the same purchase is refused with a 400 |
| Comments.Edit | backend/app/routes/comments.py:273-283 | only the supplied fields change, and they take the supplied values |
| Comments.UpdateComment | backend/app/routes/comments.py:251-302 | 404 for an unknown review, 403 unless the caller is the author or an administrator, 400 for a supplied rating outside 1..5; otherwise only that review changes, and only in the supplied fields |
| Comments.UpdateKeepsRatingsValid | backend/app/routes/comments.py:274-280 | an edit keeps every stored rating within 1..5 |
| Comments.DeleteComment | backend/app/routes/comments.py:304-327 | 404 for an unknown review, 403 unless the caller is the author or an administrator; otherwise exactly that review is removed |
| Comments.EligiblePurchases | backend/app/routes/comments.py:11-46 | lists exactly the caller's qualifying orders that contain the product, each flagged with whether it was reviewed |
| Comments.EligibleIn | backend/app/routes/comments.py:25-44 | the loop over the orders keeps exactly the qualifying ones |
| Comments.EligibleMeansReviewable | backend/app/routes/comments.py:19-22 | the listing's status test and review creation's status test accept the same orders |
| Comments.HasReviewedIff | backend/app/routes/comments.py:34-43 | `has_reviewed` is set exactly when the caller already reviewed the product for that order |
| Payments.DiscountedPrice | backend/app/routes/payments.py:65-73 | a discount applies only when it is on and its value is truthy; a percentage takes that share off, a fixed amount is subtracted but never below zero, and any other kind leaves the list price |
| Payments.DiscountedPriceBounds | backend/app/routes/payments.py:65-73 | for a non-negative price with a percentage in 0..100 or a non-negative amount, the charged price lies between zero and the list price |
| Payments.UnitAmount | backend/app/routes/payments.py:75-81 | the amount sent is never below the 50-cent minimum and equals the converted amount whenever that reaches the minimum |
| Payments.LineNameShape | backend/app/routes/payments.py:83-88 | the line name starts with the product name and mentions exactly the size and the colour that were given |
| Payments.Description | backend/app/routes/payments.py:93 | the description is the product's own text when it has at most 100 characters, and otherwise exactly its first 100 characters |
| Payments.LineProblem | backend/app/routes/payments.py:50-63 | a cart line is acceptable exactly when its product exists and has at least the requested stock |
| Payments.FirstProblemIsFirst | backend/app/routes/payments.py:48-63 | lines are checked in cart order: the reported error is that of the first bad line, and there is none exactly when every line is acceptable |
| Payments.NoFirstProblem | backend/app/routes/payments.py:48-63 | the loop raises nothing exactly when every line has its product in stock |
| Payments.FirstProblemAt | backend/app/routes/payments.py:48-63 | the raised error belongs to a line that every earlier line passed |
| Payments.Validate | backend/app/routes/payments.py:39-63 | an empty cart is refused with 400 "Cart is empty" before any product is looked up; otherwise the cart passes exactly when every line is acceptable |
| Payments.LineItems | backend/app/routes/payments.py:46-115 | one line item per cart line, in cart order, each built from that line's product |
| Payments.CartData | backend/app/routes/payments.py:131-150 | the snapshot has one entry per cart line whose product exists, carrying the charged price; with every product present, it mirrors the cart line for line |
| Payments.CreateCheckoutSession | backend/app/routes/payments.py:28-184 | the corrected handler: the validation error is returned as raised, a gateway failure becomes 400 "Stripe error", and on success the request fits the cart (items, quantities, minimum amounts, shipping line last, snapshot prices, shopper metadata) |
| Payments.AmountsAtLeastMinimum | backend/app/routes/payments.py:81-126 | every product line and the shipping line are charged at least the minimum |
| Payments.StockCheckedPerLine | backend/app/routes/payments.py:58-63 | stock is checked per line, so two lines of one product pass although together they exceed the stock |
| Payments.StockBoundary | backend/app/routes/payments.py:59 | a quantity equal to the stock passes and one above it is refused as insufficient |
| Payments.CreateCheckoutSessionAsWritten | backend/app/routes/payments.py:38-184 | the handler as written: every validation error is caught by the catch-all and answered as a 500; with a valid cart it behaves as the corrected handler |
| Payments.EmptyCartAnswers500 | backend/app/routes/payments.py:40-184 | an empty cart gets a 500 from the handler as written, where the corrected handler answers 400 |
| Payments.SessionTag | backend/app/routes/payments.py:203-251 | the order tag is "stripe_" followed by the session id |
| Payments.AddressParts | backend/app/routes/payments.py:228-240 | the parts are exactly the values of the truthy fields among line 1, line 2, city, state, postal code and country, in that order (the filter `TruthyValues` over `AddressFields`) |
| Payments.ShippingAddress | backend/app/routes/payments.py:224-243 | the stored address is never empty: the parts joined by ", " when there are any, "No address provided" when all are empty, and "Email: " plus the shopper's e-mail when no address was collected |
| Payments.TruthyValuesMembers | backend/app/routes/payments.py:229-240 | a value is among the kept parts exactly when some field holds it and is truthy |
| Payments.FullAddressJoined | backend/app/routes/payments.py:228-241 | a fully filled-in address is stored as line 1, line 2, city, state, postal code and country separated by ", " |
| Payments.JoinSix | backend/app/routes/payments.py:241 | a join of six parts is the parts with the separator between each neighbouring pair |
| Payments.GetSessionStatus | backend/app/routes/payments.py:186-298 | a gateway failure is a 400; an unpaid or already reconciled session leaves the tables unchanged; a paid, unreconciled session with a cart becomes exactly one new order plus the cart loop; one whose cart metadata cannot be parsed is the 500 "An error occurred: …"; a paid session without cart data changes nothing |
| Payments.SessionStatusIdempotent | backend/app/routes/payments.py:203-209 | once a session has been reconciled, asking for its status again changes nothing |
| Payments.NoSessionOrderCountsZero | backend/app/routes/payments.py:203-206 | without a tagged order the count of the user's orders tagged with the session is zero |
| Payments.ReconcileTwiceOneOrder | backend/app/routes/payments.py:198-276 | asking twice for a paid session with a cart leaves exactly one order tagged with it |
| Payments.TotalCountsMissingProducts | backend/app/routes/payments.py:219-263 | the order total counts every snapshot line, including lines whose product no longer exists and so get no order item |
| Ledger.MentionsCons | backend/app/routes/payments.py:261 | a product is named by a snapshot exactly when the first line or the rest names it |
| Ledger.StockUnmentioned | backend/app/routes/payments.py:261-274 | a product no snapshot line names keeps its stock |
| Ledger.StockMentioned | backend/app/routes/payments.py:274 | a named product ends with non-negative stock, equal to `max(0, stock - total ordered)` when no quantity is negative |
| Ledger.QuantityNonNegative | backend/app/routes/payments.py:268 | with non-negative line quantities the total ordered of a product is non-negative |
| Ledger.LinesInCatalogue | backend/app/routes/payments.py:262-263 | keeps exactly the snapshot lines whose product exists |
| Ledger.NoLinesInCatalogue | backend/app/routes/payments.py:262-263 | when no product of the snapshot exists, no line is kept |
| Ledger.CatalogueLinesSameIds | backend/app/routes/payments.py:262-263 | the kept lines depend only on which product ids exist |
| Ledger.Decrement | backend/app/routes/payments.py:274 | only the named product changes, and only its stock, to `max(0, stock - quantity)` |
| Ledger.Step | backend/app/routes/payments.py:262-274 | one loop pass leaves orders and product ids alone, changes only the named product's stock, and records an item exactly when the product exists |
| Ledger.ApplyCart | backend/app/routes/payments.py:261-274 | the whole loop leaves orders alone, runs each product's stock through the snapshot, and appends one item per line whose product exists, in order |
| Ledger.StepThenRestProducts | backend/app/routes/payments.py:261-274 | the stock effect of one line followed by the rest is that of the whole snapshot |
| Ledger.StepThenRestItems | backend/app/routes/payments.py:261-271 | the items recorded by one line followed by the rest are those of the whole snapshot |
| Ledger.ApplyCartStock | backend/app/routes/payments.py:261-274 | a product the cart does not name is untouched; a named one ends with non-negative stock, `max(0, stock - total ordered)` when no quantity is negative |
| Orders.Webhook | backend/app/routes/orders.py:52-125 | an event that is not a completed checkout with a user id and cart data changes nothing and is acknowledged; a qualifying one appends exactly one processing, paid order (total = cents / 100, method "stripe", the address as the session carries it) and runs the cart loop, or escapes as a 500 when its metadata cannot be decoded or its customer details are null |
| Orders.WebhookNoDedup | backend/app/routes/orders.py:89-106 | the same qualifying event delivered twice records two orders: there is no duplicate check |
| Orders.WebhookOrderNeverTagged | backend/app/routes/orders.py:100 | a webhook order never satisfies the status route's duplicate check, because its method is "stripe" and not "stripe_" plus a session id |
| Orders.WebhookThenStatusRecordsTwice | backend/app/routes/orders.py:89-123 | when the webhook records a payment first, the shopper's later status request records a second order for the same payment |
| Orders.ProductName | backend/app/routes/orders.py:157 | a line shows its product's name, or "Unknown Product" once the product is gone |
| Orders.ItemsOf | backend/app/routes/orders.py:143 | exactly the items that belong to the order |
| Orders.ViewItems | backend/app/routes/orders.py:154-161 | one view per item, keeping its id, product, quantity and purchase price |
| Orders.FindOwned | backend/app/routes/orders.py:187-192 | finds the order only when it exists and belongs to the caller, or certifies that there is none |
| Orders.GetOrder | backend/app/routes/orders.py:180-233 | succeeds exactly when the caller owns an order with that id; another user's order is a 404 just like a missing one; the lines shown are exactly that order's items in table order, each with its product's name or "Unknown Product" |
| Orders.NewestFirstIsTotal | backend/app/routes/orders.py:138 | ordering by creation time, newest first, is a total preorder |
| Orders.MyOrders | backend/app/routes/orders.py:134-138 | a permutation of exactly the caller's orders, newest first |
| Orders.GetMyOrders | backend/app/routes/orders.py:128-177 | one view per order of the caller's listing, in the same order |
| Orders.Views | backend/app/routes/orders.py:141-175 | each order becomes its own view, in order |
| Orders.MyOrdersListing | backend/app/routes/orders.py:128-177 | the listing holds exactly the caller's orders, newest first |
| Orders.UpdateOrderStatus | backend/app/routes/orders.py:293-312 | a text outside the four statuses is a 422; a missing order is a 404; otherwise only that order's status changes, and the answer echoes the status text |
| Orders.AnyTransitionAllowed | backend/app/routes/orders.py:309 | there are no transition rules: every status can be set from every status |
| Ledger.DeleteOrder | backend/app/db_models.py:117-124 | deleting an order removes it and every item that belongs to it, and nothing else |
| Ledger.FilterOrders | backend/app/db_models.py:117 | keeps exactly the orders the test accepts |
| Ledger.FilterItems | backend/app/db_models.py:124 | keeps exactly the items the test accepts |
| Models.ParseOrderStatus | backend/app/db_models.py:95-99 | a text is read as the status whose value it is, and only then |
| Models.InsertUser | backend/app/db_models.py:41-43 | a new user is active, and has the user role unless another is given |
| Models.InsertProduct | backend/app/db_models.py:58-69 | stock defaults to 0; discount and voucher default to off |
| Models.InsertOrder | backend/app/db_models.py:107-110 | a new order is pending with payment status "pending" |
| Models.LowerOfValue | backend/app/db_models.py:95-99 | every status value is already lower case |
| Models.ReviewableIsCompleted | backend/app/routes/comments.py:190 | of the four statuses only completed passes the completed-or-delivered test |
| Orders.PurchasePriceIgnoresCatalogue | backend/app/db_models.py:127 | the price and quantity an order line shows are those recorded at purchase whatever the catalogue looks like when the order is viewed |
| Ledger.StockOnlyAt | backend/app/routes/payments.py:261-274 | after the cart loop, the product at any position is unchanged when the cart does not name it, and otherwise ends with non-negative stock equal to `max(0, stock - total ordered)` when no quantity is negative |
| Ledger.ItemsAppendedCompose | backend/app/routes/payments.py:261-274 | order items recorded for a first run of cart lines and then for the remaining lines amount to the items recorded for all the lines, in order |
| Orders.ViewsKeepOrders | backend/app/routes/orders.py:128-177 | views built one per order list exactly those orders and keep their newest-first order |
| Orders.StoredAddress | backend/app/routes/orders.py:102 | missing customer details or a missing address key store the empty text; a null address stores no address; null customer details have no value (the route fails) |
| Orders.WebhookOrder | backend/app/routes/orders.py:95-103 | the new order is processing and paid through the gateway, belongs to the session's user, costs the cents over 100 and carries exactly the given address and no notes |
| Orders.ViewsEveryItem | backend/app/routes/orders.py:202-220 | every item of the order appears among the shown lines with its product's name, quantity and price |
| Products.Project | backend/app/routes/products.py:37-59 | the response carries a discount group exactly when the discount is on, a voucher group exactly when the voucher is on, and always an empty colour list |
| Products.ProjectKeepsColumns | backend/app/routes/products.py:37-59 | every column of the product can be read back from its response, apart from a switched-off group |
| Products.ProjectAll | backend/app/routes/products.py:35-60 | one response per product, in order |
| Products.Filter | backend/app/routes/products.py:23-30 | keeps exactly the products of the given category whose name or description contains the given term, ignoring case; an absent filter keeps everything |
| Products.GetProducts | backend/app/routes/products.py:12-62 | a negative skip or a limit above 100 is a 422; otherwise entry i of the page is the (skip + i)-th product matching the category and search, and the page holds min(limit, matches - skip) of them |
| Products.ListingPage | backend/app/routes/products.py:23-32 | a listing page holds, position by position, the matches from `skip` on, each a match, and every match when the first page holds them all |
| Products.GetProduct | backend/app/routes/products.py:64-101 | succeeds exactly when a product has that id and returns its response; otherwise 404 "Product not found" |
| Products.ApplyUpdate | backend/app/routes/products.py:148-172 | each supplied scalar field replaces its column, a supplied discount or voucher group replaces the whole group, and everything else is kept |
| Products.ApplyUpdateLaws | backend/app/routes/products.py:148-172 | an empty update changes nothing, and applying an update twice is the same as applying it once |
| Products.UpdateProduct | backend/app/routes/products.py:133-177 | 404 for an unknown product; otherwise only that product changes, as the update says |
| Products.IndexOfProduct | backend/app/routes/products.py:141 | finds a product with that id exactly when one exists |
| Products.Categories | backend/app/routes/products.py:197-202 | exactly the non-empty categories that occur, each listed once |
| Products.Sellers | backend/app/routes/products.py:211-222 | exactly the products with at least one sale |
| Products.InStock | backend/app/routes/products.py:231 | exactly the products with stock above zero |
| Products.Take | backend/app/routes/products.py:224-231 | the first `min(n, length)` elements |
| Products.OrdersAreTotal | backend/app/routes/products.py:223-231 | ranking by units sold and ranking by creation time are both total preorders |
| Products.GetBestsellers | backend/app/routes/products.py:204-262 | a limit above 20 is a 422; otherwise at most `limit` products, none more often than stored: the best sellers by units sold when anything has sold, else the newest products in stock |
| Products.RankSellers | backend/app/routes/products.py:211-224 | the top sellers: `min(limit, sellers)` products with sales, none repeated beyond the table, most sold first, none left out that sold more than one kept |
| Products.Newest | backend/app/routes/products.py:230-231 | `min(limit, in stock)` products in stock, none repeated beyond the table, newest first, and no product in stock left out is newer than one kept |
| Products.RankedMembers | backend/app/routes/products.py:223 | a ranking is a permutation, so it keeps exactly the ranked products |
| Products.TopBeatsRest | backend/app/routes/products.py:223-224 | in a ranking, every product cut off by the limit sold no more than each product kept |
| Products.RankingIsTop | backend/app/routes/products.py:211-224 | the first `limit` products of any ranking of the sellers by units sold are the top sellers |
| Products.NewestBeatRest | backend/app/routes/products.py:231 | in a newest-first listing, every product cut off by the limit is no newer than each product kept |
| Products.TakeWithin | backend/app/routes/products.py:224 | a limited listing holds each product no more often than the full listing |
| Products.SaleNeedsCompletedPaidOrder | backend/app/routes/products.py:216-221 | an order item counts as a sale exactly when its order is completed and its payment status is "completed" |
| Products.FirstOrderWithId | backend/app/routes/products.py:217 | the order an item joins with is one of the stored orders |
| Products.UpdateKeepsUniqueVoucherCodes | backend/app/routes/products.py:165-170 | with unique ids and voucher codes, the updated catalogue still has unique voucher codes exactly when the update leaves the voucher group alone or brings a code no other product holds |
| Products.PageProjected | backend/app/routes/products.py:32-62 | the page of projected rows has min(limit, matches - skip) entries and entry i is the projection of match skip + i |
| Products.HitsMatch | backend/app/routes/products.py:23-32 | every product on the page matches the category and search filters |
| Products.FilterAppend | backend/app/routes/products.py:23-30 | filtering two tables laid end to end filters each |
| Products.HitsShown | backend/app/routes/products.py:23-32 | when the first page holds every hit, every product passing the filters is shown |
| Wishlists.IndexOf | backend/app/routes/wishlists.py:68-71 | finds an entry of the caller for the product exactly when the caller lists it |
| Wishlists.GetWishlist | backend/app/routes/wishlists.py:11-21 | holds exactly the caller's entries, newest first |
| Wishlists.Add | backend/app/routes/wishlists.py:23-59 | 404 exactly when the product is unknown, 400 when the caller already lists it, otherwise the old wishlist plus one entry for the caller and product with a fresh id |
| Wishlists.AddKeepsOnePerProduct | backend/app/routes/wishlists.py:39-53 | a successful add keeps every user listing each product at most once |
| Wishlists.Remove | backend/app/routes/wishlists.py:61-82 | 404 exactly when the caller does not list the product; otherwise only that entry is removed |
| Wishlists.Check | backend/app/routes/wishlists.py:84-96 | true exactly when the caller lists the product |
| Wishlists.RemoveUnlists | backend/app/routes/wishlists.py:61-82 | after a removal the product is no longer listed, the set invariant still holds, and every other entry survives |
| Wishlists.AddThenRemove | backend/app/routes/wishlists.py:23-82 | adding a product and removing it again leaves the wishlist as it was, and in between the product is listed |
| Wishlists.OwnEntries | backend/app/routes/wishlists.py:17-19 | holds exactly the entries of the caller |
| Uploads.MimeOr | backend/app/routes/collections.py:36 | the stored media type when it is present and non-empty, otherwise image/jpeg; never empty |
| Uploads.Replace | backend/app/routes/collections.py:157-160 | an upload with a file name replaces the stored image and media type; anything else leaves both as they were |
| Uploads.DataUrl | backend/app/routes/banners.py:16-21 | empty exactly when there are no bytes; otherwise a `data:` URL |
| Uploads.ImageUrl | backend/app/routes/collections.py:59-62 | an image URL is present exactly when the stored image has bytes, and it is never empty |
| Uploads.SplitAtFirst | backend/app/routes/banners.py:21 | cutting at the first separator gives back the two parts joined around it, when the first part lacks the separator |
| Uploads.DataUrlRoundTrip | backend/app/routes/banners.py:16-21 | reading a data URL back yields the media type and the encoded bytes it was built from |
| Collections.View | backend/app/routes/collections.py:64-70 | a view keeps the id, name and description and has an image URL exactly when an image with bytes is stored |
| Collections.ViewImageUrl | backend/app/routes/collections.py:58-62 | the image URL of a view names the stored media type (JPEG when missing) and carries the encoded image |
| Collections.HolderOf | backend/app/routes/collections.py:142-145 | finds a collection with the name other than the excluded id exactly when one exists |
| Collections.GetAll | backend/app/routes/collections.py:25-46 | one view per collection, in table order |
| Collections.GetCollection | backend/app/routes/collections.py:48-70 | 404 exactly when no collection has the id; otherwise the view of that collection |
| Collections.CreateCollection | backend/app/routes/collections.py:72-120 | a name left out or sent empty is the 422 "Field required"; otherwise 400 exactly when the name is already held, and else one new collection at the end with a fresh id, the given name, the description (none when sent empty), and the upload's image only when it has a file name |
| Collections.CreateKeepsUniqueNames | backend/app/routes/collections.py:81-106 | a successful create keeps names and ids unique |
| Collections.Apply | backend/app/routes/collections.py:139-160 | a name or description sent non-empty replaces the stored one, and one left out or sent empty keeps it; a supplied image replaces the bytes and type; an empty update changes nothing |
| Collections.UpdateCollection | backend/app/routes/collections.py:122-177 | 404 exactly for an unknown id; 400 exactly when a non-empty new name is held by another collection; otherwise only that collection changes |
| Collections.RenameToOwnName | backend/app/routes/collections.py:140-151 | renaming a collection to its current name is never refused |
| Collections.EmptyNameKeepsName | backend/app/routes/collections.py:125-151 | a name sent empty reaches the route as left out: nothing is renamed and nothing clashes |
| Collections.UpdateKeepsUniqueNames | backend/app/routes/collections.py:140-151 | a successful update keeps names and ids unique |
| Collections.DeleteCollection | backend/app/routes/collections.py:179-195 | 404 exactly for an unknown id; otherwise exactly that collection goes |
| Collections.DeleteThenGetNotFound | backend/app/routes/collections.py:179-195 | once deleted, a collection can no longer be fetched |
| Banners.BeforeIsTotal | backend/app/routes/banners.py:39 | display order then newest first is a total preorder, so the listings are sorted |
| Banners.Select | backend/app/routes/banners.py:31-37 | holds exactly the banners the filter keeps |
| Banners.Ordered | backend/app/routes/banners.py:39 | holds exactly the kept banners, by display order and, within one order, newest first |
| Banners.GetActiveBanners | backend/app/routes/banners.py:70-96 | holds exactly the active banners whose window contains now and whose type matches a given type, by display order and, within one display order, newest first |
| Banners.GetAllBanners | backend/app/routes/banners.py:23-39 | holds exactly the banners matching a given status and type, whatever their schedule, by display order and, within one display order, newest first |
| Banners.WindowInclusive | backend/app/routes/banners.py:81-91 | a banner shows at its start and at its end instant and not one instant outside them |
| Banners.ActiveAmongAll | backend/app/routes/banners.py:23-96 | every banner the public listing shows is also in the admin listing, unfiltered or filtered to active |
| Banners.UrlsOf | backend/app/routes/banners.py:149-150 | each image field is present exactly when that image has bytes stored |
| Banners.GetBanner | backend/app/routes/banners.py:127-139 | 404 exactly when no banner has the id; otherwise that banner |
| Banners.CreateDate | backend/app/routes/banners.py:188-200 | a date left out or sent empty is none; otherwise the parsed date, or none when the text is not a date |
| Banners.CreateBanner | backend/app/routes/banners.py:165-233 | a title left out or sent empty is the 422 "Field required"; otherwise one new banner at the end with a fresh id and zero counters, where a type, status or link target left out or sent empty takes its default promotional, inactive or _self, an optional text sent empty is stored as none, and only images with file names are stored |
| Banners.NewBannerHidden | backend/app/routes/banners.py:171 | a titled banner created with its status left out or sent empty is inactive and never shows publicly |
| Banners.CreateStoresNoEmptyText | backend/app/routes/banners.py:165-216 | a created banner stores no empty title, type, status, link target or optional text |
| Banners.UpdateDate | backend/app/routes/banners.py:316-325 | a date left out or sent empty keeps the stored date, a valid one replaces it, and text that is not a date keeps it |
| Banners.ApplyUpdate | backend/app/routes/banners.py:259-337 | field by field, each text field left out or sent empty keeps its stored value and each non-empty one replaces it; a supplied image replaces the stored bytes and type; the id, creation time and counters never change |
| Banners.UpdateLaws | backend/app/routes/banners.py:289-337 | an update supplying nothing changes nothing, and applying the same update twice equals applying it once |
| Banners.UpdateKeepsNoEmptyText | backend/app/routes/banners.py:289-325 | an update never brings an empty text into a banner that had none |
| Banners.ClearedEndStaysHidden | backend/app/routes/banners.py:321-325 | clearing the end date in the admin form, which sends it empty, keeps the stored end date, so a banner whose window has closed stays hidden |
| Banners.UpdateBanner | backend/app/routes/banners.py:259-340 | 404 exactly for an unknown id; otherwise only that banner changes, as the update form dictates |
| Banners.DeleteBanner | backend/app/routes/banners.py:366-382 | 404 exactly for an unknown id; otherwise exactly that banner goes |
| Banners.TrackView | backend/app/routes/banners.py:384-399 | 404 exactly for an unknown id; otherwise that banner's view count rises by one and nothing else changes |
| Banners.TrackClick | backend/app/routes/banners.py:401-416 | 404 exactly for an unknown id; otherwise that banner's click count rises by one and nothing else changes |
| Banners.TotalAfterBump | backend/app/routes/banners.py:397 | raising one banner's counter by one raises the sum over all banners by one |
| Banners.TotalUnchanged | backend/app/routes/banners.py:414 | replacing a banner by one with the same counter keeps the sum |
| Banners.TrackingCountsOne | backend/app/routes/banners.py:384-416 | a tracked view adds exactly one to the total views and none to the total clicks; a tracked click adds exactly one to the total clicks |
| Users.Filter | backend/app/routes/users.py:24-34 | holds exactly the users whose role and status equal the given texts and whose username or email contains the search text ignoring case, each filter applying only when given |
| Users.GetUsers | backend/app/routes/users.py:11-37 | a negative skip or a limit above 100 is a 422; otherwise entry i of the page is the (skip+i)-th matching user, and the page holds min(limit, matches - skip) of them |
| Users.ConsecutivePages | backend/app/routes/users.py:11-37 | the page of a users at skip followed by the page of b users at skip + a is the page of a + b users at skip: paging misses and repeats no one |
| Users.PageOfHits | backend/app/routes/users.py:24-37 | every listed user matches the filters, and a first page that holds every match lists them all |
| Users.NoFilterKeepsAll | backend/app/routes/users.py:22-36 | with no filter every user is listed |
| Users.GetUser | backend/app/routes/users.py:39-52 | 404 exactly when no user has the id; otherwise that user |
| Users.ValidEmail | backend/app/schemas/user.py:13-19 | the address the route sees is the validator's normalised one, and a refused address is the 422 "value is not a valid email address: " followed by the reason |
| Users.HolderOf | backend/app/routes/users.py:118-121 | finds a user with the email other than the excluded id exactly when one exists |
| Users.CreateUser | backend/app/routes/users.py:54-82 | a body whose email the `EmailStr` validator refuses is a 422; otherwise 400 exactly when the normalised email is registered, and else one new active user with that normalised email, a fresh id and the requested role (the user role when none is given) |
| Users.CreateKeepsUniqueEmails | backend/app/routes/users.py:61-67 | a successful create keeps emails unique |
| Users.Apply | backend/app/routes/users.py:113-131 | field by field, username, email, role and status keep their stored value when left out and take the supplied value when given; the id, password hash and creation time never change |
| Users.UpdateProblem | backend/app/routes/users.py:92-126 | the first failing guard in the order the route checks them: 404, 403 for the built-in accounts, 403 for a role change by anyone but admin@admin.com, 400 for an email held by another user; none exactly when all pass |
| Users.ValidUpdate | backend/app/schemas/user.py:17-21 | a body without an email passes unchanged; a refused email is the 422; an accepted one is replaced by its normalised form |
| Users.UpdateUser | backend/app/routes/users.py:84-136 | a supplied email the `EmailStr` validator refuses is a 422 before any guard; otherwise it fails exactly with the first failing guard on the normalised body, and else only the target user changes |
| Users.OnlySystemAdminChangesRoles | backend/app/routes/users.py:106-111 | a role change asked for by anyone but the system administrator is always refused |
| Users.ProtectedUnchanged | backend/app/routes/users.py:99-104 | the built-in accounts come out of every successful update unchanged |
| Users.UpdateKeepsUniqueEmails | backend/app/routes/users.py:116-127 | a successful update keeps emails unique |
| Users.DeleteUser | backend/app/routes/users.py:138-168 | 404 exactly for an unknown id, 400 for the caller's own account, 403 for the built-in accounts; otherwise exactly that user goes |
| Users.SelfCheckedFirst | backend/app/routes/users.py:152-164 | the system administrator deleting their own account gets the own-account error, not the protected-account one |
| Users.ProtectedNeverDeleted | backend/app/routes/users.py:159-164 | no successful deletion removes a built-in account |
| Auth.RoleOf | backend/app/routes/auth.py:36 | administrator exactly when the requested role lower-cases to "admin" |
| Auth.Register | backend/app/routes/auth.py:17-47 | a body whose email the `EmailStr` validator refuses is a 422; otherwise 400 exactly when the normalised email is registered, and else one new active user with the normalised email whose role is administrator exactly when the requested role lower-cases to "admin" |
| Auth.SpellingsCollide | backend/app/routes/auth.py:24-30 | a second registration with a spelling the validator normalises to the same address is refused as already registered |
| Auth.AdminInAnyCase | backend/app/routes/auth.py:36 | "ADMIN" and "Admin" register administrators; "user" and "administrator" do not |
| Auth.Login | backend/app/routes/auth.py:60-100 | a refused email is a 422; otherwise the account is looked up by the normalised email, with the same 401 for an unknown email and a wrong password, 403 for the right password on an account that is not active, and else a token for the user's email reporting the user's role |
| Auth.LoginBySpelling | backend/app/routes/auth.py:67-76 | two spellings the validator normalises to the same address log in to the same account with the same outcome |
| Auth.InactiveNeedsCredentials | backend/app/routes/auth.py:70-82 | the inactive-account answer is given only to a caller who knows the account's password |
| Auth.RegisterThenLogin | backend/app/routes/auth.py:17-100 | a freshly registered user logs in with the same spelling of the email and a password the stored hash accepts, and gets a token for the normalised email with the mapped role |
| Auth.FirstByEmailIsLast | backend/app/routes/auth.py:68 | the first user with an email is the last row when no earlier row has that email |
| Activity.AuthFirst | backend/app/middleware/logging_middleware.py:81-87 | a login path is always a login; register and logout are chosen exactly when no earlier authentication rule matched |
| Activity.ProductMethods | backend/app/middleware/logging_middleware.py:89-98 | on a products path each of GET, POST, PUT/PATCH and DELETE has its product type, and any other verb falls through to the later rules |
| Activity.CartAndOrders | backend/app/middleware/logging_middleware.py:100-114 | a cart path is always a cart activity, an add exactly for POST and a removal exactly for DELETE; an orders path is always an order activity, an update exactly for PUT or PATCH |
| Activity.AdminAndDefault | backend/app/middleware/logging_middleware.py:116-121 | an admin action exactly when no earlier rule applies and the path mentions /admin; a page view exactly when no rule applies |
| Activity.AdminProductsIsProductView | backend/app/middleware/logging_middleware.py:89-92 | reading /admin/products is filed as a product view, not as an admin action |
| Activity.Dispatch | backend/app/middleware/logging_middleware.py:21-67 | no log row exactly for the skipped path prefixes; otherwise a row with the classified type, the token's user and the description verb, space, path, from which the path reads back |
| Activity.ApiNeverLogged | backend/app/middleware/logging_middleware.py:22-26 | no path under /api/ is ever logged by this middleware |
| Customers.CountryCode | backend/app/services/stripe_service.py:17-32 | the listed code of each of the ten listed countries, "ID" for any other name; always a listed code |
| Customers.CountryName | backend/app/services/stripe_service.py:20-31 | a country name exactly for the ten listed codes |
| Customers.CountryRoundTrip | backend/app/services/stripe_service.py:17-32 | a listed country survives the trip to its code and back, every listed code does too, and an unlisted name comes back as Indonesia |
| Customers.ShippingOf | backend/app/services/stripe_service.py:48-56 | the recipient is the full name, or the username when that is empty; a missing state becomes ""; the country is sent as its listed code; the other fields are passed through |
| Customers.TablePairs | backend/app/services/stripe_service.py:17-32 | every listed country code maps back to the country name at the same place in the table |
| Activity.Classify | backend/app/middleware/logging_middleware.py:78-121 | every activity type but a page view is backed by its keyword in the path (auth, products, cart, orders, admin), and a path with none of them is a page view |
| Cart.Norm | frontend/contexts/CartContext.tsx:53-55 | an empty or missing size or colour becomes none; any other value is kept |
| Cart.FindKey | frontend/contexts/CartContext.tsx:57-63 | finds an entry with the product, size and colour (empty counting as none) exactly when one exists |
| Cart.AddToCart | frontend/contexts/CartContext.tsx:51-83 | with the key present only that entry's quantity grows, by the given quantity or 1; otherwise one entry is appended with empty size or colour stored as none |
| Cart.AddKeepsUniqueKeys | frontend/contexts/CartContext.tsx:57-81 | adding keeps every (product, size, colour) key on at most one entry |
| Cart.RemoveFromCart | frontend/contexts/CartContext.tsx:85-89 | every entry except the one at the position, in order; a position outside the cart removes nothing |
| Cart.UpdateQuantity | frontend/contexts/CartContext.tsx:91-102 | a quantity of zero or less removes the entry; otherwise only that entry takes the new quantity |
| Cart.SumsAppend | frontend/contexts/CartContext.tsx:108-117 | the count and the total of two carts laid end to end are the sums of their counts and totals |
| Cart.SumsUpdate | frontend/contexts/CartContext.tsx:108-117 | replacing one entry changes the count and the total by exactly the difference of that entry |
| Cart.AddCounts | frontend/contexts/CartContext.tsx:51-117 | an add raises the count by the quantity added and the total by that quantity times the price of the entry receiving it |
| Cart.LineTotalGrows | frontend/contexts/CartContext.tsx:110-111 | adding q units to an entry adds q times its price to its line |
| Cart.RemoveCounts | frontend/contexts/CartContext.tsx:85-117 | removing an entry takes exactly its quantity off the count and its line off the total |
| Cart.ClearedIsZero | frontend/contexts/CartContext.tsx:104-117 | a cleared cart has total and count zero |
| Cart.EditsKeepUniqueKeys | frontend/contexts/CartContext.tsx:85-102 | removing and re-quantifying keep every key on at most one entry |
| Currency.Group | frontend/lib/utils/currency.ts:10 | a number of at most three digits is left as it is |
| Currency.RemoveDotsAppend | frontend/lib/utils/currency.ts:10 | dropping the dots of two texts laid end to end is dropping them from each |
| Currency.GroupUngroups | frontend/lib/utils/currency.ts:10 | the dots are the only thing grouping adds to a digit string |
| Currency.FormatIDRReadsBack | frontend/lib/utils/currency.ts:5-11 | dropping the dots from a formatted amount gives its plain decimal form, which parses back to the amount |
| Currency.GroupIsWellGrouped | frontend/lib/utils/currency.ts:10 | grouping a digit string gives one to three digits, then dot-led groups of exactly three |
| Currency.FormatIDRShape | frontend/lib/utils/currency.ts:5-11 | every non-negative amount comes out in well-formed groups, with no dot below 1000 |
| Currency.FormatExample | frontend/lib/utils/currency.ts:1-27 | 1500000 formats as 1.500.000, Rp 1.500.000 and IDR 1.500.000 |
| Currency.CalculateDiscountedPrice | frontend/lib/utils/currency.ts:29-42 | none exactly without an enabled discount of a known kind; a percentage discount of v gives price × (1 − v/100); a fixed one gives max(0, price − v), never negative and, when v is non-negative, at most the price |
| Currency.GetFinalPrice | frontend/lib/utils/currency.ts:44-50 | the discounted price whenever there is one and the list price otherwise: price × (1 − v/100) for an enabled percentage, max(0, price − v) for an enabled fixed amount |
| Currency.FinalPriceBounds | frontend/lib/utils/currency.ts:29-50 | with a percentage between 0 and 100 or a non-negative fixed amount, the final price lies between zero and the list price |
| Currency.AgreesWithCheckout | frontend/lib/utils/currency.ts:29-50 | the price the storefront shows equals the unit price the checkout charges, for a non-negative list price and a discount carrying a value |
| Csv.Escape | frontend/lib/utils/csv-export.ts:35 | a text without quotes is unchanged, and escaping never shortens |
| Csv.Cell | frontend/lib/utils/csv-export.ts:29-36 | a missing value is an empty quoted cell |
| Csv.Cells | frontend/lib/utils/csv-export.ts:25-37 | one cell per column, each the cell of that column's formatted value |
| Csv.HeaderCells | frontend/lib/utils/csv-export.ts:21 | one cell per column, its header in quotes without escaping |
| Csv.Lines | frontend/lib/utils/csv-export.ts:24-38 | one comma-joined line per record, in order |
| Csv.ConvertToCsv | frontend/lib/utils/csv-export.ts:15-41 | empty exactly when there is no data |
| Csv.JoinNonEmpty | frontend/lib/utils/csv-export.ts:40 | joining at least two parts with a non-empty separator is never empty |
| Csv.ReadQuoted | frontend/lib/utils/csv-export.ts:34-36 | a successful read of a quoted field consumes at least one character |
| Csv.ReadFields | frontend/lib/utils/csv-export.ts:25-37 | a successful read of a line's fields consumes at least one character |
| Csv.CellRoundTrip | frontend/lib/utils/csv-export.ts:29-36 | reading a cell back un-doubles its quotes and yields the value's text, stopping right after the cell |
| Csv.Texts | frontend/lib/utils/csv-export.ts:25-37 | the text a reader recovers for each value, position by position |
| Csv.CellsOf | frontend/lib/utils/csv-export.ts:25-37 | the cell of each value, position by position |
| Csv.ReadLine | frontend/lib/utils/csv-export.ts:25-37 | a comma-joined line of cells reads back as the values' texts, stopping at the line's end |
| Csv.RowValues | frontend/lib/utils/csv-export.ts:26-27 | the formatted value of each column, whose cells are the record's cells |
| Csv.HeaderValues | frontend/lib/utils/csv-export.ts:21 | each header as a present value |
| Csv.DataTexts | frontend/lib/utils/csv-export.ts:24-38 | per record, the texts of its formatted values |
| Csv.ReadLines | frontend/lib/utils/csv-export.ts:24-40 | the newline-joined data lines read back as the records' texts |
| Csv.HeadersAreCells | frontend/lib/utils/csv-export.ts:21 | for headers without quotes the unescaped header cells equal properly escaped cells |
| Csv.ExportReadsBack | frontend/lib/utils/csv-export.ts:15-41 | for headers without quotes, the export reads back as the header row followed by every record's texts, in order |
| Csv.ReadEscaped | frontend/lib/utils/csv-export.ts:35-36 | an escaped text followed by the closing quote reads back as the text, stopping right after the quote |
| Cart.MergeCounts | frontend/contexts/CartContext.tsx:65-69 | raising one existing entry's quantity by `q` raises the cart count by `q` and the cart total by `q` times that entry's stored price |
| Cart.AppendCounts | frontend/contexts/CartContext.tsx:70-80 | appending a new entry raises the count by its quantity and the total by its line total |
| Currency.GroupExample | frontend/lib/utils/currency.ts:5-11 | 1500000 is grouped as "1.500.000", thousands separated by dots |
| Csv.ReadDoubled | frontend/lib/utils/csv-export.ts:35-36 | a doubled quote inside a quoted field reads back as one quote character, the rest of the reading unchanged |
| Csv.ReadClosing | frontend/lib/utils/csv-export.ts:35-36 | a lone quote not followed by another ends the quoted field with nothing more read, leaving the text after it |
| Cart.SumBounds | frontend/contexts/CartContext.tsx:108-117 | with no negative quantity the count is not negative, and with every quantity at least one it is at least the number of entries; with no negative price or quantity the total is not negative |
| Cart.AddMergedCounts | frontend/contexts/CartContext.tsx:57-69 | merging into an existing entry raises the count by the quantity and the total by that quantity times the stored entry's price |
| Cart.AddAppendedCounts | frontend/contexts/CartContext.tsx:70-80 | appending a new entry raises the count by the quantity and the total by that quantity times the new product's price |
| Currency.FormatIDR | frontend/lib/utils/currency.ts:5-11 | the dots are all formatting adds to the plain decimal form of the amount, and a non-negative amount comes out in well-formed groups of three |
| Currency.FormatRupiah | frontend/lib/utils/currency.ts:13-19 | the text starts with "Rp " and, without its dots, the rest is the amount's decimal form |
| Currency.FormatCurrency | frontend/lib/utils/currency.ts:21-27 | the text starts with "IDR " and, without its dots, the rest is the amount's decimal form |
| Currency.PrefixedReadBack | frontend/lib/utils/currency.ts:13-27 | the Rp and IDR formats carry their prefix and read back to the amount without it |
| Session.GetUser | frontend/lib/services/auth.ts:62-85 | no user and the store untouched when the user or the timestamp is missing; no user and the session keys cleared when the timestamp is over two hours old; otherwise the stored user and the store untouched |
| Session.SetUser | frontend/lib/services/auth.ts:87-90 | the user key holds the given JSON and the timestamp key the current time, which reads back with `parseInt`; every other key keeps its value |
| Session.Logout | frontend/lib/services/auth.ts:46-52 | exactly the token, user, timestamp and cart keys go; every other key keeps its value |
| Session.IsAdmin | frontend/lib/services/auth.ts:96-99 | true exactly when an unexpired user is stored whose role reads "admin"; the store is what reading the user leaves |
| Session.SetThenGet | frontend/lib/services/auth.ts:62-90 | a user just stored is read back unchanged, without touching the store, for exactly two hours |
| Session.ExpiresAfterTwoHours | frontend/lib/services/auth.ts:70-82 | one millisecond past two hours the user is gone and the token and cart with it |
| Session.LogoutEndsSession | frontend/lib/services/auth.ts:46-99 | after a logout no user is read and the caller is not authenticated |
| Session.GarbageStampNeverExpires | frontend/lib/services/auth.ts:71-75 | a timestamp that is not a number never expires the stored user |
| PageTracking.CountChar | frontend/hooks/usePageTracking.ts:24 | a character occurs no more often than the text is long |
| PageTracking.Split | frontend/hooks/usePageTracking.ts:24 | splitting gives one more piece than there are separators |
| PageTracking.CountCharAppend | frontend/hooks/usePageTracking.ts:24 | the separators of two texts laid end to end are those of each |
| PageTracking.ProductPathsHaveThreePieces | frontend/hooks/usePageTracking.ts:24 | a path containing /products/ always splits into more than two pieces, so that test never decides |
| PageTracking.ClassifyRules | frontend/hooks/usePageTracking.ts:20-30 | admin action exactly for paths with /admin; product view exactly for other paths with /products/; then cart, then orders; page view exactly when no rule applies |
| PageTracking.AdminWins | frontend/hooks/usePageTracking.ts:22-25 | every page under /admin/products/ contains /products/ and is still an admin action, never a product view |
| Carousel.Next | frontend/components/BannerCarousel.tsx:50-52 | stays among the banners and wraps from the last to the first |
| Carousel.Previous | frontend/components/BannerCarousel.tsx:46-48 | stays among the banners and wraps from the first to the last |
| Carousel.NextPreviousInverse | frontend/components/BannerCarousel.tsx:46-52 | forward then back, or back then forward, returns to the same banner |
| Carousel.FullTurn | frontend/components/BannerCarousel.tsx:39-41 | k steps forward land k places on, wrapping once; n steps come back to the start |
| Carousel.Steps | frontend/components/BannerCarousel.tsx:39-41 | repeated timer steps stay among the banners |
| Carousel.Step | frontend/components/BannerCarousel.tsx:36-52 | the position stays among the banners, and events do nothing when there is at most one banner and so no controls |
| Carousel.Run | frontend/components/BannerCarousel.tsx:11-123 | after any events the position names a banner; it stays at the first with one banner or none |
| Carousel.DotClickShows | frontend/components/BannerCarousel.tsx:118-125 | with more than one banner, clicking a banner's dot shows that banner whatever came before |
| Carousel.NoControlsNoMove | frontend/components/BannerCarousel.tsx:98 | with one banner or none, no event moves the carousel off the first position |
| AdminProducts.PlaceholderRejected | frontend/app/admin/products/page.tsx:13-18 | a placeholder.com link, a blank link and no link are rejected; an ordinary link is shown |
| AdminProducts.FinalPrice | frontend/app/admin/products/page.tsx:178-187 | the list price without a discount and for an enabled discount whose value is null; a percentage takes that share off; any other kind is taken off as an amount |
| AdminProducts.TableAgreesWithCheckout | frontend/app/admin/products/page.tsx:178-187 | whenever an enabled non-percentage discount with a value is a fixed amount within the price, the table shows the unit price the checkout charges |
| AdminProducts.FixedDiscountCanShowNegative | frontend/app/admin/products/page.tsx:183 | a fixed 15 off a price of 10 shows -5, while the checkout charges 0 |
| AdminProducts.StockBadge | frontend/app/admin/products/page.tsx:316-320 | empty exactly at zero stock or less, plenty exactly above 50, low in between |
| AdminProducts.BadgeMonotone | frontend/app/admin/products/page.tsx:316-320 | more stock never gives a worse badge |
| AdminProducts.AddColor | frontend/app/admin/products/page.tsx:543-550 | a non-empty colour not yet listed is appended and the input cleared; otherwise nothing changes; the colours stay distinct |
| AdminProducts.RemoveColor | frontend/app/admin/products/page.tsx:571-575 | the colour at the position goes and the rest keep their order; a position outside the list removes nothing |
| AdminProducts.RemoveColorDrops | frontend/app/admin/products/page.tsx:571-575 | removing keeps the colours distinct, drops the clicked colour and keeps every other |
| AdminProducts.AddThenRemoveLast | frontend/app/admin/products/page.tsx:543-575 | adding a colour and then removing the last restores the list |
| WishlistPage.FinalPrice | frontend/app/settings/wishlist/page.tsx:87-97 | the list price without a discount, for an unknown kind or for a zero or missing value; a fixed amount is taken off unclamped |
| WishlistPage.PageAgreesWithCheckout | frontend/app/settings/wishlist/page.tsx:87-97 | unless a fixed amount exceeds the price, the page shows the unit price the checkout charges |
| WishlistPage.PositiveDiscountShows | frontend/app/settings/wishlist/page.tsx:137-138 | a positive percentage or amount on a positive price is shown as a discount |
| WishlistPage.Note | frontend/app/settings/wishlist/page.tsx:200-208 | "out of stock" exactly at zero; a remaining count exactly below 10 otherwise; nothing from 10 on |
| WishlistPage.DisabledIffOutOfStock | frontend/app/settings/wishlist/page.tsx:200-213 | the add button is disabled exactly when the page says out of stock; negative stock shows a count and stays enabled |
| WishlistPage.Dashes | frontend/app/settings/wishlist/page.tsx:83 | no white space remains and the text never grows; with DashesRun, each run of white space becomes exactly one dash |
| WishlistPage.DashesKeepsPlain | frontend/app/settings/wishlist/page.tsx:83 | a text without white space is unchanged |
| WishlistPage.DashesKeepsLower | frontend/app/settings/wishlist/page.tsx:83 | a lower-case text stays lower case |
| WishlistPage.SlugIdempotent | frontend/app/settings/wishlist/page.tsx:82-85 | a slug is its own slug |
| WishlistPage.DashesPlainPrefix | frontend/app/settings/wishlist/page.tsx:83 | a prefix without white space passes through unchanged |
| WishlistPage.SkipRun | frontend/app/settings/wishlist/page.tsx:83 | a whole run of white space is consumed, and nothing after it |
| WishlistPage.DashesRun | frontend/app/settings/wishlist/page.tsx:83 | a word, a run of white space and the rest become the word, one dash and the rest with its runs replaced |
| WishlistPage.SlugJoinsWords | frontend/app/settings/wishlist/page.tsx:83 | the slug of a word, a white-space run and the rest is the lower-cased word, one dash and the slug of the rest |
| WishlistPage.LowerAppend | frontend/app/settings/wishlist/page.tsx:83 | lower-casing works piece by piece |
| WishlistPage.AddFromWishlist | frontend/app/settings/wishlist/page.tsx:65-80 | the add goes through the cart's add with no quantity, size or colour: one more unit, merged into a line of the product with no size and no colour when there is one, and otherwise a new such line |
| WishlistPage.AddFromWishlistKeepsUniqueKeys | frontend/app/settings/wishlist/page.tsx:69-77 | adding from the wishlist keeps one cart line per product, size and colour |
| WishlistPage.AddTwiceMerges | frontend/app/settings/wishlist/page.tsx:69-77 | adding the same product twice from the wishlist leaves one line, not two |
| WishlistPage.Without | frontend/app/settings/wishlist/page.tsx:59 | keeps exactly the entries of other products |
| WishlistPage.WithoutAppend | frontend/app/settings/wishlist/page.tsx:59 | filtering two lists laid end to end filters each |
| WishlistPage.WithoutAbsent | frontend/app/settings/wishlist/page.tsx:59 | a list without the product is unchanged |
| WishlistPage.WithoutAt | frontend/app/settings/wishlist/page.tsx:59 | with the product only at one position, exactly that entry goes |
| WishlistPage.PageMatchesServer | frontend/app/settings/wishlist/page.tsx:55-63 | for one user's list under the set invariant, the page's filtered list equals the server's list after the removal, or is unchanged when the server answers 404 |
| PageTracking.Classify | frontend/hooks/usePageTracking.ts:20-30 | every activity but a page view is backed by its keyword in the path, only an admin action by /admin; a path with none of the keywords is a page view |
| AdminProducts.ValidImageUrl | frontend/app/admin/products/page.tsx:13-18 | a missing or blank link is rejected, as is one naming placeholder.com; every other link is accepted |
| AdminProducts.PlaceholderHostRejected | frontend/app/admin/products/page.tsx:13-18 | any link naming placeholder.com is rejected, wherever the name sits |
| WishlistPage.Slug | frontend/app/settings/wishlist/page.tsx:82-85 | the slug is lower case, holds no white space and is never longer than the product name |
| WishlistPage.HasDiscount | frontend/app/settings/wishlist/page.tsx:137-138 | only an enabled percentage or fixed discount with a non-zero value shows; a fixed one exactly when its value is positive, a percentage exactly when value and price share a strict sign |
| Payments.LineName | backend/app/routes/payments.py:83-88 | the line name starts with the product name and equals it exactly when neither a size nor a colour is given |
| Session.SetToken | frontend/lib/services/auth.ts:58-60 | the token key holds the token and every other key keeps its value |
| Common.NextId | backend/app/db_models.py:37 | a new row's identifier is larger than every identifier already in the table |
| Common.Page | backend/app/routes/users.py:36 | at most `limit` rows, the rows from position `skip` on, in order, and exactly min(limit, rows left) of them |
| Common.PagesCompose | backend/app/routes/users.py:36 | two consecutive pages make up the page that spans both |
| Common.FormValue | backend/app/routes/banners.py:168-180 | an optional form field sent empty reaches the route as not sent; any other text reaches it unchanged |
| Common.RequiredForm | backend/app/routes/banners.py:167 | a required form field left out or sent empty is the 422 "Field required"; otherwise its non-empty text |
| Common.JoinContainsAll | frontend/lib/utils/csv-export.ts:40 | every part occurs in the joined text, and a join starting with a non-empty part is not empty |
| Sorting.Insert | backend/app/routes/banners.py:39 | inserting into a sorted listing keeps it sorted and adds exactly the one row |
| Sorting.SortBy | backend/app/routes/banners.py:39 | the listing is a permutation of the selected rows, sorted by the query's order |
| Sorting.SortByMembers | backend/app/routes/banners.py:39 | sorting keeps exactly the rows it was given |
| Decimal.Digits | frontend/lib/utils/currency.ts:10 | at least one digit, no leading zero, and a single digit exactly below ten |
| Decimal.DigitsBelowThousand | frontend/lib/utils/currency.ts:10 | a number is below 1000 exactly when it has at most three digits |
| Decimal.ValueOfDigits | frontend/lib/utils/currency.ts:10 | reading the digits of a number gives the number back |
| Decimal.IntToString | frontend/lib/services/auth.ts:89 | the digits of the number, after a minus sign when it is negative |
| Decimal.DigitPrefix | frontend/lib/services/auth.ts:71 | the longest run of digits the text starts with |
| Decimal.SkipWhitespace | frontend/lib/services/auth.ts:71 | the text after its leading white space: everything skipped is white space and what remains does not start with any |
| Decimal.ParseInt | frontend/lib/services/auth.ts:71 | after white space and a sign, a 0x or 0X prefix switches to hexadecimal; not a number exactly when no digit of the chosen base follows; otherwise the value of the leading run of digits of that base, negated after a minus sign |
| Decimal.ReadMagnitude | frontend/lib/services/auth.ts:71 | after a 0x or 0X prefix, the value of the leading hexadecimal digits, otherwise that of the leading decimal digits; none when there are no such digits |
| Decimal.ParseIntOfDigits | frontend/lib/services/auth.ts:71 | a run of digits, with or without a leading minus, parses to its value |
| Decimal.ParseIntToString | frontend/lib/services/auth.ts:71-89 | the timestamp written as text reads back as the same number |
| Common.IndexBy | backend/app/routes/users.py:46 | the position found holds a row with the key and no earlier row has it; nothing is found exactly when no row has the key |
| Common.FindBy | backend/app/routes/users.py:46 | `query.filter(...).first()` returns a row of the table with the key, and returns nothing exactly when no row has it |
| Decimal.BareHexPrefixIsNaN | frontend/lib/services/auth.ts:71 | "0x" with no hexadecimal digit after it reads as not a number |
| Decimal.HexPrefixExample | frontend/lib/services/auth.ts:71 | "0x1f" reads as 31 |

## Left out

- Payment gateway calls: creating and retrieving checkout sessions, creating and changing customers, verifying webhook signatures. Session and event contents are inputs.
- Rupiah-to-cents conversion: it is float division and truncation, so it is the parameter `toCents`. Only the lower bound of 50 on every amount sent is modelled.
- Parse errors of typed form and query fields: integer, boolean and number fields, such as a banner's display order, reach the model already parsed. The framework's 422 for text that does not parse is not modelled.
- bcrypt, password pre-hashing and JWT signing: the password check is the parameter `verify`, and a token is represented by its subject.
- JSON, base64 and date-string parsing: these are parameters (`decodeCart`, `parseUserId`, `roleOf`, base64, `parseDate`).
- Database session mechanics: flush, commit and rollback. Each handler is one atomic transition.
- Concurrency, including the race between the webhook and the shopper's status poll. The sequential consequence is modelled: `Orders.WebhookThenStatusRecordsTwice`.
- SQL `LIKE` wildcards inside search terms: a search term is matched as a literal substring.
- Case folding is ASCII only. Python's `str.lower`, JavaScript's `toLowerCase` and JavaScript's Unicode `\s` class are restricted to ASCII.
- Enumerated columns holding text outside their enumeration: the model's rows always hold a valid enum.
- Explicit `null` in an address update: a field is either absent or supplied.
- Email sending, PDF rendering, analytics aggregates, request logging sinks and the log query endpoints. These are I/O or float reporting.
- `get_all_orders`, product create and delete, new arrivals, the comment listing endpoints and `/auth/me`. These are plain reads or writes without rules beyond the ones modelled.
- The `created_at` ISO formatting in collection responses: it is presentation.
- The customer create and update calls in the gateway service, and the attribute names it reads. Only the country code and the shipping block it builds are modelled.
- React rendering, `localStorage` persistence, storage events and React's double invocation of state updaters in development mode.
- `formatDateForCSV`, `formatCurrencyForCSV` and `downloadCSV`: these depend on host locale and date libraries and on the browser.
- The pydantic banner schemas: the banner routes read form fields, not those schemas. The response schemas only shape output. The request schemas that do constrain input are modelled: the address form's bounds, the order-status enumeration and the `EmailStr` fields of login, registration and user management.
- The e-mail validator's own rules (what makes an address valid and how it is normalised): it is foreign code, the parameter `check`.
- Frontend HTTP service wrappers and the pages and components beyond the helpers named in the table.
- Products.UpdateProduct: does not check voucher-code uniqueness, because the route does not. The database's UNIQUE constraint then rejects the commit, and a failed commit is not modelled. `Products.UpdateKeepsUniqueVoucherCodes` states exactly when the constraint survives.
- Products.GetProducts: a negative `limit` is not modelled, because `limit` is a `nat`.
- Users.GetUsers: a negative `limit` is not modelled, because `limit` is a `nat`. The route declares only an upper bound of 100, and what the database makes of a negative `LIMIT` is outside the model.
- Products.GetBestsellers: a negative `limit` is not modelled, because `limit` is a `nat`. The route declares only an upper bound of 20, and a negative slice or `LIMIT` is outside the model.
- Orders.StoredAddress: the gateway's address is a JSON object stored in a text column. The text the database driver writes for it, or whether the driver refuses it, is not modelled; `AddressObject(stored)` carries that text as an input.
- Csv.ExportReadsBack: covers headers without double quotes only, because headers are quoted without escaping.
- Currency.FormatIDRReadsBack: takes the amount as an integer, so the `Math.round` applied to a fractional amount is not modelled.
- Carousel.Run: the current index is not reset when the banner count shrinks. The steps are proved safe for an index already in range.

## Findings

| source | as written | input that shows it | evidently intended | confidence | as-written member | corrected member |
|---|---|---|---|---|---|---|
| backend/app/routes/payments.py:38-184 | the catch-all `except Exception` around the checkout body also catches the route's own 400 and 404 errors and re-raises them as 500 | a checkout request with an empty cart | 400 "Cart is empty" (and 404 for an unknown product, 400 for insufficient stock) | not executed | Payments.CreateCheckoutSessionAsWritten | Payments.CreateCheckoutSession |

=== FILE: activity.dfy ===
/**
 * The request-logging middleware: which request paths are logged at all,
 * and the activity type a logged request is filed under, decided from its
 * path and verb by a fixed sequence of rules where the first match wins.
 * Reading the user from the bearer token and writing the log row are
 * outside the model; the user is a parameter.
 */
module Activity {
  import opened Common

  datatype ActivityType =
    | Login | Register | Logout
    | ProductView | ProductCreate | ProductUpdate | ProductDelete
    | CartAdd | CartRemove | CartView
    | OrderCreate | OrderUpdate | OrderView
    | AdminAction | PageView

  const SkipPrefixes: seq<string> := ["/static/", "/_next/", "/favicon.ico", "/health", "/api/"]

  /** A path the middleware passes on without logging. */
  predicate Skipped(path: string) {
    exists k :: 0 <= k < |SkipPrefixes| && StartsWith(path, SkipPrefixes[k])
  }

  predicate AuthPath(path: string) {
    Contains(path, "/auth/login") || Contains(path, "/auth/register") || Contains(path, "/auth/logout")
  }

  /** A products path whose verb has a product rule. */
  predicate ProductRule(path: string, verb: string) {
    Contains(path, "/products") && verb in ["GET", "POST", "PUT", "PATCH", "DELETE"]
  }

  /**
   * `_determine_activity_type`: every type but the default is backed by its
   * keyword in the path, and a path with none of the keywords is a page view.
   */
  function Classify(path: string, verb: string): (r: ActivityType)
    ensures r == Login ==> Contains(path, "/auth/login")
    ensures r == Register ==> Contains(path, "/auth/register")
    ensures r == Logout ==> Contains(path, "/auth/logout")
    ensures r in {ProductView, ProductCreate, ProductUpdate, ProductDelete} ==> Contains(path, "/products")
    ensures r in {CartAdd, CartRemove, CartView} ==> Contains(path, "/cart")
    ensures r in {OrderCreate, OrderUpdate, OrderView} ==> Contains(path, "/orders")
    ensures r == AdminAction ==> Contains(path, "/admin")
    ensures (!AuthPath(path) && !Contains(path, "/products") && !Contains(path, "/cart")
             && !Contains(path, "/orders") && !Contains(path, "/admin")) ==> r == PageView
  {
    if Contains(path, "/auth/login") then Login
    else if Contains(path, "/auth/register") then Register
    else if Contains(path, "/auth/logout") then Logout
    else if Contains(path, "/products") && verb == "GET" then ProductView
    else if Contains(path, "/products") && verb == "POST" then ProductCreate
    else if Contains(path, "/products") && verb in ["PUT", "PATCH"] then ProductUpdate
    else if Contains(path, "/products") && verb == "DELETE" then ProductDelete
    else if Contains(path, "/cart") then
      (if verb == "POST" then CartAdd else if verb == "DELETE" then CartRemove else CartView)
    else if Contains(path, "/orders") then
      (if verb == "POST" then OrderCreate else if verb in ["PUT", "PATCH"] then OrderUpdate else OrderView)
    else if Contains(path, "/admin") then AdminAction
    else PageView
  }

  /** The authentication rules come first, in the order login, register, logout. */
  lemma AuthFirst(path: string, verb: string)
    ensures Contains(path, "/auth/login") ==> Classify(path, verb) == Login
    ensures Classify(path, verb) == Register <==> !Contains(path, "/auth/login") && Contains(path, "/auth/register")
    ensures Classify(path, verb) == Logout <==>
              !Contains(path, "/auth/login") && !Contains(path, "/auth/register") && Contains(path, "/auth/logout")
  {
  }

  /** The product rules: each verb the rules name has its type; any other verb falls through. */
  lemma ProductMethods(path: string, verb: string)
    requires !AuthPath(path) && Contains(path, "/products")
    ensures verb == "GET" ==> Classify(path, verb) == ProductView
    ensures verb == "POST" ==> Classify(path, verb) == ProductCreate
    ensures verb == "PUT" || verb == "PATCH" ==> Classify(path, verb) == ProductUpdate
    ensures verb == "DELETE" ==> Classify(path, verb) == ProductDelete
    ensures !ProductRule(path, verb) ==> Classify(path, verb) == Classify(path, "OPTIONS")
  {
  }

  /** Cart and order paths always land in their own group, whatever the verb. */
  lemma CartAndOrders(path: string, verb: string)
    requires !AuthPath(path) && !ProductRule(path, verb)
    ensures Contains(path, "/cart") ==> Classify(path, verb) in {CartAdd, CartRemove, CartView}
    ensures Contains(path, "/cart") ==> (Classify(path, verb) == CartAdd <==> verb == "POST")
    ensures Contains(path, "/cart") ==> (Classify(path, verb) == CartRemove <==> verb == "DELETE")
    ensures !Contains(path, "/cart") && Contains(path, "/orders") ==> Classify(path, verb) in {OrderCreate, OrderUpdate, OrderView}
    ensures !Contains(path, "/cart") && Contains(path, "/orders") ==>
              (Classify(path, verb) == OrderUpdate <==> verb == "PUT" || verb == "PATCH")
  {
  }

  /** The admin rule only applies to paths no earlier rule claims; anything else is a page view. */
  lemma AdminAndDefault(path: string, verb: string)
    ensures Classify(path, verb) == AdminAction <==>
              && !AuthPath(path) && !ProductRule(path, verb)
              && !Contains(path, "/cart") && !Contains(path, "/orders") && Contains(path, "/admin")
    ensures Classify(path, verb) == PageView <==>
              && !AuthPath(path) && !ProductRule(path, verb)
              && !Contains(path, "/cart") && !Contains(path, "/orders") && !Contains(path, "/admin")
  {
  }

  /** An admin products page read is filed as a product view, not an admin action. */
  lemma AdminProductsIsProductView()
    ensures Classify("/admin/products", "GET") == ProductView
  {
    assert OccursAt("/admin/products", "/products", 6);
    assert 'h' in "/auth/login" && 'h' in "/auth/register" && 'h' in "/auth/logout";
    MissingCharNotContained("/admin/products", "/auth/login", 'h');
    MissingCharNotContained("/admin/products", "/auth/register", 'h');
    MissingCharNotContained("/admin/products", "/auth/logout", 'h');
  }

  /** A log row: the activity type, the user the token names (if any) and "VERB path". */
  datatype LogEntry = LogEntry(kind: ActivityType, userId: Option<nat>, description: string)

  /** `dispatch`: the log row written for a request, none for a skipped path. */
  function Dispatch(path: string, verb: string, userId: Option<nat>): (r: Option<LogEntry>)
    ensures r.None? <==> Skipped(path)
    ensures r.Some? ==> r.value.kind == Classify(path, verb) && r.value.userId == userId
    ensures r.Some? ==> StartsWith(r.value.description, verb + " ")
    ensures r.Some? ==> r.value.description == verb + " " + path
    ensures r.Some? ==> r.value.description[|verb| + 1..] == path
  {
    if exists k :: 0 <= k < |SkipPrefixes| && StartsWith(path, SkipPrefixes[k]) then None
    else Some(LogEntry(Classify(path, verb), userId, verb + " " + path))
  }

  /** Every API route is under "/api/", so the middleware never logs an API call. */
  lemma ApiNeverLogged(rest: string, verb: string, userId: Option<nat>)
    ensures Dispatch("/api/" + rest, verb, userId).None?
  {
    assert StartsWith("/api/" + rest, SkipPrefixes[4]);
  }
}

=== FILE: addresses.dfy ===
/**
 * A user's address book: the request-body bounds of the address forms, and
 * the routes that list, read, create, update, delete an address and make one
 * the default. Every route only sees the caller's own addresses, and the
 * create, update and set-default routes keep at most one default per user.
 * Copying the default address to the payment gateway's customer record is
 * not modelled (its failures are swallowed and change nothing here).
 */
module Addresses {
  import opened Common
  import Sorting

  datatype Address = Address(
    id: nat,
    userId: nat,
    fullName: string,
    phone: string,
    line1: string,
    line2: Option<string>,
    city: string,
    state: string,
    postalCode: string,
    country: string,
    isDefault: bool,
    createdAt: int)

  /** The create form; `country` and `isDefault` may be left out. */
  datatype AddressCreate = AddressCreate(
    fullName: string,
    phone: string,
    line1: string,
    line2: Option<string>,
    city: string,
    state: string,
    postalCode: string,
    country: Option<string>,
    isDefault: Option<bool>)

  /**
   * The update form: `None` is a field the request leaves out. Only the
   * second address line can be set to null, hence its nested option.
   */
  datatype AddressUpdate = AddressUpdate(
    fullName: Option<string>,
    phone: Option<string>,
    line1: Option<string>,
    line2: Option<Option<string>>,
    city: Option<string>,
    state: Option<string>,
    postalCode: Option<string>,
    country: Option<string>,
    isDefault: Option<bool>)

  const DefaultCountry := "Indonesia"

  // ------------------------------------------------------------ validation

  predicate LengthIn(s: string, lo: nat, hi: nat) {
    lo <= |s| <= hi
  }

  /** A supplied field obeys the bounds; a field left out is fine. */
  predicate OptLengthIn(s: Option<string>, lo: nat, hi: nat) {
    s.Some? ==> LengthIn(s.value, lo, hi)
  }

  /** The bounds of the create form. */
  predicate ValidCreate(c: AddressCreate) {
    && LengthIn(c.fullName, 1, 255)
    && LengthIn(c.phone, 1, 20)
    && LengthIn(c.line1, 1, 500)
    && LengthIn(c.city, 1, 100)
    && LengthIn(c.state, 1, 100)
    && LengthIn(c.postalCode, 1, 20)
    && OptLengthIn(c.country, 0, 100)
  }

  /** The bounds of the update form: each field optional, each supplied field bounded as on creation. */
  predicate ValidUpdate(u: AddressUpdate) {
    && OptLengthIn(u.fullName, 1, 255)
    && OptLengthIn(u.phone, 1, 20)
    && OptLengthIn(u.line1, 1, 500)
    && OptLengthIn(u.city, 1, 100)
    && OptLengthIn(u.state, 1, 100)
    && OptLengthIn(u.postalCode, 1, 20)
    && OptLengthIn(u.country, 0, 100)
  }

  /** The columns of a stored address obey the same bounds. */
  predicate ValidAddress(a: Address) {
    && LengthIn(a.fullName, 1, 255)
    && LengthIn(a.phone, 1, 20)
    && LengthIn(a.line1, 1, 500)
    && LengthIn(a.city, 1, 100)
    && LengthIn(a.state, 1, 100)
    && LengthIn(a.postalCode, 1, 20)
    && LengthIn(a.country, 0, 100)
  }

  /**
   * The 422 of a form that breaks a bound. Its detail, the list of the
   * validator's per-field messages, is not modelled: the text is left empty.
   */
  const Invalid := Unprocessable([])

  /** The address a valid create form makes: the country defaults to Indonesia, the default flag to off. */
  function NewAddress(id: nat, userId: nat, c: AddressCreate, now: int): (a: Address)
    requires ValidCreate(c)
    ensures ValidAddress(a)
    ensures c.country.None? ==> a.country == DefaultCountry
    ensures c.isDefault.None? ==> !a.isDefault
    ensures c.country.Some? ==> a.country == c.country.value
    ensures c.isDefault.Some? ==> a.isDefault == c.isDefault.value
    ensures a.id == id && a.userId == userId && a.createdAt == now
    ensures a.fullName == c.fullName && a.phone == c.phone && a.line1 == c.line1 && a.line2 == c.line2
    ensures a.city == c.city && a.state == c.state && a.postalCode == c.postalCode
  {
    Address(id, userId, c.fullName, c.phone, c.line1, c.line2, c.city, c.state, c.postalCode,
            c.country.GetOr(DefaultCountry), c.isDefault.GetOr(false), now)
  }

  /** A field left out of an update keeps its value; a supplied one replaces it. */
  function ApplyUpdate(a: Address, u: AddressUpdate): (r: Address)
    ensures r.id == a.id && r.userId == a.userId && r.createdAt == a.createdAt
    ensures ValidAddress(a) && ValidUpdate(u) ==> ValidAddress(r)
    ensures u == AddressUpdate(None, None, None, None, None, None, None, None, None) ==> r == a
    ensures u.fullName.None? ==> r.fullName == a.fullName
    ensures u.fullName.Some? ==> r.fullName == u.fullName.value
    ensures u.phone.None? ==> r.phone == a.phone
    ensures u.phone.Some? ==> r.phone == u.phone.value
    ensures u.line1.None? ==> r.line1 == a.line1
    ensures u.line1.Some? ==> r.line1 == u.line1.value
    ensures u.line2.None? ==> r.line2 == a.line2
    ensures u.line2.Some? ==> r.line2 == u.line2.value
    ensures u.city.None? ==> r.city == a.city
    ensures u.city.Some? ==> r.city == u.city.value
    ensures u.state.None? ==> r.state == a.state
    ensures u.state.Some? ==> r.state == u.state.value
    ensures u.postalCode.None? ==> r.postalCode == a.postalCode
    ensures u.postalCode.Some? ==> r.postalCode == u.postalCode.value
    ensures u.country.None? ==> r.country == a.country
    ensures u.country.Some? ==> r.country == u.country.value
    ensures u.isDefault.None? ==> r.isDefault == a.isDefault
    ensures u.isDefault.Some? ==> r.isDefault == u.isDefault.value
  {
    Address(a.id, a.userId,
            u.fullName.GetOr(a.fullName), u.phone.GetOr(a.phone), u.line1.GetOr(a.line1),
            u.line2.GetOr(a.line2), u.city.GetOr(a.city), u.state.GetOr(a.state),
            u.postalCode.GetOr(a.postalCode), u.country.GetOr(a.country),
            u.isDefault.GetOr(a.isDefault), a.createdAt)
  }

  // -------------------------------------------------------------- invariant

  /** No user has two default addresses. */
  ghost predicate AtMostOneDefault(book: seq<Address>) {
    forall i, j :: 0 <= i < |book| && 0 <= j < |book| && i != j && book[i].isDefault && book[j].isDefault ==>
      book[i].userId != book[j].userId
  }

  /** The bulk update that switches off the defaults of user `userId`, except on the address numbered `keep`. */
  function ClearDefaults(book: seq<Address>, userId: nat, keep: int): (r: seq<Address>)
    ensures |r| == |book|
    ensures forall i :: 0 <= i < |book| ==>
              r[i] == (if book[i].userId == userId && book[i].id != keep then book[i].(isDefault := false) else book[i])
  {
    if book == [] then []
    else
      var a := book[0];
      [if a.userId == userId && a.id != keep then a.(isDefault := false) else a] + ClearDefaults(book[1..], userId, keep)
  }

  /** Index of the caller's address numbered `id`. */
  function IndexOwned(book: seq<Address>, userId: nat, id: nat): (r: Option<nat>)
    ensures r.Some? ==> r.value < |book| && book[r.value].id == id && book[r.value].userId == userId
    ensures r.None? ==> forall j :: 0 <= j < |book| ==> !(book[j].id == id && book[j].userId == userId)
  {
    if book == [] then None
    else if book[0].id == id && book[0].userId == userId then Some(0)
    else match IndexOwned(book[1..], userId, id)
      case None => None
      case Some(k) => Some(k + 1)
  }

  const AddressNotFound := NotFound("Address not found")

  // ----------------------------------------------------------------- routes

  /** Default address first, then newer before older. */
  function DefaultThenNewest(a: Address, b: Address): bool {
    (a.isDefault && !b.isDefault) || (a.isDefault == b.isDefault && a.createdAt >= b.createdAt)
  }

  function Owned(book: seq<Address>, userId: nat): (r: seq<Address>)
    ensures forall a :: a in r <==> a in book && a.userId == userId
  {
    if book == [] then [] else (if book[0].userId == userId then [book[0]] else []) + Owned(book[1..], userId)
  }

  /** `get_user_addresses`: the caller's addresses, the default first, then newest first. */
  function GetAddresses(book: seq<Address>, userId: nat): (r: seq<Address>)
    ensures multiset(r) == multiset(Owned(book, userId))
    ensures forall a :: a in r <==> a in book && a.userId == userId
    ensures forall i, j :: 0 <= i < j < |r| ==> DefaultThenNewest(r[i], r[j])
  {
    assert Sorting.TotalPreorder(DefaultThenNewest);
    var r := Sorting.SortBy(Owned(book, userId), DefaultThenNewest);
    forall a ensures a in r <==> a in Owned(book, userId) {
      Sorting.SortByMembers(Owned(book, userId), DefaultThenNewest, a);
    }
    r
  }

  /** In the listing, a default address is never preceded by a non-default one. */
  lemma DefaultListedFirst(book: seq<Address>, userId: nat)
    ensures forall i, j :: 0 <= i < j < |GetAddresses(book, userId)| && GetAddresses(book, userId)[j].isDefault ==>
              GetAddresses(book, userId)[i].isDefault
  {
  }

  function GetAddress(book: seq<Address>, userId: nat, id: nat): (r: Result<Address>)
    ensures r.Ok? <==> exists j :: 0 <= j < |book| && book[j].id == id && book[j].userId == userId
    ensures r.Err? ==> r.error == AddressNotFound
    ensures r.Ok? ==> r.value in book && r.value.id == id && r.value.userId == userId
  {
    match IndexOwned(book, userId, id)
    case None => Err(AddressNotFound)
    case Some(i) => Ok(book[i])
  }

  /**
   * `create_address`: a valid form becomes a new address of the caller; when
   * it is marked default, the caller's other addresses lose their default
   * flag first. Other users' addresses are untouched.
   */
  function CreateAddress(book: seq<Address>, userId: nat, c: AddressCreate, now: int): (r: Result<seq<Address>>)
    ensures r.Ok? <==> ValidCreate(c)
    ensures r.Err? ==> r.error == Invalid
    ensures r.Ok? ==> |r.value| == |book| + 1 && r.value[|book|] == NewAddress(r.value[|book|].id, userId, c, now)
    ensures r.Ok? ==> forall i :: 0 <= i < |book| ==> book[i].id < r.value[|book|].id
    ensures r.Ok? ==> forall i :: 0 <= i < |book| && book[i].userId != userId ==> r.value[i] == book[i]
    ensures r.Ok? && !c.isDefault.GetOr(false) ==> r.value[..|book|] == book
    ensures r.Ok? && c.isDefault.GetOr(false) ==>
              forall i :: 0 <= i < |book| ==> r.value[i] == (if book[i].userId == userId then book[i].(isDefault := false) else book[i])
  {
    if !ValidCreate(c) then Err(Invalid)
    else
      var id := NextId(book, (a: Address) => a.id);
      var cleared := if c.isDefault.GetOr(false) then ClearDefaults(book, userId, -1) else book;
      Ok(cleared + [NewAddress(id, userId, c, now)])
  }

  lemma CreateKeepsOneDefault(book: seq<Address>, userId: nat, c: AddressCreate, now: int)
    requires AtMostOneDefault(book)
    requires ValidCreate(c)
    ensures AtMostOneDefault(CreateAddress(book, userId, c, now).value)
  {
  }

  /**
   * `update_address`: 404 unless the address is the caller's; otherwise the
   * supplied fields are written, and when the update marks it default, the
   * caller's other addresses lose their default flag.
   */
  function UpdateAddress(book: seq<Address>, userId: nat, id: nat, u: AddressUpdate): (r: Result<seq<Address>>)
    ensures !ValidUpdate(u) ==> r == Err(Invalid)
    ensures ValidUpdate(u) && IndexOwned(book, userId, id).None? ==> r == Err(AddressNotFound)
    ensures r.Ok? <==> ValidUpdate(u) && IndexOwned(book, userId, id).Some?
    ensures r.Ok? ==> |r.value| == |book|
    ensures r.Ok? ==> var i := IndexOwned(book, userId, id).value;
              && r.value[i] == ApplyUpdate(book[i], u)
              && forall j :: 0 <= j < |book| && j != i ==>
                   r.value[j] == (if u.isDefault == Some(true) && book[j].userId == userId && book[j].id != id
                                  then book[j].(isDefault := false) else book[j])
  {
    if !ValidUpdate(u) then Err(Invalid)
    else match IndexOwned(book, userId, id)
      case None => Err(AddressNotFound)
      case Some(i) =>
        var cleared := if u.isDefault == Some(true) then ClearDefaults(book, userId, id) else book;
        Ok(cleared[i := ApplyUpdate(book[i], u)])
  }

  /** Address identifiers are unique (they are the table's primary key). */
  ghost predicate UniqueIds(book: seq<Address>) {
    forall i, j :: 0 <= i < |book| && 0 <= j < |book| && i != j ==> book[i].id != book[j].id
  }

  lemma UpdateKeepsOneDefault(book: seq<Address>, userId: nat, id: nat, u: AddressUpdate)
    requires AtMostOneDefault(book) && UniqueIds(book)
    requires ValidUpdate(u) && IndexOwned(book, userId, id).Some?
    ensures AtMostOneDefault(UpdateAddress(book, userId, id, u).value)
  {
    var r := UpdateAddress(book, userId, id, u).value;
    var i := IndexOwned(book, userId, id).value;
    forall j, k | 0 <= j < |r| && 0 <= k < |r| && j != k && r[j].isDefault && r[k].isDefault
      ensures r[j].userId != r[k].userId
    {
      if u.isDefault == Some(true) {
        if j == i {
          assert book[k].id != id;
        } else if k == i {
          assert book[j].id != id;
        } else {
          assert r[j].isDefault ==> book[j].isDefault;
        }
      } else {
        assert r[j].isDefault ==> book[j].isDefault;
        assert r[k].isDefault ==> book[k].isDefault;
      }
    }
  }

  /** `delete_address`: 404 unless the address is the caller's; otherwise exactly that address goes, and no other becomes default. */
  function DeleteAddress(book: seq<Address>, userId: nat, id: nat): (r: Result<seq<Address>>)
    ensures IndexOwned(book, userId, id).None? <==> r == Err(AddressNotFound)
    ensures r.Ok? ==> var i := IndexOwned(book, userId, id).value;
              r.value == book[..i] + book[i + 1..]
  {
    match IndexOwned(book, userId, id)
    case None => Err(AddressNotFound)
    case Some(i) => Ok(book[..i] + book[i + 1..])
  }

  /** Deleting the default address promotes no other: a user whose only default it was has none left. */
  lemma DeleteDefaultLeavesNone(book: seq<Address>, userId: nat, id: nat)
    requires AtMostOneDefault(book)
    requires IndexOwned(book, userId, id).Some?
    requires book[IndexOwned(book, userId, id).value].isDefault
    ensures forall a :: a in DeleteAddress(book, userId, id).value && a.userId == userId ==> !a.isDefault
  {
    var i := IndexOwned(book, userId, id).value;
    var r := DeleteAddress(book, userId, id).value;
    forall a | a in r && a.userId == userId ensures !a.isDefault {
      var k :| 0 <= k < |r| && r[k] == a;
      if k < i {
        assert r[k] == book[k];
      } else {
        assert r[k] == book[k + 1];
      }
    }
  }

  lemma DeleteKeepsOneDefault(book: seq<Address>, userId: nat, id: nat)
    requires AtMostOneDefault(book)
    requires IndexOwned(book, userId, id).Some?
    ensures AtMostOneDefault(DeleteAddress(book, userId, id).value)
  {
    var i := IndexOwned(book, userId, id).value;
    var r := DeleteAddress(book, userId, id).value;
    forall j, k | 0 <= j < |r| && 0 <= k < |r| && j != k && r[j].isDefault && r[k].isDefault
      ensures r[j].userId != r[k].userId
    {
      var bj := if j < i then j else j + 1;
      var bk := if k < i then k else k + 1;
      assert r[j] == book[bj] && r[k] == book[bk];
    }
  }

  /** `set_default_address`: 404 unless the address is the caller's; otherwise it becomes the caller's one default. */
  function SetDefault(book: seq<Address>, userId: nat, id: nat): (r: Result<seq<Address>>)
    ensures IndexOwned(book, userId, id).None? <==> r == Err(AddressNotFound)
    ensures r.Ok? ==> |r.value| == |book|
    ensures r.Ok? ==> var i := IndexOwned(book, userId, id).value;
              && r.value[i] == book[i].(isDefault := true)
              && forall j :: 0 <= j < |book| && j != i ==>
                   r.value[j] == (if book[j].userId == userId then book[j].(isDefault := false) else book[j])
  {
    match IndexOwned(book, userId, id)
    case None => Err(AddressNotFound)
    case Some(i) => Ok(ClearDefaults(book, userId, -1)[i := book[i].(isDefault := true)])
  }

  /** After set-default, the chosen address is the caller's only default, and the invariant holds. */
  lemma SetDefaultIsOnlyDefault(book: seq<Address>, userId: nat, id: nat)
    requires AtMostOneDefault(book)
    requires IndexOwned(book, userId, id).Some?
    ensures var r := SetDefault(book, userId, id).value;
            forall j :: 0 <= j < |r| && r[j].userId == userId && r[j].isDefault ==> j == IndexOwned(book, userId, id).value
    ensures AtMostOneDefault(SetDefault(book, userId, id).value)
  {
    var r := SetDefault(book, userId, id).value;
    var i := IndexOwned(book, userId, id).value;
    forall j | 0 <= j < |r| && j != i && r[j].userId == userId ensures !r[j].isDefault {
      assert r[j] == book[j].(isDefault := false);
    }
    forall a, b | 0 <= a < |r| && 0 <= b < |r| && a != b && r[a].isDefault && r[b].isDefault
      ensures r[a].userId != r[b].userId
    {
      if a != i && b != i {
        assert r[a] == book[a] && r[b] == book[b];
      }
    }
  }
}

=== FILE: admin_products.dfy ===
/**
 * The admin product table and product form: which image links are shown,
 * the discounted price displayed next to the list price, the stock badge,
 * and the colour list edited in the form.
 */
module AdminProducts {
  import opened Common
  import opened Models
  import Payments

  predicate Blank(s: string) {
    forall i :: 0 <= i < |s| ==> IsWhitespace(s[i])
  }

  /** `isValidImageUrl`: a link that is present, not blank and not a placeholder service link. */
  function ValidImageUrl(url: Option<string>): (r: bool)
    ensures r ==> url.Some? && url.value != [] && !Contains(url.value, "placeholder.com")
    ensures url.None? ==> !r
    ensures url.Some? && Blank(url.value) ==> !r
    ensures url.Some? && !Blank(url.value) && !Contains(url.value, "placeholder.com") ==> r
  {
    url.Some? && !Blank(url.value) && !Contains(url.value, "placeholder.com")
  }

  /** Any link naming the placeholder service is rejected, wherever the name sits. */
  lemma PlaceholderHostRejected(before: string, after: string)
    ensures !ValidImageUrl(Some(before + "placeholder.com" + after))
  {
    assert OccursAt(before + "placeholder.com" + after, "placeholder.com", |before|);
  }

  lemma PlaceholderRejected()
    ensures !ValidImageUrl(Some("https://via.placeholder.com/300"))
    ensures !ValidImageUrl(Some("  "))
    ensures !ValidImageUrl(None)
    ensures ValidImageUrl(Some("x"))
  {
    assert OccursAt("https://via.placeholder.com/300", "placeholder.com", 12);
    assert !IsWhitespace("x"[0]);
    MissingCharNotContained("x", "placeholder.com", 'p');
  }

  /**
   * `calculateFinalPrice` of the admin table. An enabled discount that is
   * not a percentage is taken off as an amount, whatever its kind, and
   * nothing keeps the result from going below zero. The product listing
   * always sends the discount's `value` key, so a missing value arrives as
   * JSON `null`, which JavaScript arithmetic reads as 0: the list price shows.
   */
  function FinalPrice(p: Product): (r: real)
    ensures !p.discount.enabled ==> r == p.price
    ensures p.discount.enabled && p.discount.value.None? ==> r == p.price
    ensures p.discount.enabled && p.discount.value.Some? && p.discount.kind == Some("percentage") ==>
              r == p.price * (1.0 - p.discount.value.value / 100.0)
    ensures p.discount.enabled && p.discount.value.Some? && p.discount.kind != Some("percentage") ==>
              r == p.price - p.discount.value.value
  {
    if !p.discount.enabled then p.price
    else
      var v := p.discount.value.GetOr(0.0);
      if p.discount.kind == Some("percentage") then
        assert v == 0.0 ==> p.price * (1.0 - v / 100.0) == p.price;
        p.price * (1.0 - v / 100.0)
      else p.price - v
  }

  /**
   * Wherever the table and the checkout take the same branch (any value,
   * including none, for a percentage; a fixed amount within the price
   * otherwise), the table shows the unit price the checkout charges.
   */
  lemma TableAgreesWithCheckout(p: Product)
    requires p.discount.enabled && p.discount.value.Some? && p.discount.kind != Some("percentage") ==>
               p.discount.kind == Some("fixed") && p.discount.value.value <= p.price
    ensures FinalPrice(p) == Payments.DiscountedPrice(p)
  {
    if p.discount.enabled && p.discount.value.Some? {
      var v := p.discount.value.value;
      if p.discount.kind == Some("percentage") {
        assert FinalPrice(p) == p.price * (1.0 - v / 100.0);
        if v == 0.0 {
          assert 1.0 - v / 100.0 == 1.0;
          assert p.price * 1.0 == p.price;
        }
      } else {
        assert FinalPrice(p) == p.price - v;
      }
    }
  }

  /** A fixed discount larger than the price shows a negative price, while the checkout charges zero. */
  lemma FixedDiscountCanShowNegative()
    ensures var p := Product(1, "Tee", "", 10.0, "shirts", 5, None, 0,
                             DiscountTerms(true, Some("fixed"), Some(15.0)), NoVoucher);
            FinalPrice(p) == -5.0 && Payments.DiscountedPrice(p) == 0.0
  {
  }

  datatype Badge = Plenty | Low | Empty

  /** The stock badge: above 50 plenty, above 0 low, otherwise empty. */
  function StockBadge(stock: int): (r: Badge)
    ensures r == Empty <==> stock <= 0
    ensures r == Plenty <==> stock > 50
  {
    if stock > 50 then Plenty else if stock > 0 then Low else Empty
  }

  /** More stock never gives a worse badge. */
  lemma BadgeMonotone(a: int, b: int)
    requires a <= b
    ensures StockBadge(a) == Plenty ==> StockBadge(b) == Plenty
    ensures StockBadge(b) == Empty ==> StockBadge(a) == Empty
  {
  }

  predicate Distinct(colors: seq<string>) {
    forall i, j :: 0 <= i < j < |colors| ==> colors[i] != colors[j]
  }

  /**
   * The form's "Add Color" button: a non-empty input not yet listed is
   * appended and the input cleared; otherwise nothing changes.
   * The result is the colour list and the input field.
   */
  function AddColor(colors: seq<string>, input: string): (r: (seq<string>, string))
    ensures input != "" && input !in colors ==> r == (colors + [input], "")
    ensures input == "" || input in colors ==> r == (colors, input)
    ensures Distinct(colors) ==> Distinct(r.0)
    ensures forall c :: c in r.0 <==> c in colors || (c == input && input != "")
  {
    if input != "" && input !in colors then (colors + [input], "") else (colors, input)
  }

  /** The remove button of the colour at position `index`. */
  function RemoveColor(colors: seq<string>, index: int): (r: seq<string>)
    ensures 0 <= index < |colors| ==> |r| == |colors| - 1
    ensures !(0 <= index < |colors|) ==> r == colors
    ensures 0 <= index < |colors| ==>
              forall k :: 0 <= k < |r| ==> r[k] == (if k < index then colors[k] else colors[k + 1])
  {
    if 0 <= index < |colors| then colors[..index] + colors[index + 1..] else colors
  }

  /** Removing keeps the colours distinct and drops exactly the colour clicked. */
  lemma RemoveColorDrops(colors: seq<string>, index: int)
    requires Distinct(colors) && 0 <= index < |colors|
    ensures Distinct(RemoveColor(colors, index))
    ensures colors[index] !in RemoveColor(colors, index)
    ensures forall c :: c in colors && c != colors[index] ==> c in RemoveColor(colors, index)
  {
    var r := RemoveColor(colors, index);
    forall c | c in colors && c != colors[index] ensures c in r {
      var k :| 0 <= k < |colors| && colors[k] == c;
      if k < index { assert r[k] == c; } else { assert r[k - 1] == c; }
    }
  }

  /** Adding a colour and removing the last one restores the list. */
  lemma AddThenRemoveLast(colors: seq<string>, input: string)
    requires input != "" && input !in colors
    ensures RemoveColor(AddColor(colors, input).0, |colors|) == colors
  {
    assert (colors + [input])[..|colors|] == colors;
  }
}

=== FILE: auth.dfy ===
/**
 * Registration and login. Password hashing and checking are foreign
 * cryptography: the stored hash is a parameter of registration and the
 * check is a predicate `verify(password, hash)` given to login. The access
 * token is modelled by the subject it is issued for.
 */
module Auth {
  import opened Common
  import opened Models
  import Users

  const BadCredentials := Unauthorized("Incorrect email or password")
  const AccountInactive := Forbidden("User account is inactive")

  /** The requested role text: administrator exactly when it lower-cases to "admin". */
  function RoleOf(requested: string): (r: UserRole)
    ensures r == RoleAdmin <==> Lower(requested) == "admin"
  {
    if Lower(requested) == "admin" then RoleAdmin else RoleUser
  }

  /**
   * `register`: 422 when `EmailStr` refuses the address, 400 when its
   * normalised form is registered, otherwise a new active user with the
   * normalised address and the mapped role.
   */
  function Register(users: seq<User>, username: string, email: string, hash: string,
                    requestedRole: string, check: string -> Users.EmailVerdict, now: int): (r: Result<seq<User>>)
    ensures check(email).Refused? ==> r == Err(Users.InvalidEmail(check(email).reason))
    ensures check(email).Normalised? ==> (r.Err? <==> Users.EmailTaken(users, check(email).address, -1))
    ensures check(email).Normalised? && r.Err? ==> r.error == BadRequest("Email already registered")
    ensures r.Ok? ==> |r.value| == |users| + 1 && r.value[..|users|] == users
    ensures r.Ok? ==> var u := r.value[|users|];
              && check(email).Normalised? && u.email == check(email).address
              && u.status == Active && (u.role == RoleAdmin <==> Lower(requestedRole) == "admin")
  {
    Users.CreateUser(users, username, email, hash, Some(RoleOf(requestedRole)), check, now)
  }

  /** Two spellings of one address (say, the domain in another case) are one account: the second registration is refused. */
  lemma SpellingsCollide(users: seq<User>, username: string, email: string, other: string, hash: string,
                         requestedRole: string, check: string -> Users.EmailVerdict, now: int)
    requires Register(users, username, email, hash, requestedRole, check, now).Ok?
    requires check(other) == check(email)
    ensures Register(Register(users, username, email, hash, requestedRole, check, now).value,
                     username, other, hash, requestedRole, check, now) == Err(BadRequest("Email already registered"))
  {
    var r := Register(users, username, email, hash, requestedRole, check, now).value;
    assert r[|users|].email == check(other).address;
  }

  /** Any capitalisation of "admin" registers an administrator. */
  lemma AdminInAnyCase()
    ensures RoleOf("ADMIN") == RoleAdmin && RoleOf("Admin") == RoleAdmin
    ensures RoleOf("user") == RoleUser && RoleOf("administrator") == RoleUser
  {
    LowerUpper();
    LowerCapital();
    assert Lower("user") != "admin" by {
      assert |Lower("user")| == 4;
    }
    assert Lower("administrator") != "admin" by {
      assert |Lower("administrator")| == 13;
    }
  }

  lemma LowerUpper()
    ensures Lower("ADMIN") == "admin"
  {
    assert forall i :: 0 <= i < 5 ==> Lower("ADMIN")[i] == LowerChar("ADMIN"[i]);
  }

  lemma LowerCapital()
    ensures Lower("Admin") == "admin"
  {
    assert forall i :: 0 <= i < 5 ==> Lower("Admin")[i] == LowerChar("Admin"[i]);
  }

  /** A successful login: the token's subject and the role it reports. */
  datatype Grant = Grant(subject: string, role: UserRole)

  /**
   * `login`: 422 when `EmailStr` refuses the address; otherwise the account
   * is looked up by the normalised address, with the same 401 for an unknown
   * address and for a wrong password; a known user with the right password
   * but not active gets 403; otherwise a token for the user's address.
   */
  function Login(users: seq<User>, email: string, password: string, verify: (string, string) -> bool,
                 check: string -> Users.EmailVerdict): (r: Result<Grant>)
    ensures check(email).Refused? ==> r == Err(Users.InvalidEmail(check(email).reason))
    ensures check(email).Normalised? && FindUserByEmail(users, check(email).address).None? ==> r == Err(BadCredentials)
    ensures check(email).Normalised? && FindUserByEmail(users, check(email).address).Some?
            && !verify(password, FindUserByEmail(users, check(email).address).value.passwordHash) ==>
              r == Err(BadCredentials)
    ensures r.Ok? <==> check(email).Normalised? && var u := FindUserByEmail(users, check(email).address);
              u.Some? && verify(password, u.value.passwordHash) && u.value.status == Active
    ensures r.Ok? ==> r.value.subject == check(email).address
                      && r.value.role == FindUserByEmail(users, check(email).address).value.role
  {
    match Users.ValidEmail(check, email)
    case Err(e) => Err(e)
    case Ok(address) =>
      match FindUserByEmail(users, address)
      case None => Err(BadCredentials)
      case Some(u) =>
        if !verify(password, u.passwordHash) then Err(BadCredentials)
        else if u.status.Value() != "active" then Err(AccountInactive)
        else Ok(Grant(u.email, u.role))
  }

  /** Any spelling the validator normalises to the same address logs in to the same account. */
  lemma LoginBySpelling(users: seq<User>, email: string, other: string, password: string,
                        verify: (string, string) -> bool, check: string -> Users.EmailVerdict)
    requires check(email).Normalised? && check(other).Normalised?
    requires check(email).address == check(other).address
    ensures Login(users, email, password, verify, check) == Login(users, other, password, verify, check)
  {
  }

  /** Whether an inactive account exists is not revealed to a caller without the password. */
  lemma InactiveNeedsCredentials(users: seq<User>, email: string, password: string, verify: (string, string) -> bool,
                                 check: string -> Users.EmailVerdict)
    requires Login(users, email, password, verify, check) == Err(AccountInactive)
    ensures check(email).Normalised?
    ensures FindUserByEmail(users, check(email).address).Some?
    ensures verify(password, FindUserByEmail(users, check(email).address).value.passwordHash)
    ensures FindUserByEmail(users, check(email).address).value.status == Inactive
  {
  }

  /** A freshly registered user logs in with any password the stored hash accepts, and gets the mapped role. */
  lemma RegisterThenLogin(users: seq<User>, username: string, email: string, hash: string,
                          requestedRole: string, check: string -> Users.EmailVerdict, now: int,
                          password: string, verify: (string, string) -> bool)
    requires Register(users, username, email, hash, requestedRole, check, now).Ok?
    requires verify(password, hash)
    ensures Login(Register(users, username, email, hash, requestedRole, check, now).value, email, password, verify, check)
            == Ok(Grant(check(email).address, RoleOf(requestedRole)))
  {
    var address := check(email).address;
    var r := Register(users, username, email, hash, requestedRole, check, now).value;
    assert forall j :: 0 <= j < |users| ==> r[j] == users[j] && r[j].email != address;
    assert r[|users|].passwordHash == hash;
    FirstByEmailIsLast(r, |users|, address);
  }

  lemma {:induction false} FirstByEmailIsLast(users: seq<User>, k: nat, email: string)
    requires k == |users| - 1
    requires users[k].email == email
    requires forall j :: 0 <= j < k ==> users[j].email != email
    ensures FindUserByEmail(users, email) == Some(users[k])
  {
    if k > 0 {
      assert users[1..][k - 1] == users[k];
      FirstByEmailIsLast(users[1..], k - 1, email);
    }
  }
}

=== FILE: banners.dfy ===
/**
 * Promotional banners: the public listing of active banners, the admin
 * listing, reading, creating, updating and deleting a banner, and the view
 * and click counters. Dates are instants (`int`); reading a date from the
 * form is a parameter `parseDate` that answers `None` when the text is not
 * an ISO date. The two images are stored as bytes and answered as data URLs.
 */
module Banners {
  import opened Common
  import opened Uploads
  import Sorting

  datatype Banner = Banner(
    id: nat,
    title: string,
    subtitle: Option<string>,
    description: Option<string>,
    bannerType: string,
    status: string,
    displayOrder: int,
    linkUrl: Option<string>,
    linkText: Option<string>,
    linkTarget: string,
    startDate: Option<int>,
    endDate: Option<int>,
    textColor: Option<string>,
    backgroundColor: Option<string>,
    buttonColor: Option<string>,
    image: Option<seq<byte>>,
    imageMime: Option<string>,
    mobileImage: Option<seq<byte>>,
    mobileMime: Option<string>,
    viewCount: nat,
    clickCount: nat,
    createdAt: int)

  const ActiveStatus := "active"
  const BannerNotFound := NotFound("Banner not found")

  // --------------------------------------------------------------- listings

  /** Scheduled to show at `now`: active, and `now` inside the window, both ends included. */
  predicate Active(b: Banner, now: int) {
    && b.status == ActiveStatus
    && (b.startDate.None? || b.startDate.value <= now)
    && (b.endDate.None? || b.endDate.value >= now)
  }

  /** A filter applies only when given and non-empty. */
  predicate Keeps(filter: Option<string>, value: string) {
    Truthy(filter) ==> value == filter.value
  }

  /** Display order ascending, then newer before older. */
  function Before(a: Banner, b: Banner): bool {
    a.displayOrder < b.displayOrder || (a.displayOrder == b.displayOrder && a.createdAt >= b.createdAt)
  }

  lemma BeforeIsTotal()
    ensures Sorting.TotalPreorder(Before)
  {
  }

  function Select(banners: seq<Banner>, keep: Banner -> bool): (r: seq<Banner>)
    ensures forall b :: b in r <==> b in banners && keep(b)
  {
    if banners == [] then [] else (if keep(banners[0]) then [banners[0]] else []) + Select(banners[1..], keep)
  }

  /** The banners chosen by `keep`, in display order. */
  function Ordered(banners: seq<Banner>, keep: Banner -> bool): (r: seq<Banner>)
    ensures forall b :: b in r <==> b in banners && keep(b)
    ensures forall i, j :: 0 <= i < j < |r| ==>
              r[i].displayOrder < r[j].displayOrder || (r[i].displayOrder == r[j].displayOrder && r[i].createdAt >= r[j].createdAt)
    ensures forall i, j :: 0 <= i < j < |r| ==> Before(r[i], r[j])
  {
    BeforeIsTotal();
    var r := Sorting.SortBy(Select(banners, keep), Before);
    forall b ensures b in r <==> b in Select(banners, keep) {
      Sorting.SortByMembers(Select(banners, keep), Before, b);
    }
    r
  }

  /** `get_active_banners`: the banners showing at `now`, of the requested type when one is given. */
  function GetActiveBanners(banners: seq<Banner>, bannerType: Option<string>, now: int): (r: seq<Banner>)
    ensures forall b :: b in r <==> b in banners && Active(b, now) && Keeps(bannerType, b.bannerType)
    ensures forall i, j :: 0 <= i < j < |r| ==> r[i].displayOrder <= r[j].displayOrder
    ensures forall i, j :: 0 <= i < j < |r| ==>
              r[i].displayOrder < r[j].displayOrder || (r[i].displayOrder == r[j].displayOrder && r[i].createdAt >= r[j].createdAt)
  {
    Ordered(banners, (b: Banner) => Active(b, now) && Keeps(bannerType, b.bannerType))
  }

  /** `get_all_banners`: every banner of the requested status and type, whatever its schedule. */
  function GetAllBanners(banners: seq<Banner>, status: Option<string>, bannerType: Option<string>): (r: seq<Banner>)
    ensures forall b :: b in r <==> b in banners && Keeps(status, b.status) && Keeps(bannerType, b.bannerType)
    ensures forall i, j :: 0 <= i < j < |r| ==> r[i].displayOrder <= r[j].displayOrder
    ensures forall i, j :: 0 <= i < j < |r| ==>
              r[i].displayOrder < r[j].displayOrder || (r[i].displayOrder == r[j].displayOrder && r[i].createdAt >= r[j].createdAt)
  {
    Ordered(banners, (b: Banner) => Keeps(status, b.status) && Keeps(bannerType, b.bannerType))
  }

  /** Both ends of the window are inclusive: a banner shows at its start and at its end instant. */
  lemma WindowInclusive(b: Banner)
    requires b.status == ActiveStatus && b.startDate.Some? && b.endDate.Some?
    requires b.startDate.value <= b.endDate.value
    ensures Active(b, b.startDate.value) && Active(b, b.endDate.value)
    ensures !Active(b, b.startDate.value - 1) && !Active(b, b.endDate.value + 1)
  {
  }

  /** Every banner the public sees is one the admin listing (unfiltered) also shows. */
  lemma ActiveAmongAll(banners: seq<Banner>, bannerType: Option<string>, now: int)
    ensures forall b :: b in GetActiveBanners(banners, bannerType, now) ==> b in GetAllBanners(banners, None, bannerType)
    ensures forall b :: b in GetActiveBanners(banners, bannerType, now) ==>
              b in GetAllBanners(banners, Some(ActiveStatus), bannerType)
  {
  }

  // ---------------------------------------------------------------- reading

  function IndexOf(banners: seq<Banner>, id: nat): Option<nat> {
    IndexBy(banners, (b: Banner) => b.id, id)
  }

  /** The two image fields of a response: data URLs of the stored images, none where no bytes are stored. */
  datatype ImageUrls = ImageUrls(image: Option<string>, mobileImage: Option<string>)

  function UrlsOf(b: Banner, b64: seq<byte> -> string): (r: ImageUrls)
    ensures r.image.Some? <==> HasBytes(b.image)
    ensures r.mobileImage.Some? <==> HasBytes(b.mobileImage)
  {
    ImageUrls(ImageUrl(b.image, b.imageMime, b64), ImageUrl(b.mobileImage, b.mobileMime, b64))
  }

  /** `get_banner`: 404 for an unknown id. */
  function GetBanner(banners: seq<Banner>, id: nat): (r: Result<Banner>)
    ensures r.Err? <==> forall j :: 0 <= j < |banners| ==> banners[j].id != id
    ensures r.Err? ==> r.error == BannerNotFound
    ensures r.Ok? ==> r.value in banners && r.value.id == id
  {
    match IndexOf(banners, id)
    case None => Err(BannerNotFound)
    case Some(i) => Ok(banners[i])
  }

  // --------------------------------------------------------------- creation

  /**
   * The create form as sent: `None` marks a field left out. FastAPI reads a
   * text field sent empty as left out, so an empty title is refused and an
   * empty type, status or link target gets its default.
   */
  datatype BannerCreate = BannerCreate(
    title: Option<string>,
    subtitle: Option<string>,
    description: Option<string>,
    bannerType: Option<string>,
    status: Option<string>,
    displayOrder: Option<int>,
    linkUrl: Option<string>,
    linkText: Option<string>,
    linkTarget: Option<string>,
    startDate: Option<string>,
    endDate: Option<string>,
    textColor: Option<string>,
    backgroundColor: Option<string>,
    buttonColor: Option<string>,
    image: Option<Upload>,
    mobileImage: Option<Upload>)

  /** A date of the create form: none when left out, empty or not a date. */
  function CreateDate(s: Option<string>, parseDate: string -> Option<int>): (r: Option<int>)
    ensures !Truthy(s) ==> r.None?
    ensures Truthy(s) ==> r == parseDate(s.value)
  {
    if Truthy(s) then parseDate(s.value) else None
  }

  /** No text column holds the empty text: the form never lets one through. */
  predicate NoEmptyText(b: Banner) {
    && b.title != "" && b.bannerType != "" && b.status != "" && b.linkTarget != ""
    && b.subtitle != Some("") && b.description != Some("")
    && b.linkUrl != Some("") && b.linkText != Some("")
    && b.textColor != Some("") && b.backgroundColor != Some("") && b.buttonColor != Some("")
  }

  /**
   * `create_banner`: 422 without a title; otherwise a new banner at the end,
   * with the form defaults and zero counters.
   */
  function CreateBanner(banners: seq<Banner>, c: BannerCreate, parseDate: string -> Option<int>, now: int): (r: Result<seq<Banner>>)
    ensures r.Err? <==> !Truthy(c.title)
    ensures r.Err? ==> r.error == FieldRequired
    ensures r.Ok? ==> |r.value| == |banners| + 1 && r.value[..|banners|] == banners
    ensures r.Ok? ==> var b := r.value[|banners|];
            && (forall i :: 0 <= i < |banners| ==> banners[i].id < b.id)
            && Some(b.title) == c.title && b.createdAt == now
            && (Truthy(c.bannerType) ==> Some(b.bannerType) == c.bannerType)
            && (!Truthy(c.bannerType) ==> b.bannerType == "promotional")
            && (Truthy(c.status) ==> Some(b.status) == c.status)
            && (!Truthy(c.status) ==> b.status == "inactive")
            && (Truthy(c.linkTarget) ==> Some(b.linkTarget) == c.linkTarget)
            && (!Truthy(c.linkTarget) ==> b.linkTarget == "_self")
            && b.subtitle == FormValue(c.subtitle) && b.description == FormValue(c.description)
            && b.linkUrl == FormValue(c.linkUrl) && b.linkText == FormValue(c.linkText)
            && b.textColor == FormValue(c.textColor) && b.backgroundColor == FormValue(c.backgroundColor)
            && b.buttonColor == FormValue(c.buttonColor)
            && b.displayOrder == c.displayOrder.GetOr(0)
            && b.viewCount == 0 && b.clickCount == 0
            && b.startDate == CreateDate(c.startDate, parseDate) && b.endDate == CreateDate(c.endDate, parseDate)
            && (b.image, b.imageMime) == Replace(None, None, c.image)
            && (b.mobileImage, b.mobileMime) == Replace(None, None, c.mobileImage)
  {
    match RequiredForm(c.title)
    case Err(e) => Err(e)
    case Ok(title) =>
      var img := Replace(None, None, c.image);
      var mob := Replace(None, None, c.mobileImage);
      Ok(banners + [Banner(NextId(banners, (b: Banner) => b.id), title, FormValue(c.subtitle), FormValue(c.description),
                           FormValue(c.bannerType).GetOr("promotional"), FormValue(c.status).GetOr("inactive"),
                           c.displayOrder.GetOr(0),
                           FormValue(c.linkUrl), FormValue(c.linkText), FormValue(c.linkTarget).GetOr("_self"),
                           CreateDate(FormValue(c.startDate), parseDate), CreateDate(FormValue(c.endDate), parseDate),
                           FormValue(c.textColor), FormValue(c.backgroundColor), FormValue(c.buttonColor),
                           img.0, img.1, mob.0, mob.1, 0, 0, now)])
  }

  /** A new banner is inactive unless the form says otherwise, so it never shows by default. */
  lemma NewBannerHidden(banners: seq<Banner>, c: BannerCreate, parseDate: string -> Option<int>, now: int, at: int)
    requires Truthy(c.title) && !Truthy(c.status)
    ensures !Active(CreateBanner(banners, c, parseDate, now).value[|banners|], at)
  {
  }

  /** A created banner stores no empty text. */
  lemma CreateStoresNoEmptyText(banners: seq<Banner>, c: BannerCreate, parseDate: string -> Option<int>, now: int)
    requires CreateBanner(banners, c, parseDate, now).Ok?
    ensures NoEmptyText(CreateBanner(banners, c, parseDate, now).value[|banners|])
  {
  }

  // ----------------------------------------------------------------- update

  /** The update form as sent: `None` is a field the request leaves out; an empty text counts as left out. */
  datatype BannerUpdate = BannerUpdate(
    title: Option<string>,
    subtitle: Option<string>,
    description: Option<string>,
    bannerType: Option<string>,
    status: Option<string>,
    displayOrder: Option<int>,
    linkUrl: Option<string>,
    linkText: Option<string>,
    linkTarget: Option<string>,
    startDate: Option<string>,
    endDate: Option<string>,
    textColor: Option<string>,
    backgroundColor: Option<string>,
    buttonColor: Option<string>,
    image: Option<Upload>,
    mobileImage: Option<Upload>)

  const NoChange := BannerUpdate(None, None, None, None, None, None, None, None, None, None, None, None, None, None, None, None)

  /**
   * A date of the update form: left out or sent empty keeps the date, a
   * date replaces it, and text that is not a date keeps it. The route would
   * clear the date for an empty text, but FastAPI never hands it one.
   */
  function UpdateDate(stored: Option<int>, s: Option<string>, parseDate: string -> Option<int>): (r: Option<int>)
    ensures !Truthy(s) ==> r == stored
    ensures Truthy(s) && parseDate(s.value).None? ==> r == stored
    ensures Truthy(s) && parseDate(s.value).Some? ==> r == parseDate(s.value)
  {
    match FormValue(s)
    case None => stored
    case Some(text) =>
      match parseDate(text)
      case None => stored
      case Some(d) => Some(d)
  }

  /** Keep the old value of an optional text field unless a non-empty one is sent. */
  function Or(sent: Option<string>, stored: Option<string>): (r: Option<string>)
    ensures !Truthy(sent) ==> r == stored
    ensures Truthy(sent) ==> r == sent
  {
    match FormValue(sent)
    case Some(v) => Some(v)
    case None => stored
  }

  function ApplyUpdate(b: Banner, u: BannerUpdate, parseDate: string -> Option<int>): (r: Banner)
    ensures r.id == b.id && r.createdAt == b.createdAt
    ensures r.viewCount == b.viewCount && r.clickCount == b.clickCount
    ensures !Truthy(u.status) ==> r.status == b.status
    ensures Truthy(u.status) ==> r.status == u.status.value
    ensures !Truthy(u.title) ==> r.title == b.title
    ensures Truthy(u.title) ==> r.title == u.title.value
    ensures !Truthy(u.subtitle) ==> r.subtitle == b.subtitle
    ensures Truthy(u.subtitle) ==> r.subtitle == u.subtitle
    ensures !Truthy(u.description) ==> r.description == b.description
    ensures Truthy(u.description) ==> r.description == u.description
    ensures !Truthy(u.bannerType) ==> r.bannerType == b.bannerType
    ensures Truthy(u.bannerType) ==> r.bannerType == u.bannerType.value
    ensures u.displayOrder.None? ==> r.displayOrder == b.displayOrder
    ensures u.displayOrder.Some? ==> r.displayOrder == u.displayOrder.value
    ensures !Truthy(u.linkUrl) ==> r.linkUrl == b.linkUrl
    ensures Truthy(u.linkUrl) ==> r.linkUrl == u.linkUrl
    ensures !Truthy(u.linkText) ==> r.linkText == b.linkText
    ensures Truthy(u.linkText) ==> r.linkText == u.linkText
    ensures !Truthy(u.linkTarget) ==> r.linkTarget == b.linkTarget
    ensures Truthy(u.linkTarget) ==> r.linkTarget == u.linkTarget.value
    ensures !Truthy(u.textColor) ==> r.textColor == b.textColor
    ensures Truthy(u.textColor) ==> r.textColor == u.textColor
    ensures !Truthy(u.backgroundColor) ==> r.backgroundColor == b.backgroundColor
    ensures Truthy(u.backgroundColor) ==> r.backgroundColor == u.backgroundColor
    ensures !Truthy(u.buttonColor) ==> r.buttonColor == b.buttonColor
    ensures Truthy(u.buttonColor) ==> r.buttonColor == u.buttonColor
    ensures r.startDate == UpdateDate(b.startDate, u.startDate, parseDate)
    ensures r.endDate == UpdateDate(b.endDate, u.endDate, parseDate)
    ensures !Supplied(u.image) ==> r.image == b.image && r.imageMime == b.imageMime
    ensures !Supplied(u.mobileImage) ==> r.mobileImage == b.mobileImage && r.mobileMime == b.mobileMime
    ensures Supplied(u.image) ==>
              r.image == Some(u.image.value.data) && r.imageMime == Some(MimeOr(u.image.value.contentType))
    ensures Supplied(u.mobileImage) ==>
              r.mobileImage == Some(u.mobileImage.value.data) && r.mobileMime == Some(MimeOr(u.mobileImage.value.contentType))
  {
    var img := Replace(b.image, b.imageMime, u.image);
    var mob := Replace(b.mobileImage, b.mobileMime, u.mobileImage);
    b.(title := FormValue(u.title).GetOr(b.title),
       subtitle := Or(u.subtitle, b.subtitle),
       description := Or(u.description, b.description),
       bannerType := FormValue(u.bannerType).GetOr(b.bannerType),
       status := FormValue(u.status).GetOr(b.status),
       displayOrder := u.displayOrder.GetOr(b.displayOrder),
       linkUrl := Or(u.linkUrl, b.linkUrl),
       linkText := Or(u.linkText, b.linkText),
       linkTarget := FormValue(u.linkTarget).GetOr(b.linkTarget),
       startDate := UpdateDate(b.startDate, u.startDate, parseDate),
       endDate := UpdateDate(b.endDate, u.endDate, parseDate),
       textColor := Or(u.textColor, b.textColor),
       backgroundColor := Or(u.backgroundColor, b.backgroundColor),
       buttonColor := Or(u.buttonColor, b.buttonColor),
       image := img.0, imageMime := img.1,
       mobileImage := mob.0, mobileMime := mob.1)
  }

  /** An update that supplies nothing changes nothing, and applying an update twice is applying it once. */
  lemma UpdateLaws(b: Banner, u: BannerUpdate, parseDate: string -> Option<int>)
    ensures ApplyUpdate(b, NoChange, parseDate) == b
    ensures ApplyUpdate(ApplyUpdate(b, u, parseDate), u, parseDate) == ApplyUpdate(b, u, parseDate)
  {
  }

  /** An update never brings in an empty text: banners without one keep having none. */
  lemma UpdateKeepsNoEmptyText(b: Banner, u: BannerUpdate, parseDate: string -> Option<int>)
    requires NoEmptyText(b)
    ensures NoEmptyText(ApplyUpdate(b, u, parseDate))
  {
  }

  /**
   * Clearing the end date in the admin form sends an empty text, which
   * reaches the route as "left out": a banner whose window has closed stays
   * hidden.
   */
  lemma ClearedEndStaysHidden(b: Banner, parseDate: string -> Option<int>, now: int)
    requires b.endDate.Some? && b.endDate.value < now
    ensures ApplyUpdate(b, NoChange.(endDate := Some("")), parseDate).endDate == b.endDate
    ensures !Active(ApplyUpdate(b, NoChange.(endDate := Some("")), parseDate), now)
  {
  }

  /** `update_banner`: 404 for an unknown id, otherwise the banner is updated in place. */
  function UpdateBanner(banners: seq<Banner>, id: nat, u: BannerUpdate, parseDate: string -> Option<int>): (r: Result<seq<Banner>>)
    ensures IndexOf(banners, id).None? <==> r == Err(BannerNotFound)
    ensures r.Ok? ==> var i := IndexOf(banners, id).value;
              r.value == banners[i := ApplyUpdate(banners[i], u, parseDate)]
  {
    match IndexOf(banners, id)
    case None => Err(BannerNotFound)
    case Some(i) => Ok(banners[i := ApplyUpdate(banners[i], u, parseDate)])
  }

  /** `delete_banner`: 404 for an unknown id, otherwise exactly that banner goes. */
  function DeleteBanner(banners: seq<Banner>, id: nat): (r: Result<seq<Banner>>)
    ensures IndexOf(banners, id).None? <==> r == Err(BannerNotFound)
    ensures r.Ok? ==> var i := IndexOf(banners, id).value;
              r.value == banners[..i] + banners[i + 1..]
  {
    match IndexOf(banners, id)
    case None => Err(BannerNotFound)
    case Some(i) => Ok(banners[..i] + banners[i + 1..])
  }

  // --------------------------------------------------------------- counters

  /** `track_banner_view`: 404 for an unknown id, otherwise that banner's view count goes up by one. */
  function TrackView(banners: seq<Banner>, id: nat): (r: Result<seq<Banner>>)
    ensures IndexOf(banners, id).None? <==> r == Err(BannerNotFound)
    ensures r.Ok? ==> |r.value| == |banners|
    ensures r.Ok? ==> var i := IndexOf(banners, id).value;
              && r.value[i].viewCount == banners[i].viewCount + 1
              && r.value[i].(viewCount := banners[i].viewCount) == banners[i]
              && forall j :: 0 <= j < |banners| && j != i ==> r.value[j] == banners[j]
  {
    match IndexOf(banners, id)
    case None => Err(BannerNotFound)
    case Some(i) => Ok(banners[i := banners[i].(viewCount := banners[i].viewCount + 1)])
  }

  /** `track_banner_click`: 404 for an unknown id, otherwise that banner's click count goes up by one. */
  function TrackClick(banners: seq<Banner>, id: nat): (r: Result<seq<Banner>>)
    ensures IndexOf(banners, id).None? <==> r == Err(BannerNotFound)
    ensures r.Ok? ==> |r.value| == |banners|
    ensures r.Ok? ==> var i := IndexOf(banners, id).value;
              && r.value[i].clickCount == banners[i].clickCount + 1
              && r.value[i].(clickCount := banners[i].clickCount) == banners[i]
              && forall j :: 0 <= j < |banners| && j != i ==> r.value[j] == banners[j]
  {
    match IndexOf(banners, id)
    case None => Err(BannerNotFound)
    case Some(i) => Ok(banners[i := banners[i].(clickCount := banners[i].clickCount + 1)])
  }

  /** The sum of a counter over all banners. */
  function Total(banners: seq<Banner>, count: Banner -> nat): nat {
    if banners == [] then 0 else count(banners[0]) + Total(banners[1..], count)
  }

  lemma {:induction false} TotalAfterBump(banners: seq<Banner>, i: nat, b: Banner, count: Banner -> nat)
    requires i < |banners| && count(b) == count(banners[i]) + 1
    ensures Total(banners[i := b], count) == Total(banners, count) + 1
  {
    if i > 0 {
      assert banners[i := b][1..] == banners[1..][i - 1 := b];
      TotalAfterBump(banners[1..], i - 1, b, count);
    } else {
      assert banners[i := b][1..] == banners[1..];
    }
  }

  function Views(b: Banner): nat { b.viewCount }

  function Clicks(b: Banner): nat { b.clickCount }

  /** A view raises the shop's total view count by exactly one and leaves the click total alone, and vice versa. */
  lemma TrackingCountsOne(banners: seq<Banner>, id: nat)
    requires IndexOf(banners, id).Some?
    ensures Total(TrackView(banners, id).value, Views) == Total(banners, Views) + 1
    ensures Total(TrackClick(banners, id).value, Clicks) == Total(banners, Clicks) + 1
    ensures Total(TrackView(banners, id).value, Clicks) == Total(banners, Clicks)
  {
    var i := IndexOf(banners, id).value;
    var viewed := banners[i].(viewCount := banners[i].viewCount + 1);
    var clicked := banners[i].(clickCount := banners[i].clickCount + 1);
    assert TrackView(banners, id).value == banners[i := viewed];
    assert TrackClick(banners, id).value == banners[i := clicked];
    TotalAfterBump(banners, i, viewed, Views);
    TotalAfterBump(banners, i, clicked, Clicks);
    TotalUnchanged(banners, i, viewed, Clicks);
  }

  lemma {:induction false} TotalUnchanged(banners: seq<Banner>, i: nat, b: Banner, count: Banner -> nat)
    requires i < |banners| && count(b) == count(banners[i])
    ensures Total(banners[i := b], count) == Total(banners, count)
  {
    if i > 0 {
      assert banners[i := b][1..] == banners[1..][i - 1 := b];
      TotalUnchanged(banners[1..], i - 1, b, count);
    } else {
      assert banners[i := b][1..] == banners[1..];
    }
  }
}

=== FILE: carousel.dfy ===
/**
 * The home-page banner carousel: the shown position among `n` banners,
 * moved by the arrows, the dots and the five-second timer. The arrows and
 * dots are shown, and the timer runs, only when there is more than one
 * banner; with none, nothing is shown at all.
 */
module Carousel {

  /** JavaScript's `%`: the remainder takes the sign of the dividend. */
  function JsRem(a: int, b: int): int
    requires b > 0
  {
    if a >= 0 then a % b else -((-a) % b)
  }

  /** `handleNext` and the timer step. */
  function Next(i: int, n: nat): (r: int)
    requires n > 0
    requires 0 <= i < n
    ensures 0 <= r < n
    ensures r == (if i == n - 1 then 0 else i + 1)
  {
    JsRem(i + 1, n)
  }

  /** `handlePrevious`. */
  function Previous(i: int, n: nat): (r: int)
    requires n > 0
    requires 0 <= i < n
    ensures 0 <= r < n
    ensures r == (if i == 0 then n - 1 else i - 1)
  {
    JsRem(i - 1 + n, n)
  }

  /** Forward and back undo each other. */
  lemma NextPreviousInverse(i: int, n: nat)
    requires n > 0 && 0 <= i < n
    ensures Previous(Next(i, n), n) == i
    ensures Next(Previous(i, n), n) == i
  {
  }

  /** Going forward `n` times comes back to the start. */
  lemma {:induction false} FullTurn(i: int, n: nat, k: nat)
    requires n > 0 && 0 <= i < n && k <= n
    ensures Steps(i, n, k) == (if i + k < n then i + k else i + k - n)
    ensures k == n ==> Steps(i, n, k) == i
  {
    if k > 0 {
      FullTurn(i, n, k - 1);
    }
  }

  function Steps(i: int, n: nat, k: nat): (r: int)
    requires n > 0 && 0 <= i < n
    ensures 0 <= r < n
  {
    if k == 0 then i else Next(Steps(i, n, k - 1), n)
  }

  /** The controls (arrows and dots) and the timer exist only with more than one banner. */
  predicate Controls(n: nat) {
    n > 1
  }

  datatype Event = NextClick | PreviousClick | DotClick(k: nat) | Tick

  /** The position after an event; events without their control on screen do nothing. */
  function Step(i: int, n: nat, e: Event): (r: int)
    requires 0 <= i < n || (n == 0 && i == 0)
    ensures n > 0 ==> 0 <= r < n
    ensures !Controls(n) ==> r == i
  {
    if !Controls(n) then i
    else match e
      case NextClick => Next(i, n)
      case Tick => Next(i, n)
      case PreviousClick => Previous(i, n)
      case DotClick(k) => if k < n then k else i
  }

  function Run(n: nat, events: seq<Event>): (r: int)
    ensures n > 0 ==> 0 <= r < n
    ensures n <= 1 ==> r == 0
  {
    if events == [] then 0 else Step(Run(n, events[..|events| - 1]), n, events[|events| - 1])
  }

  /** With the controls on screen, clicking the dot of a banner shows that banner, whatever came before. */
  lemma DotClickShows(n: nat, events: seq<Event>, k: nat)
    requires Controls(n) && k < n
    ensures Run(n, events + [DotClick(k)]) == k
  {
    assert (events + [DotClick(k)])[..|events|] == events;
  }

  /** Without controls no event moves the carousel: it stays on the first banner. */
  lemma NoControlsNoMove(n: nat, events: seq<Event>, e: Event)
    requires !Controls(n)
    ensures Run(n, events + [e]) == Run(n, events) == 0
  {
    assert (events + [e])[..|events|] == events;
  }
}

=== FILE: cart.dfy ===
/**
 * The shopper's cart in the browser: entries keyed by product, size and
 * colour, merged on add, removed by position, re-quantified in place, and
 * summed for the total and the item count. Persisting the cart in local
 * storage is outside the model.
 */
module Cart {
  import opened Common

  /** The part of a product the cart uses. */
  datatype CartProduct = CartProduct(id: nat, name: string, price: real)

  datatype CartItem = CartItem(product: CartProduct, quantity: int, size: Option<string>, color: Option<string>)

  /** An empty size or colour counts as none. */
  function Norm(s: Option<string>): (r: Option<string>)
    ensures r.None? <==> !Truthy(s)
    ensures r.Some? ==> r == s
  {
    if Truthy(s) then s else None
  }

  predicate SameKey(item: CartItem, productId: nat, size: Option<string>, color: Option<string>) {
    item.product.id == productId && Norm(item.size) == Norm(size) && Norm(item.color) == Norm(color)
  }

  /** The cart invariant: no two entries share a (product, size, colour) key. */
  ghost predicate UniqueKeys(items: seq<CartItem>) {
    forall i, j :: 0 <= i < |items| && 0 <= j < |items| && i != j ==>
      !SameKey(items[i], items[j].product.id, items[j].size, items[j].color)
  }

  /** Position of the first entry with the key. */
  function FindKey(items: seq<CartItem>, productId: nat, size: Option<string>, color: Option<string>): (r: Option<nat>)
    ensures r.Some? ==> r.value < |items| && SameKey(items[r.value], productId, size, color)
    ensures r.None? <==> forall j :: 0 <= j < |items| ==> !SameKey(items[j], productId, size, color)
  {
    if items == [] then None
    else if SameKey(items[0], productId, size, color) then Some(0)
    else match FindKey(items[1..], productId, size, color)
      case None =>
        assert forall j :: 1 <= j < |items| ==> items[j] == items[1..][j - 1];
        None
      case Some(k) => Some(k + 1)
  }

  /**
   * `addToCart`: with a key already present, that entry's quantity grows by
   * `quantity` (1 when not given); otherwise one entry is appended with the
   * empty size or colour stored as none.
   */
  function AddToCart(items: seq<CartItem>, product: CartProduct, quantity: Option<int>,
                     size: Option<string>, color: Option<string>): (r: seq<CartItem>)
    ensures var q := quantity.GetOr(1);
            match FindKey(items, product.id, size, color)
            case Some(k) =>
              && |r| == |items|
              && r[k] == items[k].(quantity := items[k].quantity + q)
              && forall j :: 0 <= j < |items| && j != k ==> r[j] == items[j]
            case None =>
              r == items + [CartItem(product, q, Norm(size), Norm(color))]
  {
    var q := quantity.GetOr(1);
    match FindKey(items, product.id, size, color)
    case Some(k) => items[k := items[k].(quantity := items[k].quantity + q)]
    case None => items + [CartItem(product, q, Norm(size), Norm(color))]
  }

  lemma AddKeepsUniqueKeys(items: seq<CartItem>, product: CartProduct, quantity: Option<int>,
                           size: Option<string>, color: Option<string>)
    requires UniqueKeys(items)
    ensures UniqueKeys(AddToCart(items, product, quantity, size, color))
  {
    var r := AddToCart(items, product, quantity, size, color);
    match FindKey(items, product.id, size, color)
    case Some(k) =>
      forall i, j | 0 <= i < |r| && 0 <= j < |r| && i != j
        ensures !SameKey(r[i], r[j].product.id, r[j].size, r[j].color)
      {
        assert SameKey(r[i], r[j].product.id, r[j].size, r[j].color) <==>
               SameKey(items[i], items[j].product.id, items[j].size, items[j].color);
      }
    case None =>
      forall i, j | 0 <= i < |r| && 0 <= j < |r| && i != j
        ensures !SameKey(r[i], r[j].product.id, r[j].size, r[j].color)
      {
        if i == |items| {
          assert !SameKey(items[j], product.id, size, color);
        } else if j == |items| {
          assert !SameKey(items[i], product.id, size, color);
        } else {
          assert r[i] == items[i] && r[j] == items[j];
        }
      }
  }

  /** `removeFromCart`: every entry but position `index`, in order; an index outside the cart removes nothing. */
  function RemoveFromCart(items: seq<CartItem>, index: int): (r: seq<CartItem>)
    ensures 0 <= index < |items| ==> r == items[..index] + items[index + 1..]
    ensures !(0 <= index < |items|) ==> r == items
  {
    if items == [] then []
    else (if index == 0 then [] else [items[0]]) + RemoveFromCart(items[1..], index - 1)
  }

  /** `updateQuantity`: a quantity of zero or less removes the entry; otherwise only that entry changes. */
  function UpdateQuantity(items: seq<CartItem>, index: int, quantity: int): (r: seq<CartItem>)
    ensures quantity <= 0 ==> r == RemoveFromCart(items, index)
    ensures quantity > 0 ==> |r| == |items|
    ensures quantity > 0 ==> forall j :: 0 <= j < |items| ==>
              r[j] == (if j == index then items[j].(quantity := quantity) else items[j])
  {
    if quantity <= 0 then RemoveFromCart(items, index)
    else seq(|items|, j requires 0 <= j < |items| => if j == index then items[j].(quantity := quantity) else items[j])
  }

  /** `clearCart`. */
  const Empty: seq<CartItem> := []

  /** One entry's share of the total. */
  function LineTotal(item: CartItem): real {
    item.product.price * item.quantity as real
  }

  /** `getCartTotal`: the sum of price times quantity. */
  function Total(items: seq<CartItem>): real {
    if items == [] then 0.0 else LineTotal(items[0]) + Total(items[1..])
  }

  /** `getCartCount`: the sum of the quantities. */
  function Count(items: seq<CartItem>): int {
    if items == [] then 0 else items[0].quantity + Count(items[1..])
  }

  /**
   * With no negative quantity the count is never negative, and with every
   * quantity at least one it is at least the number of entries; with no
   * negative price or quantity the total is never negative.
   */
  lemma {:induction false} SumBounds(items: seq<CartItem>)
    ensures (forall i :: 0 <= i < |items| ==> items[i].quantity >= 0) ==> Count(items) >= 0
    ensures (forall i :: 0 <= i < |items| ==> items[i].quantity >= 1) ==> Count(items) >= |items|
    ensures (forall i :: 0 <= i < |items| ==> items[i].product.price >= 0.0 && items[i].quantity >= 0) ==>
              Total(items) >= 0.0
  {
    if items != [] {
      SumBounds(items[1..]);
      var p, n := items[0].product.price, items[0].quantity;
      if p >= 0.0 && n >= 0 {
        assert LineTotal(items[0]) == p * n as real >= 0.0;
      }
    }
  }

  lemma {:induction false} SumsAppend(a: seq<CartItem>, b: seq<CartItem>)
    ensures Count(a + b) == Count(a) + Count(b)
    ensures Total(a + b) == Total(a) + Total(b)
  {
    if a != [] {
      assert (a + b)[1..] == a[1..] + b;
      SumsAppend(a[1..], b);
    } else {
      assert a + b == b;
    }
  }

  lemma {:induction false} SumsUpdate(items: seq<CartItem>, k: nat, e: CartItem)
    requires k < |items|
    ensures Count(items[k := e]) == Count(items) - items[k].quantity + e.quantity
    ensures Total(items[k := e]) == Total(items) - LineTotal(items[k]) + LineTotal(e)
  {
    if k > 0 {
      assert items[k := e][1..] == items[1..][k - 1 := e];
      SumsUpdate(items[1..], k - 1, e);
    } else {
      assert items[k := e][1..] == items[1..];
    }
  }

  /** Adding `q` units raises the count by `q`, and the total by `q` times the price of the entry that receives them. */
  lemma AddCounts(items: seq<CartItem>, product: CartProduct, quantity: Option<int>, size: Option<string>, color: Option<string>)
    ensures Count(AddToCart(items, product, quantity, size, color)) == Count(items) + quantity.GetOr(1)
    ensures Total(AddToCart(items, product, quantity, size, color)) ==
            Total(items) + ReceivingPrice(items, product, size, color) * quantity.GetOr(1) as real
  {
    var found := FindKey(items, product.id, size, color);
    if found.Some? {
      AddMergedCounts(items, product, quantity, size, color, found.value);
    } else {
      AddAppendedCounts(items, product, quantity, size, color);
    }
  }

  /** When the key is present, an add is the merge into that entry. */
  lemma AddMergedCounts(items: seq<CartItem>, product: CartProduct, quantity: Option<int>, size: Option<string>, color: Option<string>, k: nat)
    requires FindKey(items, product.id, size, color) == Some(k)
    ensures Count(AddToCart(items, product, quantity, size, color)) == Count(items) + quantity.GetOr(1)
    ensures Total(AddToCart(items, product, quantity, size, color)) ==
            Total(items) + ReceivingPrice(items, product, size, color) * quantity.GetOr(1) as real
  {
    var q := quantity.GetOr(1);
    assert ReceivingPrice(items, product, size, color) == items[k].product.price;
    assert AddToCart(items, product, quantity, size, color) == items[k := items[k].(quantity := items[k].quantity + q)];
    MergeCounts(items, k, q);
  }

  /** When the key is absent, an add is the append of a new entry. */
  lemma AddAppendedCounts(items: seq<CartItem>, product: CartProduct, quantity: Option<int>, size: Option<string>, color: Option<string>)
    requires FindKey(items, product.id, size, color).None?
    ensures Count(AddToCart(items, product, quantity, size, color)) == Count(items) + quantity.GetOr(1)
    ensures Total(AddToCart(items, product, quantity, size, color)) ==
            Total(items) + ReceivingPrice(items, product, size, color) * quantity.GetOr(1) as real
  {
    assert ReceivingPrice(items, product, size, color) == product.price;
    var e := CartItem(product, quantity.GetOr(1), Norm(size), Norm(color));
    assert AddToCart(items, product, quantity, size, color) == items + [e];
    AppendCounts(items, e);
  }

  /** Merging `q` units into entry `k`. */
  lemma {:induction false} MergeCounts(items: seq<CartItem>, k: nat, q: int)
    requires k < |items|
    ensures Count(items[k := items[k].(quantity := items[k].quantity + q)]) == Count(items) + q
    ensures Total(items[k := items[k].(quantity := items[k].quantity + q)]) ==
            Total(items) + items[k].product.price * q as real
  {
    var e := items[k].(quantity := items[k].quantity + q);
    SumsUpdate(items, k, e);
    LineTotalGrows(items[k], q);
  }

  /** Appending one entry. */
  lemma {:induction false} AppendCounts(items: seq<CartItem>, e: CartItem)
    ensures Count(items + [e]) == Count(items) + e.quantity
    ensures Total(items + [e]) == Total(items) + LineTotal(e)
  {
    SumsAppend(items, [e]);
    assert [e][1..] == [];
  }

  /** The price of the entry an add lands on: the stored product's when merging, the new product's when appending. */
  function ReceivingPrice(items: seq<CartItem>, product: CartProduct, size: Option<string>, color: Option<string>): real {
    match FindKey(items, product.id, size, color)
    case Some(k) => items[k].product.price
    case None => product.price
  }

  lemma LineTotalGrows(item: CartItem, q: int)
    ensures LineTotal(item.(quantity := item.quantity + q)) == LineTotal(item) + item.product.price * q as real
  {
    var p := item.product.price;
    assert p * (item.quantity + q) as real == p * item.quantity as real + p * q as real;
  }

  /** Removing an entry takes exactly its quantity off the count and its line off the total. */
  lemma {:induction false} RemoveCounts(items: seq<CartItem>, index: nat)
    requires index < |items|
    ensures Count(RemoveFromCart(items, index)) == Count(items) - items[index].quantity
    ensures Total(RemoveFromCart(items, index)) == Total(items) - LineTotal(items[index])
    decreases index
  {
    if index > 0 {
      var rest := RemoveFromCart(items[1..], index - 1);
      RemoveCounts(items[1..], index - 1);
      assert RemoveFromCart(items, index) == [items[0]] + rest;
      assert ([items[0]] + rest)[1..] == rest;
      assert items[1..][index - 1] == items[index];
    } else {
      assert RemoveFromCart(items, index) == items[1..];
    }
  }

  /** After clearing, the total and the count are zero. */
  lemma ClearedIsZero()
    ensures Total(Empty) == 0.0 && Count(Empty) == 0
  {
  }

  /** Removing and re-quantifying keep the invariant. */
  lemma EditsKeepUniqueKeys(items: seq<CartItem>, index: int, quantity: int)
    requires UniqueKeys(items)
    ensures UniqueKeys(RemoveFromCart(items, index))
    ensures UniqueKeys(UpdateQuantity(items, index, quantity))
  {
    var r := RemoveFromCart(items, index);
    if 0 <= index < |items| {
      forall i, j | 0 <= i < |r| && 0 <= j < |r| && i != j
        ensures !SameKey(r[i], r[j].product.id, r[j].size, r[j].color)
      {
        var bi := if i < index then i else i + 1;
        var bj := if j < index then j else j + 1;
        assert r[i] == items[bi] && r[j] == items[bj];
      }
    }
    if quantity > 0 {
      var u := UpdateQuantity(items, index, quantity);
      forall i, j | 0 <= i < |u| && 0 <= j < |u| && i != j
        ensures !SameKey(u[i], u[j].product.id, u[j].size, u[j].color)
      {
        assert SameKey(u[i], u[j].product.id, u[j].size, u[j].color) <==>
               SameKey(items[i], items[j].product.id, items[j].size, items[j].color);
      }
    }
  }
}

=== FILE: collections.dfy ===
/**
 * Product collections: read, create, update and delete, with collection
 * names kept unique, and the stored image shown as a data URL.
 */
module Collections {
  import opened Common
  import opened Uploads

  datatype Collection = Collection(
    id: nat,
    name: string,
    description: Option<string>,
    image: Option<seq<byte>>,
    mimetype: Option<string>,
    createdAt: int)

  /** What the routes answer for a collection. */
  datatype CollectionView = CollectionView(
    id: nat, name: string, description: Option<string>, imageUrl: Option<string>, createdAt: int)

  /** The form of the update route as sent: `None` is a field the request leaves out; a text sent empty counts as left out. */
  datatype CollectionUpdate = CollectionUpdate(name: Option<string>, description: Option<string>, image: Option<Upload>)

  ghost predicate UniqueNames(cs: seq<Collection>) {
    forall i, j :: 0 <= i < |cs| && 0 <= j < |cs| && i != j ==> cs[i].name != cs[j].name
  }

  ghost predicate UniqueIds(cs: seq<Collection>) {
    forall i, j :: 0 <= i < |cs| && 0 <= j < |cs| && i != j ==> cs[i].id != cs[j].id
  }

  const CollectionNotFound := NotFound("Collection not found")
  const NameTaken := BadRequest("Collection with this name already exists")

  function View(c: Collection, b64: seq<byte> -> string): (v: CollectionView)
    ensures v.id == c.id && v.name == c.name && v.description == c.description
    ensures v.imageUrl.Some? <==> HasBytes(c.image)
  {
    CollectionView(c.id, c.name, c.description, ImageUrl(c.image, c.mimetype, b64), c.createdAt)
  }

  /** The image URL of a view names the stored media type (JPEG when none) and carries the encoded image. */
  lemma ViewImageUrl(c: Collection, b64: seq<byte> -> string)
    requires HasBytes(c.image) && ';' !in MimeOr(c.mimetype)
    ensures MediaType(View(c, b64).imageUrl.value) == Some(MimeOr(c.mimetype))
    ensures Payload(View(c, b64).imageUrl.value) == Some(b64(c.image.value))
  {
    DataUrlRoundTrip(c.image.value, MimeOr(c.mimetype), b64);
  }

  function IndexOf(cs: seq<Collection>, id: nat): Option<nat> {
    IndexBy(cs, (c: Collection) => c.id, id)
  }

  /** Whether a collection other than `except` holds the name. */
  predicate NameHeld(cs: seq<Collection>, name: string, except: int) {
    exists j :: 0 <= j < |cs| && cs[j].name == name && cs[j].id != except
  }

  function HolderOf(cs: seq<Collection>, name: string, except: int): (r: Option<nat>)
    ensures r.Some? ==> r.value < |cs| && cs[r.value].name == name && cs[r.value].id != except
    ensures r.None? <==> !NameHeld(cs, name, except)
  {
    if cs == [] then None
    else if cs[0].name == name && cs[0].id != except then Some(0)
    else match HolderOf(cs[1..], name, except)
      case None =>
        assert forall j :: 1 <= j < |cs| ==> cs[j] == cs[1..][j - 1];
        None
      case Some(k) => Some(k + 1)
  }

  /** `get_all_collections`: every collection, in table order. */
  function GetAll(cs: seq<Collection>, b64: seq<byte> -> string): (r: seq<CollectionView>)
    ensures |r| == |cs|
    ensures forall i :: 0 <= i < |cs| ==> r[i] == View(cs[i], b64)
  {
    if cs == [] then [] else [View(cs[0], b64)] + GetAll(cs[1..], b64)
  }

  /** `get_collection`: 404 for an unknown id. */
  function GetCollection(cs: seq<Collection>, id: nat, b64: seq<byte> -> string): (r: Result<CollectionView>)
    ensures r.Err? <==> forall j :: 0 <= j < |cs| ==> cs[j].id != id
    ensures r.Err? ==> r.error == CollectionNotFound
    ensures r.Ok? ==> exists j :: 0 <= j < |cs| && cs[j].id == id && r.value == View(cs[j], b64)
  {
    match IndexOf(cs, id)
    case None => Err(CollectionNotFound)
    case Some(i) => Ok(View(cs[i], b64))
  }

  /**
   * `create_collection`: 422 when the name is left out or sent empty, 400
   * when it is taken, otherwise one new collection at the end, with the
   * upload's image only when it has a file name. A description sent empty
   * reaches the route as left out.
   */
  function CreateCollection(cs: seq<Collection>, name: Option<string>, description: Option<string>,
                            image: Option<Upload>, now: int): (r: Result<seq<Collection>>)
    ensures !Truthy(name) ==> r == Err(FieldRequired)
    ensures Truthy(name) ==> (r.Err? <==> NameHeld(cs, name.value, -1))
    ensures Truthy(name) && r.Err? ==> r.error == NameTaken
    ensures r.Ok? ==> |r.value| == |cs| + 1 && r.value[..|cs|] == cs
    ensures r.Ok? ==> var c := r.value[|cs|];
              && Some(c.name) == name && c.name != "" && c.createdAt == now
              && (Truthy(description) ==> c.description == description)
              && (!Truthy(description) ==> c.description.None?)
              && (c.image, c.mimetype) == Replace(None, None, image)
              && forall i :: 0 <= i < |cs| ==> cs[i].id < c.id
  {
    match RequiredForm(name)
    case Err(e) => Err(e)
    case Ok(n) =>
      if HolderOf(cs, n, -1).Some? then Err(NameTaken)
      else
        var stored := Replace(None, None, image);
        Ok(cs + [Collection(NextId(cs, (c: Collection) => c.id), n, FormValue(description), stored.0, stored.1, now)])
  }

  lemma CreateKeepsUniqueNames(cs: seq<Collection>, name: Option<string>, description: Option<string>, image: Option<Upload>, now: int)
    requires UniqueNames(cs) && UniqueIds(cs)
    requires CreateCollection(cs, name, description, image, now).Ok?
    ensures UniqueNames(CreateCollection(cs, name, description, image, now).value)
    ensures UniqueIds(CreateCollection(cs, name, description, image, now).value)
  {
  }

  /**
   * The collection after an update: a name or description sent non-empty
   * replaces the stored one; left out or sent empty, the stored one stays.
   */
  function Apply(c: Collection, u: CollectionUpdate): (r: Collection)
    ensures r.id == c.id && r.createdAt == c.createdAt
    ensures Truthy(u.name) ==> r.name == u.name.value
    ensures !Truthy(u.name) ==> r.name == c.name
    ensures Truthy(u.description) ==> r.description == u.description
    ensures !Truthy(u.description) ==> r.description == c.description
    ensures !Supplied(u.image) ==> r.image == c.image && r.mimetype == c.mimetype
    ensures Supplied(u.image) ==> r.image == Some(u.image.value.data) && r.mimetype == Some(MimeOr(u.image.value.contentType))
    ensures u == CollectionUpdate(None, None, None) ==> r == c
  {
    var stored := Replace(c.image, c.mimetype, u.image);
    c.(name := FormValue(u.name).GetOr(c.name),
       description := if FormValue(u.description).Some? then FormValue(u.description) else c.description,
       image := stored.0, mimetype := stored.1)
  }

  /**
   * `update_collection`: 404 for an unknown id; 400 when a new name is held
   * by a different collection (keeping its own name is fine); otherwise the
   * collection is updated in place. A name sent empty is no rename at all.
   */
  function UpdateCollection(cs: seq<Collection>, id: nat, u: CollectionUpdate): (r: Result<seq<Collection>>)
    ensures IndexOf(cs, id).None? <==> r == Err(CollectionNotFound)
    ensures IndexOf(cs, id).Some? && Truthy(u.name) && NameHeld(cs, u.name.value, id) ==> r == Err(NameTaken)
    ensures r.Ok? <==> IndexOf(cs, id).Some? && !(Truthy(u.name) && NameHeld(cs, u.name.value, id))
    ensures r.Ok? ==> var i := IndexOf(cs, id).value;
              r.value == cs[i := Apply(cs[i], u)]
  {
    match IndexOf(cs, id)
    case None => Err(CollectionNotFound)
    case Some(i) =>
      match FormValue(u.name)
      case Some(n) =>
        if HolderOf(cs, n, id).Some? then Err(NameTaken)
        else Ok(cs[i := Apply(cs[i], u)])
      case None => Ok(cs[i := Apply(cs[i], u)])
  }

  /** A name sent empty renames nothing and never clashes. */
  lemma EmptyNameKeepsName(cs: seq<Collection>, id: nat)
    requires IndexOf(cs, id).Some?
    ensures UpdateCollection(cs, id, CollectionUpdate(Some(""), None, None)) == Ok(cs)
  {
    var i := IndexOf(cs, id).value;
    assert cs[i := cs[i]] == cs;
  }

  /** Renaming a collection to its own current name is never refused as a clash. */
  lemma RenameToOwnName(cs: seq<Collection>, id: nat)
    requires UniqueNames(cs)
    requires IndexOf(cs, id).Some?
    ensures UpdateCollection(cs, id, CollectionUpdate(Some(cs[IndexOf(cs, id).value].name), None, None)).Ok?
  {
    var i := IndexOf(cs, id).value;
    forall j | 0 <= j < |cs| && cs[j].name == cs[i].name ensures cs[j].id == id {
      assert j == i;
    }
  }

  lemma UpdateKeepsUniqueNames(cs: seq<Collection>, id: nat, u: CollectionUpdate)
    requires UniqueNames(cs) && UniqueIds(cs)
    requires UpdateCollection(cs, id, u).Ok?
    ensures UniqueNames(UpdateCollection(cs, id, u).value)
    ensures UniqueIds(UpdateCollection(cs, id, u).value)
  {
    var i := IndexOf(cs, id).value;
    var r := UpdateCollection(cs, id, u).value;
    forall j, k | 0 <= j < |r| && 0 <= k < |r| && j != k ensures r[j].name != r[k].name {
      if j == i {
        assert cs[k].id != id;
      } else if k == i {
        assert cs[j].id != id;
      } else {
        assert r[j] == cs[j] && r[k] == cs[k];
      }
    }
  }

  /** `delete_collection`: 404 for an unknown id, otherwise exactly that collection goes. */
  function DeleteCollection(cs: seq<Collection>, id: nat): (r: Result<seq<Collection>>)
    ensures IndexOf(cs, id).None? <==> r == Err(CollectionNotFound)
    ensures r.Ok? ==> var i := IndexOf(cs, id).value;
              r.value == cs[..i] + cs[i + 1..]
  {
    match IndexOf(cs, id)
    case None => Err(CollectionNotFound)
    case Some(i) => Ok(cs[..i] + cs[i + 1..])
  }

  /** Under unique ids a deleted collection can no longer be fetched. */
  lemma DeleteThenGetNotFound(cs: seq<Collection>, id: nat, b64: seq<byte> -> string)
    requires UniqueIds(cs)
    requires DeleteCollection(cs, id).Ok?
    ensures GetCollection(DeleteCollection(cs, id).value, id, b64) == Err(CollectionNotFound)
  {
    var i := IndexOf(cs, id).value;
    var r := DeleteCollection(cs, id).value;
    forall j | 0 <= j < |r| ensures r[j].id != id {
      var bj := if j < i then j else j + 1;
      assert r[j] == cs[bj] && bj != i;
    }
  }
}

=== FILE: comments.dfy ===
/**
 * Product reviews: who may write one (any signed-in user; with an order
 * reference only for their own completed order that contains the product,
 * once per purchase), who may edit or delete one (its author or an
 * administrator), and which purchases a user can still review.
 */
module Comments {
  import opened Common
  import opened Models
  import opened Ledger

  /** The review form: the order reference is optional. */
  datatype CommentCreate = CommentCreate(productId: nat, rating: int, text: string, orderId: Option<int>)

  /** The edit form: each field optional. */
  datatype CommentUpdate = CommentUpdate(rating: Option<int>, text: Option<string>)

  predicate ValidRating(rating: int) {
    1 <= rating <= 5
  }

  /** Python truthiness of the optional order reference: present and not 0. */
  predicate HasOrderRef(orderId: Option<int>) {
    orderId.Some? && orderId.value != 0
  }

  /** A review by `userId` of `productId` for order `orderId` exists. */
  predicate Reviewed(comments: seq<Comment>, userId: nat, productId: nat, orderId: int) {
    exists i | 0 <= i < |comments| ::
      comments[i].userId == userId && comments[i].productId == productId
      && comments[i].orderId.Some? && comments[i].orderId.value == orderId
  }

  /** Order `orderId` has a line for product `productId`. */
  predicate OrderContains(items: seq<OrderItem>, orderId: int, productId: nat) {
    exists k | 0 <= k < |items| :: items[k].orderId == orderId && items[k].productId == productId
  }

  function FindOwnOrder(orders: seq<Order>, orderId: int, userId: nat): (r: Option<Order>)
    ensures r.Some? ==> r.value in orders && r.value.id == orderId && r.value.userId == userId
    ensures r.None? ==> forall i :: 0 <= i < |orders| ==> !(orders[i].id == orderId && orders[i].userId == userId)
  {
    if orders == [] then None
    else if orders[0].id == orderId && orders[0].userId == userId then Some(orders[0])
    else FindOwnOrder(orders[1..], orderId, userId)
  }

  /** The purchase checks for a review that names order `orderId`, in the handler's order. */
  function PurchaseProblem(l: Ledger, comments: seq<Comment>, userId: nat, productId: nat, orderId: int): (r: Option<Error>)
    ensures r.None? <==>
              && FindOwnOrder(l.orders, orderId, userId).Some?
              && IsReviewableStatus(FindOwnOrder(l.orders, orderId, userId).value.status)
              && OrderContains(l.items, orderId, productId)
              && !Reviewed(comments, userId, productId, orderId)
    ensures r.Some? ==> r.value.Forbidden? || r.value == BadRequest("You have already reviewed this product for this purchase")
  {
    match FindOwnOrder(l.orders, orderId, userId)
    case None => Some(Forbidden("Order not found or does not belong to you"))
    case Some(o) =>
      if !IsReviewableStatus(o.status) then Some(Forbidden("Can only review products from completed orders"))
      else if !OrderContains(l.items, orderId, productId) then Some(Forbidden("Product not found in this order"))
      else if Reviewed(comments, userId, productId, orderId) then
        Some(BadRequest("You have already reviewed this product for this purchase"))
      else None
  }

  /** The product exists, the rating is in range, and a review naming an order passes the purchase checks. */
  predicate Admissible(l: Ledger, comments: seq<Comment>, userId: nat, req: CommentCreate) {
    && HasProduct(l.products, req.productId) && ValidRating(req.rating)
    && (HasOrderRef(req.orderId) ==> PurchaseProblem(l, comments, userId, req.productId, req.orderId.value).None?)
  }

  /**
   * `create_comment`: the product must exist (checked first), the rating
   * must lie in 1..5, and a review naming an order must pass the purchase
   * checks; then the review is added with the caller as author.
   */
  function CreateComment(l: Ledger, comments: seq<Comment>, caller: User, req: CommentCreate, now: int): (r: Result<seq<Comment>>)
    ensures !HasProduct(l.products, req.productId) ==> r == Err(NotFound("Product not found"))
    ensures HasProduct(l.products, req.productId) && !ValidRating(req.rating) ==>
              r == Err(BadRequest("Rating must be between 1 and 5"))
    ensures r.Ok? <==> Admissible(l, comments, caller.id, req)
    ensures r.Ok? ==> Added(comments, r.value, caller.id, req, now)
  {
    if !HasProduct(l.products, req.productId) then Err(NotFound("Product not found"))
    else if !ValidRating(req.rating) then Err(BadRequest("Rating must be between 1 and 5"))
    else if HasOrderRef(req.orderId) && PurchaseProblem(l, comments, caller.id, req.productId, req.orderId.value).Some? then
      Err(PurchaseProblem(l, comments, caller.id, req.productId, req.orderId.value).value)
    else
      var orderId: Option<nat> := if req.orderId.Some? && req.orderId.value >= 0 then Some(req.orderId.value) else None;
      Ok(comments + [Comment(NextId(comments, (c: Comment) => c.id), req.productId, caller.id, orderId,
                             req.rating, req.text, now)])
  }

  /** `after` is `before` plus one review, with a fresh id, by `userId`, with the request's product, rating, text and order. */
  ghost predicate Added(before: seq<Comment>, after: seq<Comment>, userId: nat, req: CommentCreate, now: int) {
    && |after| == |before| + 1
    && after[..|before|] == before
    && var c := after[|before|];
    && (forall i :: 0 <= i < |before| ==> before[i].id < c.id)
    && c.userId == userId && c.productId == req.productId && c.rating == req.rating && c.text == req.text
    && ValidRating(c.rating)
    && (HasOrderRef(req.orderId) ==> c.orderId.Some? && c.orderId.value == req.orderId.value)
  }

  /** No two reviews by one user of one product name the same order. */
  ghost predicate OneReviewPerPurchase(comments: seq<Comment>) {
    forall i, j ::
      (0 <= i < |comments| && 0 <= j < |comments| && i != j && comments[i].orderId.Some?) ==>
        !(comments[i].userId == comments[j].userId && comments[i].productId == comments[j].productId
          && comments[i].orderId == comments[j].orderId)
  }

  /**
   * Creating reviews keeps one review per purchase, provided the order
   * reference 0 is not used (it is stored but skips the purchase checks).
   */
  lemma CreateKeepsOneReviewPerPurchase(l: Ledger, comments: seq<Comment>, caller: User, req: CommentCreate, now: int)
    requires OneReviewPerPurchase(comments)
    requires req.orderId != Some(0)
    requires Admissible(l, comments, caller.id, req)
    ensures OneReviewPerPurchase(CreateComment(l, comments, caller, req, now).value)
  {
    var after := CreateComment(l, comments, caller, req, now).value;
    var n := |comments|;
    var c := after[n];
    forall i | 0 <= i < n ensures after[i] == comments[i] {
      assert after[..n][i] == after[i];
    }
    if c.orderId.Some? {
      assert HasOrderRef(req.orderId);
      assert !Reviewed(comments, caller.id, req.productId, req.orderId.value);
    }
  }

  /** Without an order reference none of the purchase checks apply: an existing product and a valid rating suffice. */
  lemma NoOrderNoPurchaseChecks(l: Ledger, comments: seq<Comment>, caller: User, req: CommentCreate, now: int)
    requires !HasOrderRef(req.orderId)
    requires HasProduct(l.products, req.productId) && ValidRating(req.rating)
    ensures CreateComment(l, comments, caller, req, now).Ok?
  {
  }

  /** A second review of the same purchase is refused. */
  lemma SecondReviewRefused(l: Ledger, comments: seq<Comment>, caller: User, req: CommentCreate, now: int)
    requires HasProduct(l.products, req.productId) && ValidRating(req.rating)
    requires HasOrderRef(req.orderId)
    requires FindOwnOrder(l.orders, req.orderId.value, caller.id).Some?
    requires IsReviewableStatus(FindOwnOrder(l.orders, req.orderId.value, caller.id).value.status)
    requires OrderContains(l.items, req.orderId.value, req.productId)
    requires Reviewed(comments, caller.id, req.productId, req.orderId.value)
    ensures CreateComment(l, comments, caller, req, now)
            == Err(BadRequest("You have already reviewed this product for this purchase"))
  {
  }

  // ----------------------------------------------------------- edit, delete

  /** The author of a review, or an administrator. */
  predicate MayModify(c: Comment, caller: User) {
    c.userId == caller.id || caller.role == RoleAdmin
  }

  function IndexOfComment(comments: seq<Comment>, id: nat): Option<nat> {
    IndexBy(comments, (c: Comment) => c.id, id)
  }

  /** Only the supplied fields change. */
  function Edit(c: Comment, u: CommentUpdate): (r: Comment)
    ensures r.(rating := c.rating, text := c.text) == c
    ensures u.rating.None? ==> r.rating == c.rating
    ensures u.text.None? ==> r.text == c.text
    ensures u.rating.Some? ==> r.rating == u.rating.value
    ensures u.text.Some? ==> r.text == u.text.value
  {
    c.(rating := u.rating.GetOr(c.rating), text := u.text.GetOr(c.text))
  }

  /**
   * `update_comment`: 404 for an unknown review, 403 unless the caller is
   * its author or an administrator, 400 for a supplied rating outside 1..5;
   * otherwise only that review changes, and only in the supplied fields.
   */
  function UpdateComment(comments: seq<Comment>, caller: User, id: nat, u: CommentUpdate): (r: Result<seq<Comment>>)
    ensures IndexOfComment(comments, id).None? ==> r == Err(NotFound("Comment not found"))
    ensures r.Ok? <==>
              && IndexOfComment(comments, id).Some?
              && MayModify(comments[IndexOfComment(comments, id).value], caller)
              && (u.rating.Some? ==> ValidRating(u.rating.value))
    ensures IndexOfComment(comments, id).Some? && !MayModify(comments[IndexOfComment(comments, id).value], caller) ==>
              r == Err(Forbidden("Not authorized to edit this comment"))
    ensures r.Ok? ==> var i := IndexOfComment(comments, id).value;
              && |r.value| == |comments|
              && r.value[i] == Edit(comments[i], u)
              && forall j :: 0 <= j < |comments| && j != i ==> r.value[j] == comments[j]
  {
    match IndexOfComment(comments, id)
    case None => Err(NotFound("Comment not found"))
    case Some(i) =>
      if !MayModify(comments[i], caller) then Err(Forbidden("Not authorized to edit this comment"))
      else if u.rating.Some? && !ValidRating(u.rating.value) then Err(BadRequest("Rating must be between 1 and 5"))
      else Ok(comments[i := Edit(comments[i], u)])
  }

  /** An edit keeps every rating in range. */
  lemma UpdateKeepsRatingsValid(comments: seq<Comment>, caller: User, id: nat, u: CommentUpdate)
    requires forall i :: 0 <= i < |comments| ==> ValidRating(comments[i].rating)
    requires UpdateComment(comments, caller, id, u).Ok?
    ensures forall i :: 0 <= i < |comments| ==> ValidRating(UpdateComment(comments, caller, id, u).value[i].rating)
  {
  }

  /**
   * `delete_comment`: 404 for an unknown review, 403 unless the caller is
   * its author or an administrator; otherwise exactly that review goes.
   */
  function DeleteComment(comments: seq<Comment>, caller: User, id: nat): (r: Result<seq<Comment>>)
    ensures IndexOfComment(comments, id).None? ==> r == Err(NotFound("Comment not found"))
    ensures r.Ok? <==> IndexOfComment(comments, id).Some? && MayModify(comments[IndexOfComment(comments, id).value], caller)
    ensures r.Err? && IndexOfComment(comments, id).Some? ==> r == Err(Forbidden("Not authorized to delete this comment"))
    ensures r.Ok? ==> var i := IndexOfComment(comments, id).value;
              r.value == comments[..i] + comments[i + 1..]
    ensures r.Ok? ==> |r.value| == |comments| - 1 && forall c :: c in r.value ==> c in comments
  {
    match IndexOfComment(comments, id)
    case None => Err(NotFound("Comment not found"))
    case Some(i) =>
      if !MayModify(comments[i], caller) then Err(Forbidden("Not authorized to delete this comment"))
      else Ok(comments[..i] + comments[i + 1..])
  }

  // ---------------------------------------------------- eligible purchases

  /** One purchase the caller may review: the order, its date, and whether it is reviewed already. */
  datatype Purchase = Purchase(orderId: nat, purchaseDate: int, hasReviewed: bool)

  /**
   * The caller's completed orders containing the product, in table order,
   * each flagged with whether the caller already reviewed the product for
   * it. The query's status list also names "delivered", which is not an
   * order status, so only completed orders are listed.
   */
  function EligiblePurchases(l: Ledger, comments: seq<Comment>, userId: nat, productId: nat): (r: seq<Purchase>)
    ensures forall e :: e in r ==> exists o :: o in l.orders && Eligible(l, o, userId, productId) && e == PurchaseOf(comments, o, productId)
    ensures forall o :: o in l.orders && Eligible(l, o, userId, productId) ==> PurchaseOf(comments, o, productId) in r
  {
    EligibleIn(l, l.orders, comments, userId, productId)
  }

  predicate Eligible(l: Ledger, o: Order, userId: nat, productId: nat) {
    o.userId == userId && o.status == Completed && OrderContains(l.items, o.id, productId)
  }

  function PurchaseOf(comments: seq<Comment>, o: Order, productId: nat): Purchase {
    Purchase(o.id, o.createdAt, Reviewed(comments, o.userId, productId, o.id))
  }

  function EligibleIn(l: Ledger, orders: seq<Order>, comments: seq<Comment>, userId: nat, productId: nat): (r: seq<Purchase>)
    ensures forall e :: e in r ==> exists o :: o in orders && Eligible(l, o, userId, productId) && e == PurchaseOf(comments, o, productId)
    ensures forall o :: o in orders && Eligible(l, o, userId, productId) ==> PurchaseOf(comments, o, productId) in r
  {
    if orders == [] then []
    else
      var rest := EligibleIn(l, orders[1..], comments, userId, productId);
      var o := orders[0];
      assert forall q :: q in orders <==> q == o || q in orders[1..];
      (if Eligible(l, o, userId, productId) then [PurchaseOf(comments, o, productId)] else []) + rest
  }

  /** The status test of the query and of review creation agree: both accept exactly completed orders. */
  lemma EligibleMeansReviewable(l: Ledger, o: Order, userId: nat, productId: nat)
    ensures Eligible(l, o, userId, productId) <==>
              o.userId == userId && IsReviewableStatus(o.status) && OrderContains(l.items, o.id, productId)
  {
    ReviewableIsCompleted(o.status);
  }

  /** `has_reviewed` is set exactly when a review by the caller of the product names that order. */
  lemma HasReviewedIff(comments: seq<Comment>, o: Order, productId: nat)
    ensures PurchaseOf(comments, o, productId).hasReviewed <==>
              exists c :: c in comments && c.userId == o.userId && c.productId == productId && c.orderId == Some(o.id)
  {
    if PurchaseOf(comments, o, productId).hasReviewed {
      var i :| 0 <= i < |comments| && comments[i].userId == o.userId && comments[i].productId == productId
               && comments[i].orderId.Some? && comments[i].orderId.value == o.id;
      assert comments[i] in comments;
    }
  }
}

=== FILE: common.dfy ===
/**
 * Shared vocabulary of the model: optional values, handler results carrying the
 * HTTP error a route raises, and the small string predicates the routes use
 * (substring tests, prefix tests, ASCII case folding, truthiness of form fields).
 */
module Common {

  datatype Option<T> = None | Some(value: T) {
    function GetOr(default: T): T {
      match this
      case Some(v) => v
      case None => default
    }
  }

  /** The HTTP errors the handlers raise, each with its `detail` text. */
  datatype Error =
    | BadRequest(detail: string)     // 400
    | Unauthorized(detail: string)   // 401
    | Forbidden(detail: string)      // 403
    | NotFound(detail: string)       // 404
    | Unprocessable(detail: string)  // 422: the request failed schema validation
    | InternalError(detail: string)  // 500
  {
    function Code(): int {
      match this
      case BadRequest(_) => 400
      case Unauthorized(_) => 401
      case Forbidden(_) => 403
      case NotFound(_) => 404
      case Unprocessable(_) => 422
      case InternalError(_) => 500
    }
  }

  datatype Result<T> = Ok(value: T) | Err(error: Error)

  /** A byte of an uploaded file or stored image. */
  type byte = b: int | 0 <= b < 256

  /** Python truthiness of an optional string: present and non-empty. */
  predicate Truthy(s: Option<string>) {
    s.Some? && s.value != ""
  }

  /** Python truthiness of optional bytes: present and non-empty. */
  predicate HasBytes(b: Option<seq<byte>>) {
    b.Some? && b.value != []
  }

  /**
   * How FastAPI reads an optional form field: a field sent as the empty text
   * counts as not sent, so the route receives its default `None`.
   */
  function FormValue(sent: Option<string>): (r: Option<string>)
    ensures r.None? <==> !Truthy(sent)
    ensures r.Some? ==> r == sent && r.value != ""
  {
    if Truthy(sent) then sent else None
  }

  /** The 422 FastAPI answers for a required form field that is missing or sent empty. */
  const FieldRequired := Unprocessable("Field required")

  /** How FastAPI reads a required form field: the text, or the 422 when it is missing or empty. */
  function RequiredForm(sent: Option<string>): (r: Result<string>)
    ensures r.Err? <==> !Truthy(sent)
    ensures r.Err? ==> r.error == FieldRequired
    ensures r.Ok? ==> sent == Some(r.value) && r.value != ""
  {
    if Truthy(sent) then Ok(sent.value) else Err(FieldRequired)
  }

  function Max(a: int, b: int): int {
    if a < b then b else a
  }

  function Min(a: int, b: int): int {
    if a < b then a else b
  }

  function MaxReal(a: real, b: real): real {
    if a < b then b else a
  }

  /** Python `str(x)` of an optional string: the text itself, or `"None"`. */
  function PyStr(s: Option<string>): string {
    match s
    case Some(v) => v
    case None => "None"
  }

  // ---------------------------------------------------------------- strings

  function LowerChar(c: char): char {
    if 'A' <= c <= 'Z' then (c as int + 32) as char else c
  }

  /** ASCII lower-casing (Python `str.lower`, JavaScript `toLowerCase` restricted to ASCII). */
  function Lower(s: string): (r: string)
    ensures |r| == |s|
    ensures forall i :: 0 <= i < |s| ==> r[i] == LowerChar(s[i])
  {
    if s == [] then [] else [LowerChar(s[0])] + Lower(s[1..])
  }

  /** `sub` occurs in `s` starting at index `i`. */
  predicate OccursAt(s: string, sub: string, i: int) {
    0 <= i && i + |sub| <= |s| && s[i..i + |sub|] == sub
  }

  /** `sub in s` for strings. */
  predicate Contains(s: string, sub: string) {
    exists i | 0 <= i <= |s| - |sub| :: OccursAt(s, sub, i)
  }

  /** `s.startswith(p)`. */
  predicate StartsWith(s: string, p: string) {
    |p| <= |s| && s[..|p|] == p
  }

  /** SQL `ILIKE '%sub%'`: case-insensitive substring. */
  predicate ContainsIgnoreCase(s: string, sub: string) {
    Contains(Lower(s), Lower(sub))
  }

  /** The characters JavaScript's `\s` and `trim` treat as white space (ASCII part). */
  predicate IsWhitespace(c: char) {
    c == ' ' || c == '\t' || c == '\n' || c == '\r' || c == '\U{000B}' || c == '\U{000C}'
  }

  /** `sep.join(parts)`. */
  function Join(parts: seq<string>, sep: string): string {
    if parts == [] then ""
    else if |parts| == 1 then parts[0]
    else parts[0] + sep + Join(parts[1..], sep)
  }

  /** A text holding a character that `s` lacks does not occur in `s`. */
  lemma MissingCharNotContained(s: string, sub: string, c: char)
    requires c in sub && c !in s
    ensures !Contains(s, sub)
  {
    forall i | 0 <= i <= |s| - |sub| ensures !OccursAt(s, sub, i) {
      var k :| 0 <= k < |sub| && sub[k] == c;
      assert s[i + k] in s;
      assert s[i..i + |sub|][k] != sub[k];
    }
  }

  /** A text that occurs in a suffix occurs in the whole string. */
  lemma ContainsInSuffix(prefix: string, s: string, sub: string)
    requires Contains(s, sub)
    ensures Contains(prefix + s, sub)
  {
    var i :| 0 <= i <= |s| - |sub| && OccursAt(s, sub, i);
    assert (prefix + s)[|prefix| + i..|prefix| + i + |sub|] == s[i..i + |sub|];
    assert OccursAt(prefix + s, sub, |prefix| + i);
  }

  /** Every part occurs in the joined text. */
  lemma {:induction false} JoinContainsParts(parts: seq<string>, sep: string, k: nat)
    requires k < |parts|
    ensures Contains(Join(parts, sep), parts[k])
  {
    var j := Join(parts, sep);
    if k == 0 {
      assert j[..|parts[0]|] == parts[0];
      assert OccursAt(j, parts[0], 0);
    } else {
      JoinContainsParts(parts[1..], sep, k - 1);
      assert j == (parts[0] + sep) + Join(parts[1..], sep);
      ContainsInSuffix(parts[0] + sep, Join(parts[1..], sep), parts[k]);
    }
  }

  /** Every part occurs in the joined text, and a join of non-empty parts is not empty. */
  lemma JoinContainsAll(parts: seq<string>, sep: string)
    ensures forall k :: 0 <= k < |parts| ==> Contains(Join(parts, sep), parts[k])
    ensures parts != [] && parts[0] != "" ==> Join(parts, sep) != ""
  {
    forall k | 0 <= k < |parts| ensures Contains(Join(parts, sep), parts[k]) {
      JoinContainsParts(parts, sep, k);
    }
  }

  // ------------------------------------------------------------------ tables

  /**
   * The identifier the database assigns to a new row: larger than every
   * identifier already in the table.
   */
  function NextId<T>(rows: seq<T>, id: T -> nat): (r: nat)
    ensures forall i :: 0 <= i < |rows| ==> id(rows[i]) < r
  {
    if rows == [] then 1 else Max(NextId(rows[1..], id), id(rows[0]) + 1)
  }

  /**
   * Position of the first row whose key is `k`: where the row that
   * `query.filter(key == k).first()` returns sits in its table.
   */
  function IndexBy<T, K(==)>(rows: seq<T>, key: T -> K, k: K): (r: Option<nat>)
    ensures r.Some? ==> r.value < |rows| && key(rows[r.value]) == k
                        && forall j :: 0 <= j < r.value ==> key(rows[j]) != k
    ensures r.None? <==> forall j :: 0 <= j < |rows| ==> key(rows[j]) != k
  {
    if rows == [] then None
    else if key(rows[0]) == k then Some(0)
    else
      var rest := IndexBy(rows[1..], key, k);
      assert forall j :: 1 <= j < |rows| ==> rows[j] == rows[1..][j - 1];
      match rest
      case None => None
      case Some(i) => Some(i + 1)
  }

  /** `query.filter(key == k).first()`: the first row whose key is `k`, if any. */
  function FindBy<T, K(==)>(rows: seq<T>, key: T -> K, k: K): (r: Option<T>)
    ensures r.Some? ==> r.value in rows && key(r.value) == k
    ensures r.None? <==> forall j :: 0 <= j < |rows| ==> key(rows[j]) != k
  {
    match IndexBy(rows, key, k)
    case None => None
    case Some(i) => Some(rows[i])
  }

  /** `query.offset(skip).limit(limit)`. */
  function Page<T>(s: seq<T>, skip: nat, limit: nat): (r: seq<T>)
    ensures |r| <= limit
    ensures skip <= |s| ==> |r| == Min(limit, |s| - skip)
    ensures forall i :: 0 <= i < |r| ==> skip + i < |s| && r[i] == s[skip + i]
  {
    var rest := if skip <= |s| then s[skip..] else [];
    if limit <= |rest| then rest[..limit] else rest
  }

  /** Two consecutive pages make up the page that spans both. */
  lemma {:induction false} PagesCompose<T>(s: seq<T>, skip: nat, a: nat, b: nat)
    ensures Page(s, skip, a) + Page(s, skip + a, b) == Page(s, skip, a + b)
  {
    if skip + a <= |s| {
      assert s[skip..][..a] == s[skip..skip + a];
      assert s[skip..][a..] == s[skip + a..];
      if a + b <= |s| - skip {
        assert s[skip..][..a + b] == s[skip..skip + a] + s[skip + a..][..b];
      } else {
        assert s[skip..] == s[skip..skip + a] + s[skip + a..];
      }
    }
  }
}

=== FILE: csv.dfy ===
/**
 * The CSV serialiser of the admin exports. A cell is the column's value
 * (after the column's format, when it has one) in double quotes with every
 * quote doubled; a missing value is an empty quoted cell. Turning a value
 * into text is the host's `String(v)`; the model receives the text.
 * A reader for the same dialect shows that nothing is lost.
 */
module Csv {
  import opened Common

  /** A field of an exported record: missing (null or undefined), or the text `String(v)` gives. */
  datatype Value = Missing | Present(text: string)

  datatype Column = Column(header: string, key: string, format: Option<Value -> Value>)

  type Record = map<string, Value>

  /** Every `"` doubled. */
  function Escape(s: string): (r: string)
    ensures '"' !in s ==> r == s
    ensures |r| >= |s|
  {
    if s == [] then [] else (if s[0] == '"' then "\"\"" else [s[0]]) + Escape(s[1..])
  }

  function Quote(s: string): string {
    "\"" + Escape(s) + "\""
  }

  /** The value a column takes from a record: the format applied when present; an absent key is missing. */
  function ValueOf(item: Record, col: Column): Value {
    var raw := if col.key in item then item[col.key] else Missing;
    match col.format
    case Some(f) => f(raw)
    case None => raw
  }

  /** The text a reader recovers from a cell. */
  function TextOf(v: Value): string {
    match v
    case Missing => ""
    case Present(t) => t
  }

  function Cell(v: Value): (r: string)
    ensures v.Missing? ==> r == "\"\""
  {
    match v
    case Missing => "\"\""
    case Present(t) => Quote(t)
  }

  function Cells(item: Record, columns: seq<Column>): (r: seq<string>)
    ensures |r| == |columns|
    ensures forall k :: 0 <= k < |columns| ==> r[k] == Cell(ValueOf(item, columns[k]))
  {
    if columns == [] then []
    else
      var rest := Cells(item, columns[1..]);
      assert forall k :: 1 <= k < |columns| ==> columns[k] == columns[1..][k - 1];
      [Cell(ValueOf(item, columns[0]))] + rest
  }

  function HeaderCells(columns: seq<Column>): (r: seq<string>)
    ensures |r| == |columns|
    ensures forall k :: 0 <= k < |columns| ==> r[k] == "\"" + columns[k].header + "\""
  {
    if columns == [] then [] else ["\"" + columns[0].header + "\""] + HeaderCells(columns[1..])
  }

  function Lines(data: seq<Record>, columns: seq<Column>): (r: seq<string>)
    ensures |r| == |data|
    ensures forall i :: 0 <= i < |data| ==> r[i] == Join(Cells(data[i], columns), ",")
  {
    if data == [] then [] else [Join(Cells(data[0], columns), ",")] + Lines(data[1..], columns)
  }

  /** `convertToCSV`: "" without data; otherwise the header line and one line per record, joined by newlines. */
  function ConvertToCsv(data: seq<Record>, columns: seq<Column>): (r: string)
    ensures data == [] <==> r == ""
  {
    if data == [] then ""
    else
      var headers := Join(HeaderCells(columns), ",");
      JoinNonEmpty([headers] + Lines(data, columns), "\n");
      Join([headers] + Lines(data, columns), "\n")
  }

  lemma JoinNonEmpty(parts: seq<string>, sep: string)
    requires |parts| >= 2 && sep != ""
    ensures Join(parts, sep) != ""
  {
    assert Join(parts, sep) == parts[0] + sep + Join(parts[1..], sep);
  }

  // ------------------------------------------------------------------ reader

  /** Reads a quoted field whose opening quote is already consumed: its text and what follows the closing quote. */
  function ReadQuoted(s: string): (r: Option<(string, string)>)
    ensures r.Some? ==> |r.value.1| < |s|
    decreases |s|
  {
    if s == [] then None
    else if s[0] == '"' then
      if |s| >= 2 && s[1] == '"' then
        match ReadQuoted(s[2..])
        case None => None
        case Some(p) => Some(("\"" + p.0, p.1))
      else Some(("", s[1..]))
    else
      match ReadQuoted(s[1..])
      case None => None
      case Some(p) => Some(([s[0]] + p.0, p.1))
  }

  /** Reads quoted fields separated by commas, up to the end of the line. */
  function ReadFields(s: string): (r: Option<(seq<string>, string)>)
    ensures r.Some? ==> |r.value.1| < |s|
    decreases |s|
  {
    if s == [] || s[0] != '"' then None
    else
      match ReadQuoted(s[1..])
      case None => None
      case Some(p) =>
        if p.1 != [] && p.1[0] == ',' then
          match ReadFields(p.1[1..])
          case None => None
          case Some(q) => Some(([p.0] + q.0, q.1))
        else Some(([p.0], p.1))
  }

  /** Reads newline-separated lines of fields to the end of the text. */
  function ReadTable(s: string): (r: Option<seq<seq<string>>>)
    decreases |s|
  {
    match ReadFields(s)
    case None => None
    case Some(p) =>
      if p.1 == [] then Some([p.0])
      else if p.1[0] == '\n' then
        match ReadTable(p.1[1..])
        case None => None
        case Some(t) => Some([p.0] + t)
      else None
  }

  /** Un-doubling: the text of an escaped field comes back, and reading stops right after its closing quote. */
  lemma {:induction false} ReadEscaped(v: string, rest: string)
    requires rest == [] || rest[0] != '"'
    ensures ReadQuoted(Escape(v) + "\"" + rest) == Some((v, rest))
  {
    var closing := "\"" + rest;
    assert Escape(v) + "\"" + rest == Escape(v) + closing;
    if v == [] {
      assert Escape(v) + closing == closing;
      ReadClosing(rest);
    } else {
      var tail := Escape(v[1..]) + closing;
      ReadEscaped(v[1..], rest);
      assert Escape(v[1..]) + "\"" + rest == tail;
      EscapeCons(v, closing);
      if v[0] == '"' {
        ReadDoubled(tail);
        assert "\"" + v[1..] == v;
      } else {
        ReadPlain(v[0], tail);
        assert [v[0]] + v[1..] == v;
      }
    }
  }

  /** Escaping works character by character. */
  lemma {:induction false} EscapeCons(v: string, suffix: string)
    requires v != []
    ensures Escape(v) + suffix == (if v[0] == '"' then "\"\"" else [v[0]]) + (Escape(v[1..]) + suffix)
  {
  }

  /** A lone quote closes the field. */
  lemma {:induction false} ReadClosing(rest: string)
    requires rest == [] || rest[0] != '"'
    ensures ReadQuoted("\"" + rest) == Some(("", rest))
  {
    assert ("\"" + rest)[1..] == rest;
    assert |"\"" + rest| >= 2 ==> ("\"" + rest)[1] == rest[0];
  }

  /** A doubled quote reads as one quote character. */
  lemma {:induction false} ReadDoubled(tail: string)
    requires ReadQuoted(tail).Some?
    ensures ReadQuoted("\"\"" + tail) == Some(("\"" + ReadQuoted(tail).value.0, ReadQuoted(tail).value.1))
  {
    assert ("\"\"" + tail)[2..] == tail;
  }

  /** Any other character reads as itself. */
  lemma {:induction false} ReadPlain(c: char, tail: string)
    requires c != '"' && ReadQuoted(tail).Some?
    ensures ReadQuoted([c] + tail) == Some(([c] + ReadQuoted(tail).value.0, ReadQuoted(tail).value.1))
  {
    assert ([c] + tail)[1..] == tail;
  }

  /** Stripping the outer quotes of a cell and un-doubling gives back the value's text. */
  lemma CellRoundTrip(v: Value, rest: string)
    requires rest == [] || rest[0] != '"'
    ensures Cell(v) + rest != [] && (Cell(v) + rest)[0] == '"'
    ensures ReadQuoted((Cell(v) + rest)[1..]) == Some((TextOf(v), rest))
  {
    match v
    case Missing =>
      assert (Cell(v) + rest)[1..] == Escape("") + "\"" + rest;
      ReadEscaped("", rest);
    case Present(t) =>
      assert (Cell(v) + rest)[1..] == Escape(t) + "\"" + rest;
      ReadEscaped(t, rest);
  }

  function Texts(vs: seq<Value>): (r: seq<string>)
    ensures |r| == |vs|
    ensures forall k :: 0 <= k < |vs| ==> r[k] == TextOf(vs[k])
  {
    if vs == [] then [] else [TextOf(vs[0])] + Texts(vs[1..])
  }

  function CellsOf(vs: seq<Value>): (r: seq<string>)
    ensures |r| == |vs|
    ensures forall k :: 0 <= k < |vs| ==> r[k] == Cell(vs[k])
  {
    if vs == [] then [] else [Cell(vs[0])] + CellsOf(vs[1..])
  }

  /** A line of cells reads back as the values' texts, stopping at the line's end. */
  lemma {:induction false} ReadLine(vs: seq<Value>, rest: string)
    requires vs != []
    requires rest == [] || rest[0] == '\n'
    ensures ReadFields(Join(CellsOf(vs), ",") + rest) == Some((Texts(vs), rest))
  {
    var cell := Cell(vs[0]);
    if |vs| == 1 {
      assert Join(CellsOf(vs), ",") == cell;
      CellRoundTrip(vs[0], rest);
      ReadLastField(cell, TextOf(vs[0]), rest);
      assert Texts(vs) == [TextOf(vs[0])];
    } else {
      var tail := Join(CellsOf(vs[1..]), ",") + rest;
      JoinCells(vs, rest);
      CellRoundTrip(vs[0], "," + tail);
      ReadLine(vs[1..], rest);
      ReadNextField(cell, TextOf(vs[0]), tail, Texts(vs[1..]), rest);
      assert Texts(vs) == [TextOf(vs[0])] + Texts(vs[1..]);
    }
  }

  /** The joined cells of a line are its first cell, a comma and the joined rest. */
  lemma {:induction false} JoinCells(vs: seq<Value>, rest: string)
    requires |vs| >= 2
    ensures Join(CellsOf(vs), ",") + rest == Cell(vs[0]) + ("," + (Join(CellsOf(vs[1..]), ",") + rest))
  {
    var cs := CellsOf(vs);
    assert cs == [Cell(vs[0])] + CellsOf(vs[1..]);
    assert cs[1..] == CellsOf(vs[1..]);
    var j := Join(CellsOf(vs[1..]), ",");
    assert Join(cs, ",") == Cell(vs[0]) + "," + j;
    Regroup(Cell(vs[0]), ",", j, rest);
  }

  lemma {:induction false} Regroup(a: string, b: string, c: string, d: string)
    ensures a + b + c + d == a + (b + (c + d))
  {
    assert a + b + c + d == a + (b + c) + d;
  }

  /** A quoted field followed by the end of the line is the line's last field. */
  lemma {:induction false} ReadLastField(cell: string, text: string, rest: string)
    requires cell + rest != [] && (cell + rest)[0] == '"'
    requires ReadQuoted((cell + rest)[1..]) == Some((text, rest))
    requires rest == [] || rest[0] == '\n'
    ensures ReadFields(cell + rest) == Some(([text], rest))
  {
  }

  /** A quoted field followed by a comma is followed by the fields after the comma. */
  lemma {:induction false} ReadNextField(cell: string, text: string, tail: string, texts: seq<string>, rest: string)
    requires cell + ("," + tail) != [] && (cell + ("," + tail))[0] == '"'
    requires ReadQuoted((cell + ("," + tail))[1..]) == Some((text, "," + tail))
    requires ReadFields(tail) == Some((texts, rest))
    ensures ReadFields(cell + ("," + tail)) == Some(([text] + texts, rest))
  {
    assert ("," + tail)[1..] == tail;
  }

  /** The values of one record under the columns. */
  function RowValues(item: Record, columns: seq<Column>): (r: seq<Value>)
    ensures |r| == |columns|
    ensures forall k :: 0 <= k < |columns| ==> r[k] == ValueOf(item, columns[k])
    ensures CellsOf(r) == Cells(item, columns)
  {
    if columns == [] then [] else [ValueOf(item, columns[0])] + RowValues(item, columns[1..])
  }

  function HeaderValues(columns: seq<Column>): (r: seq<Value>)
    ensures |r| == |columns|
    ensures forall k :: 0 <= k < |columns| ==> r[k] == Present(columns[k].header)
  {
    if columns == [] then [] else [Present(columns[0].header)] + HeaderValues(columns[1..])
  }

  /** The texts a reader finds in the data lines. */
  function DataTexts(data: seq<Record>, columns: seq<Column>): (r: seq<seq<string>>)
    ensures |r| == |data|
    ensures forall i :: 0 <= i < |data| ==> r[i] == Texts(RowValues(data[i], columns))
  {
    if data == [] then [] else [Texts(RowValues(data[0], columns))] + DataTexts(data[1..], columns)
  }

  lemma {:induction false} ReadLines(data: seq<Record>, columns: seq<Column>)
    requires data != [] && columns != []
    ensures ReadTable(Join(Lines(data, columns), "\n")) == Some(DataTexts(data, columns))
  {
    var first := Join(Cells(data[0], columns), ",");
    assert Cells(data[0], columns) == CellsOf(RowValues(data[0], columns));
    if |data| == 1 {
      assert Join(Lines(data, columns), "\n") == first;
      ReadLine(RowValues(data[0], columns), []);
      assert first + [] == first;
      assert ReadFields(first) == Some((Texts(RowValues(data[0], columns)), []));
      assert DataTexts(data, columns) == [Texts(RowValues(data[0], columns))];
    } else {
      var tail := Join(Lines(data[1..], columns), "\n");
      assert Lines(data, columns)[1..] == Lines(data[1..], columns);
      assert Join(Lines(data, columns), "\n") == first + ("\n" + tail);
      ReadLine(RowValues(data[0], columns), "\n" + tail);
      ReadLines(data[1..], columns);
      assert ("\n" + tail)[1..] == tail;
      assert DataTexts(data, columns) == [Texts(RowValues(data[0], columns))] + DataTexts(data[1..], columns);
    }
  }

  lemma HeadersAreCells(columns: seq<Column>)
    requires forall k :: 0 <= k < |columns| ==> '"' !in columns[k].header
    ensures HeaderCells(columns) == CellsOf(HeaderValues(columns))
  {
  }

  /**
   * Nothing is lost: when no header holds a quote, reading the export back
   * gives the headers, then for every record the text of each column's
   * (formatted) value, "" for a missing one.
   */
  lemma ExportReadsBack(data: seq<Record>, columns: seq<Column>)
    requires data != [] && columns != []
    requires forall k :: 0 <= k < |columns| ==> '"' !in columns[k].header
    ensures ReadTable(ConvertToCsv(data, columns)) ==
            Some([Texts(HeaderValues(columns))] + DataTexts(data, columns))
  {
    var headers := Join(HeaderCells(columns), ",");
    var lines := Lines(data, columns);
    var tail := Join(lines, "\n");
    assert ([headers] + lines)[1..] == lines;
    assert ConvertToCsv(data, columns) == headers + ("\n" + tail);
    HeadersAreCells(columns);
    ReadLine(HeaderValues(columns), "\n" + tail);
    ReadLines(data, columns);
    assert ("\n" + tail)[1..] == tail;
  }
}

=== FILE: currency.dfy ===
/**
 * Rupiah formatting and the storefront's discount arithmetic. The amount
 * to format is the already-rounded integer; rounding a fractional amount
 * is not modelled.
 */
module Currency {
  import opened Common
  import opened Decimal
  import Models
  import Payments

  /** Dots between groups of three digits, counted from the right. */
  function Group(d: string): (r: string)
    ensures |d| <= 3 ==> r == d
    decreases |d|
  {
    if |d| <= 3 then d else Group(d[..|d| - 3]) + "." + d[|d| - 3..]
  }

  /**
   * `formatIDR` of an integer amount: its decimal digits grouped by dots,
   * after the sign. The dots are all it adds to the plain decimal form, and
   * an amount that is not negative comes out in well-formed groups.
   */
  function FormatIDR(n: int): (r: string)
    ensures RemoveDots(r) == IntToString(n)
    ensures n >= 0 ==> WellGrouped(r)
  {
    if n < 0 then
      GroupUngroups(Digits(-n));
      RemoveDotsAppend("-", Group(Digits(-n)));
      RemoveDotsNone("-");
      "-" + Group(Digits(-n))
    else
      GroupUngroups(Digits(n));
      GroupIsWellGrouped(Digits(n));
      Group(Digits(n))
  }

  /** `formatRupiah`: the prefix, then the amount with its dots. */
  function FormatRupiah(n: int): (r: string)
    ensures |r| >= 3 && r[..3] == "Rp " && RemoveDots(r[3..]) == IntToString(n)
  {
    assert ("Rp " + FormatIDR(n))[3..] == FormatIDR(n);
    "Rp " + FormatIDR(n)
  }

  /** `formatCurrency`: the prefix, then the amount with its dots. */
  function FormatCurrency(n: int): (r: string)
    ensures |r| >= 4 && r[..4] == "IDR " && RemoveDots(r[4..]) == IntToString(n)
  {
    assert ("IDR " + FormatIDR(n))[4..] == FormatIDR(n);
    "IDR " + FormatIDR(n)
  }

  function RemoveDots(s: string): (r: string)
    ensures '.' !in r
  {
    if s == [] then [] else (if s[0] == '.' then [] else [s[0]]) + RemoveDots(s[1..])
  }

  lemma {:induction false} RemoveDotsAppend(a: string, b: string)
    ensures RemoveDots(a + b) == RemoveDots(a) + RemoveDots(b)
  {
    if a != [] {
      assert (a + b)[1..] == a[1..] + b;
      RemoveDotsAppend(a[1..], b);
    } else {
      assert a + b == b;
    }
  }

  lemma {:induction false} RemoveDotsNone(s: string)
    requires '.' !in s
    ensures RemoveDots(s) == s
  {
    if s != [] {
      RemoveDotsNone(s[1..]);
    }
  }

  lemma {:induction false} GroupUngroups(d: string)
    requires AllDigits(d)
    ensures RemoveDots(Group(d)) == d
    decreases |d|
  {
    if |d| <= 3 {
      DigitsHaveNoDot(d);
      RemoveDotsNone(d);
    } else {
      var hi, lo := d[..|d| - 3], d[|d| - 3..];
      DigitSlices(d, |d| - 3);
      GroupUngroups(hi);
      DigitsHaveNoDot(lo);
      UngroupStep(Group(hi), lo);
      assert hi + lo == d;
    }
  }

  /** Removing the dots of one more group. */
  lemma {:induction false} UngroupStep(g: string, lo: string)
    requires '.' !in lo
    ensures RemoveDots(g + "." + lo) == RemoveDots(g) + lo
  {
    RemoveDotsAppend(g + ".", lo);
    RemoveDotsAppend(g, ".");
    RemoveDotsDot();
    RemoveDotsNone(lo);
  }

  lemma RemoveDotsDot()
    ensures RemoveDots(".") == []
  {
    assert "."[1..] == [];
  }

  lemma {:induction false} DigitSlices(d: string, k: nat)
    requires AllDigits(d) && k <= |d|
    ensures AllDigits(d[..k]) && AllDigits(d[k..])
  {
    assert forall i :: 0 <= i < k ==> d[..k][i] == d[i];
    assert forall i :: 0 <= i < |d| - k ==> d[k..][i] == d[k + i];
  }

  lemma {:induction false} DigitsHaveNoDot(d: string)
    requires AllDigits(d)
    ensures '.' !in d
  {
    forall i | 0 <= i < |d| ensures d[i] != '.' {
      assert IsDigit(d[i]);
    }
  }

  /** Dropping the dots from a formatted amount gives its plain decimal form, so the amount reads back. */
  lemma FormatIDRReadsBack(n: int)
    ensures RemoveDots(FormatIDR(n)) == IntToString(n)
    ensures ParseInt(RemoveDots(FormatIDR(n))) == Some(n)
  {
    ParseIntToString(n);
  }

  /**
   * The shape of a grouped number: a first group of one to three digits,
   * then groups of exactly three, each after a dot.
   */
  ghost predicate WellGrouped(s: string)
    decreases |s|
  {
    || (1 <= |s| <= 3 && AllDigits(s))
    || (|s| > 4 && s[|s| - 4] == '.' && AllDigits(s[|s| - 3..]) && WellGrouped(s[..|s| - 4]))
  }

  lemma {:induction false} GroupIsWellGrouped(d: string)
    requires d != [] && AllDigits(d)
    ensures WellGrouped(Group(d))
    decreases |d|
  {
    if |d| > 3 {
      var hi := d[..|d| - 3];
      assert AllDigits(hi);
      GroupIsWellGrouped(hi);
      var g := Group(d);
      assert g == Group(hi) + "." + d[|d| - 3..];
      assert g[..|g| - 4] == Group(hi);
      assert g[|g| - 3..] == d[|d| - 3..];
    }
  }

  /** Every non-negative amount is formatted into well-formed groups; below 1000 there is no dot at all. */
  lemma FormatIDRShape(n: nat)
    ensures WellGrouped(FormatIDR(n))
    ensures n < 1000 ==> '.' !in FormatIDR(n)
  {
    DigitsBelowThousand(n);
    if n < 1000 {
      assert forall i :: 0 <= i < |Digits(n)| ==> IsDigit(Digits(n)[i]);
    }
  }

  lemma DigitsOfExample()
    ensures Digits(1500000) == "1500000"
  {
    assert DigitChar(0) == '0' && DigitChar(1) == '1' && DigitChar(5) == '5';
    assert Digits(1) == "1";
    assert Digits(15) == Digits(1) + "5";
    assert Digits(150) == Digits(15) + "0";
    assert Digits(1500) == Digits(150) + "0";
    assert Digits(15000) == Digits(1500) + "0";
    assert Digits(150000) == Digits(15000) + "0";
    assert Digits(1500000) == Digits(150000) + "0";
  }

  /** The documented example. */
  lemma FormatExample()
    ensures FormatIDR(1500000) == "1.500.000"
    ensures FormatRupiah(1500000) == "Rp 1.500.000" && FormatCurrency(1500000) == "IDR 1.500.000"
  {
    DigitsOfExample();
    GroupExample();
  }

  lemma GroupExample()
    ensures Group("1500000") == "1.500.000"
  {
    assert Group("1500") == "1.500" by {
      assert "1500"[..1] == "1" && "1500"[1..] == "500";
      assert Group("1500") == Group("1") + "." + "500";
    }
    assert "1500000"[..4] == "1500" && "1500000"[4..] == "000";
    assert Group("1500000") == Group("1500") + "." + "000";
  }

  /** The prefixed formats read back to the amount once the prefix is dropped. */
  lemma PrefixedReadBack(n: int)
    ensures FormatRupiah(n)[..3] == "Rp " && ParseInt(RemoveDots(FormatRupiah(n)[3..])) == Some(n)
    ensures FormatCurrency(n)[..4] == "IDR " && ParseInt(RemoveDots(FormatCurrency(n)[4..])) == Some(n)
  {
    assert FormatRupiah(n)[3..] == FormatIDR(n);
    assert FormatCurrency(n)[4..] == FormatIDR(n);
    FormatIDRReadsBack(n);
  }

  // ---------------------------------------------------------------- discounts

  /** A product's discount as the storefront receives it. */
  datatype Discount = Discount(enabled: bool, kind: string, value: real)

  /**
   * `calculateDiscountedPrice`: none without an enabled discount of a known
   * kind; a percentage takes `v` percent off, a fixed amount never goes below 0.
   */
  function CalculateDiscountedPrice(price: real, discount: Option<Discount>): (r: Option<real>)
    ensures r.None? <==> (discount.None? || !discount.value.enabled ||
                         (discount.value.kind != "percentage" && discount.value.kind != "fixed"))
    ensures r.Some? && discount.value.kind == "fixed" ==> r.value >= 0.0
    ensures r.Some? && discount.value.kind == "fixed" && discount.value.value >= 0.0 ==> r.value <= Max0(price)
    ensures r.Some? && discount.value.kind == "percentage" ==> r.value == price * (1.0 - discount.value.value / 100.0)
    ensures r.Some? && discount.value.kind == "fixed" ==> r.value == Max0(price - discount.value.value)
  {
    match discount
    case None => None
    case Some(d) =>
      if !d.enabled then None
      else if d.kind == "percentage" then Some(price - price * (d.value / 100.0))
      else if d.kind == "fixed" then Some(MaxReal(0.0, price - d.value))
      else None
  }

  function Max0(x: real): real {
    MaxReal(0.0, x)
  }

  /** `getFinalPrice`: the discounted price when there is one, else the list price. */
  function GetFinalPrice(price: real, discount: Option<Discount>): (r: real)
    ensures CalculateDiscountedPrice(price, discount).None? ==> r == price
    ensures CalculateDiscountedPrice(price, discount).Some? ==> r == CalculateDiscountedPrice(price, discount).value
    ensures discount.Some? && discount.value.enabled && discount.value.kind == "percentage" ==>
              r == price * (1.0 - discount.value.value / 100.0)
    ensures discount.Some? && discount.value.enabled && discount.value.kind == "fixed" ==>
              r == Max0(price - discount.value.value)
  {
    match CalculateDiscountedPrice(price, discount)
    case Some(p) => p
    case None => price
  }

  /** With a sensible discount a final price is never above the list price nor below zero. */
  lemma FinalPriceBounds(price: real, discount: Option<Discount>)
    requires price >= 0.0
    requires discount.Some? && discount.value.kind == "percentage" ==> 0.0 <= discount.value.value <= 100.0
    requires discount.Some? && discount.value.kind == "fixed" ==> discount.value.value >= 0.0
    ensures 0.0 <= GetFinalPrice(price, discount) <= price
  {
    if discount.Some? && discount.value.enabled && discount.value.kind == "percentage" {
      ShareOfPrice(price, 1.0 - discount.value.value / 100.0);
    }
  }

  /** A share between none and all of a non-negative price lies between zero and that price. */
  lemma ShareOfPrice(price: real, f: real)
    requires price >= 0.0 && 0.0 <= f <= 1.0
    ensures 0.0 <= price * f <= price
  {
    assert price * f <= price * 1.0 by {
      assert price * (1.0 - f) >= 0.0;
    }
  }

  /**
   * The storefront shows the same price the checkout charges: for a
   * non-negative list price and a discount that carries a value, the final
   * price here equals the checkout's discounted unit price.
   */
  lemma AgreesWithCheckout(p: Models.Product)
    requires p.price >= 0.0
    requires p.discount.kind.Some? && p.discount.value.Some?
    ensures GetFinalPrice(p.price, Some(Discount(p.discount.enabled, p.discount.kind.value, p.discount.value.value)))
            == Payments.DiscountedPrice(p)
  {
    var v := p.discount.value.value;
    if p.discount.enabled && p.discount.kind == Some("percentage") {
      assert p.price * (1.0 - v / 100.0) == p.price - p.price * (v / 100.0);
    }
  }
}

=== FILE: customers.dfy ===
/**
 * The address data the shop hands to the payment gateway's customer record:
 * the country-name-to-code table and the shipping fields with their
 * fallbacks. The gateway calls themselves are outside the model.
 */
module Customers {
  import opened Common

  const Names: seq<string> := ["Indonesia", "United States", "Canada", "United Kingdom", "Australia",
                               "Singapore", "Malaysia", "Thailand", "Philippines", "Vietnam"]
  const Codes: seq<string> := ["ID", "US", "CA", "GB", "AU", "SG", "MY", "TH", "PH", "VN"]
  const DefaultCode := "ID"

  /** `_get_country_code`: the listed code of a listed country name, "ID" for any other name. */
  function CountryCode(name: string): (r: string)
    ensures r in Codes
    ensures forall k :: 0 <= k < |Names| && Names[k] == name ==> r == Codes[k]
    ensures name !in Names ==> r == DefaultCode
  {
    if name == "Indonesia" then "ID"
    else if name == "United States" then "US"
    else if name == "Canada" then "CA"
    else if name == "United Kingdom" then "GB"
    else if name == "Australia" then "AU"
    else if name == "Singapore" then "SG"
    else if name == "Malaysia" then "MY"
    else if name == "Thailand" then "TH"
    else if name == "Philippines" then "PH"
    else if name == "Vietnam" then "VN"
    else DefaultCode
  }

  /** The country a code stands for, read back from the table. */
  function CountryName(code: string): (r: Option<string>)
    ensures r.Some? <==> code in Codes
    ensures r.Some? ==> r.value in Names
  {
    if code == "ID" then Some("Indonesia")
    else if code == "US" then Some("United States")
    else if code == "CA" then Some("Canada")
    else if code == "GB" then Some("United Kingdom")
    else if code == "AU" then Some("Australia")
    else if code == "SG" then Some("Singapore")
    else if code == "MY" then Some("Malaysia")
    else if code == "TH" then Some("Thailand")
    else if code == "PH" then Some("Philippines")
    else if code == "VN" then Some("Vietnam")
    else None
  }

  /** The table is one-to-one: a listed name survives the trip to its code and back, and so does every code. */
  lemma CountryRoundTrip(name: string, code: string)
    ensures name in Names ==> CountryName(CountryCode(name)) == Some(name)
    ensures code in Codes ==> CountryName(code).Some? && CountryCode(CountryName(code).value) == code
    ensures name !in Names ==> CountryName(CountryCode(name)) == Some("Indonesia")
  {
    TablePairs();
    if name in Names {
      var k :| 0 <= k < |Names| && Names[k] == name;
      assert CountryCode(name) == Codes[k];
    }
    if code in Codes {
      var k :| 0 <= k < |Codes| && Codes[k] == code;
      assert CountryName(code) == Some(Names[k]);
      assert CountryCode(Names[k]) == Codes[k];
    }
  }

  /** Each row of the table read in both directions. */
  lemma TablePairs()
    ensures forall k :: 0 <= k < |Codes| ==> CountryName(Codes[k]) == Some(Names[k])
  {
    assert |Codes| == 10;
    forall k | 0 <= k < |Codes| ensures CountryName(Codes[k]) == Some(Names[k]) {
      if k == 0 {} else if k == 1 {} else if k == 2 {} else if k == 3 {} else if k == 4 {}
      else if k == 5 {} else if k == 6 {} else if k == 7 {} else if k == 8 {} else {}
    }
  }

  /** The shipping fields sent with a customer record. */
  datatype Shipping = Shipping(name: string, line1: string, city: string, state: string, postalCode: string, country: string)

  /**
   * The shipping fields of `create_or_update_customer`: the recipient falls
   * back to the username when the full name is empty, a missing state
   * becomes "", and the country is sent as its code.
   */
  function ShippingOf(fullName: Option<string>, username: string, line1: string, city: string,
                      state: Option<string>, postalCode: string, country: string): (r: Shipping)
    ensures Truthy(fullName) ==> r.name == fullName.value
    ensures !Truthy(fullName) ==> r.name == username
    ensures Truthy(state) ==> r.state == state.value
    ensures !Truthy(state) ==> r.state == ""
    ensures r.country in Codes && r.country == CountryCode(country)
    ensures r.line1 == line1 && r.city == city && r.postalCode == postalCode
  {
    Shipping(if Truthy(fullName) then fullName.value else username, line1, city,
             if Truthy(state) then state.value else "", postalCode, CountryCode(country))
  }
}

=== FILE: decimal.dfy ===
/**
 * Decimal text of integers, as the frontend produces it with `Number.toString`
 * and reads it back with `parseInt`.
 */
module Decimal {
  import opened Common

  predicate IsDigit(c: char) {
    '0' <= c <= '9'
  }

  predicate AllDigits(s: string) {
    forall i :: 0 <= i < |s| ==> IsDigit(s[i])
  }

  function DigitChar(d: int): (c: char)
    requires 0 <= d < 10
    ensures IsDigit(c)
  {
    (d + '0' as int) as char
  }

  function DigitValue(c: char): (d: nat)
    requires IsDigit(c)
    ensures d < 10
  {
    c as int - '0' as int
  }

  /** The decimal digits of `n`, most significant first, without leading zeros. */
  function Digits(n: nat): (r: string)
    ensures 1 <= |r|
    ensures AllDigits(r)
    ensures |r| > 1 ==> r[0] != '0'
    ensures n < 10 <==> |r| == 1
  {
    if n < 10 then [DigitChar(n)] else Digits(n / 10) + [DigitChar(n % 10)]
  }

  /** Numbers below 1000 have at most three digits, and only they do. */
  lemma DigitsBelowThousand(n: nat)
    ensures n < 1000 <==> |Digits(n)| <= 3
  {
    if n >= 10 {
      assert |Digits(n)| == |Digits(n / 10)| + 1;
      if n / 10 >= 10 {
        assert |Digits(n / 10)| == |Digits(n / 100)| + 1;
      }
    }
  }

  /** The number a string of digits denotes. */
  function ValueOf(s: string): nat
    requires AllDigits(s)
  {
    if s == [] then 0 else ValueOf(s[..|s| - 1]) * 10 + DigitValue(s[|s| - 1])
  }

  /** Reading the digits of `n` gives back `n`. */
  lemma {:induction false} ValueOfDigits(n: nat)
    ensures ValueOf(Digits(n)) == n
  {
    if n >= 10 {
      var d := Digits(n);
      assert d[..|d| - 1] == Digits(n / 10);
      ValueOfDigits(n / 10);
    }
  }

  /** `String(n)` for an integer-valued number. */
  function IntToString(n: int): (r: string)
    ensures n >= 0 ==> r == Digits(n)
    ensures n < 0 ==> r == "-" + Digits(-n)
  {
    if n < 0 then "-" + Digits(-n) else Digits(n)
  }

  /** The longest prefix of `s` made of digits. */
  function DigitPrefix(s: string): (r: string)
    ensures AllDigits(r)
    ensures r <= s
    ensures |r| < |s| ==> !IsDigit(s[|r|])
  {
    if s == [] || !IsDigit(s[0]) then [] else [s[0]] + DigitPrefix(s[1..])
  }

  function SkipWhitespace(s: string): (r: string)
    ensures r == [] || !IsWhitespace(r[0])
    ensures |r| <= |s| && r == s[|s| - |r|..]
    ensures forall i :: 0 <= i < |s| - |r| ==> IsWhitespace(s[i])
  {
    if s != [] && IsWhitespace(s[0]) then SkipWhitespace(s[1..]) else s
  }

  predicate IsHexDigit(c: char) {
    IsDigit(c) || 'a' <= c <= 'f' || 'A' <= c <= 'F'
  }

  predicate AllHexDigits(s: string) {
    forall i :: 0 <= i < |s| ==> IsHexDigit(s[i])
  }

  function HexDigitValue(c: char): (d: nat)
    requires IsHexDigit(c)
    ensures d < 16
    ensures IsDigit(c) ==> d == DigitValue(c)
  {
    if IsDigit(c) then DigitValue(c)
    else if 'a' <= c <= 'f' then c as int - 'a' as int + 10
    else c as int - 'A' as int + 10
  }

  /** The number a string of hexadecimal digits denotes. */
  function HexValueOf(s: string): nat
    requires AllHexDigits(s)
  {
    if s == [] then 0 else HexValueOf(s[..|s| - 1]) * 16 + HexDigitValue(s[|s| - 1])
  }

  /** The longest prefix of `s` made of hexadecimal digits. */
  function HexPrefix(s: string): (r: string)
    ensures AllHexDigits(r)
    ensures r <= s
    ensures |r| < |s| ==> !IsHexDigit(s[|r|])
  {
    if s == [] || !IsHexDigit(s[0]) then [] else [s[0]] + HexPrefix(s[1..])
  }

  /** Without a radix, `parseInt` reads text that starts with "0x" or "0X" in base 16. */
  predicate HexMarked(u: string) {
    |u| >= 2 && u[0] == '0' && (u[1] == 'x' || u[1] == 'X')
  }

  /**
   * `parseInt(s)` without a radix: leading white space is skipped and an
   * optional sign is read; a "0x" or "0X" prefix then selects base 16 and is
   * dropped, otherwise the base is 10; then the longest run of digits of
   * that base is read. `None` stands for NaN, which is what JavaScript
   * returns when no digit follows.
   */
  function ParseInt(s: string): (r: Option<int>)
    ensures !HexMarked(Unsigned(SkipWhitespace(s))) ==>
              (r.None? <==> DigitPrefix(Unsigned(SkipWhitespace(s))) == [])
    ensures HexMarked(Unsigned(SkipWhitespace(s))) ==>
              (r.None? <==> HexPrefix(Unsigned(SkipWhitespace(s))[2..]) == [])
    ensures r.Some? && SkipWhitespace(s) != [] && SkipWhitespace(s)[0] == '-' ==> r.value <= 0
    ensures r.Some? && !(SkipWhitespace(s) != [] && SkipWhitespace(s)[0] == '-') ==> r.value >= 0
    ensures r.Some? && !HexMarked(Unsigned(SkipWhitespace(s))) ==>
              r.value == Signed(SkipWhitespace(s), ValueOf(DigitPrefix(Unsigned(SkipWhitespace(s)))))
    ensures r.Some? && HexMarked(Unsigned(SkipWhitespace(s))) ==>
              r.value == Signed(SkipWhitespace(s), HexValueOf(HexPrefix(Unsigned(SkipWhitespace(s))[2..])))
  {
    var t := SkipWhitespace(s);
    match ReadMagnitude(Unsigned(t))
    case None => None
    case Some(v) => if t != [] && t[0] == '-' then Some(0 - v) else Some(v as int)
  }

  /** The digits after the sign: hexadecimal behind a "0x" or "0X" prefix, decimal otherwise; `None` when there are none. */
  function ReadMagnitude(u: string): (r: Option<nat>)
    ensures !HexMarked(u) ==> (r.None? <==> DigitPrefix(u) == [])
    ensures !HexMarked(u) && r.Some? ==> r.value == ValueOf(DigitPrefix(u))
    ensures HexMarked(u) ==> (r.None? <==> HexPrefix(u[2..]) == [])
    ensures HexMarked(u) && r.Some? ==> r.value == HexValueOf(HexPrefix(u[2..]))
  {
    var ds := if HexMarked(u) then HexPrefix(u[2..]) else DigitPrefix(u);
    if ds == [] then None
    else if HexMarked(u) then Some(HexValueOf(ds))
    else Some(ValueOf(ds))
  }

  /** A bare "0x" is NaN: the prefix selects base 16 and no hexadecimal digit follows. */
  lemma BareHexPrefixIsNaN()
    ensures ParseInt("0x") == None
  {
    var u := "0x";
    assert !IsWhitespace(u[0]) && u[0] != '-' && u[0] != '+';
    assert SkipWhitespace(u) == u && Unsigned(u) == u;
    assert HexMarked(u) && u[2..] == [];
    assert ReadMagnitude(u) == None;
  }

  /** "0x1f" reads as 31, not as the 0 a base-10 reading would give. */
  lemma HexPrefixExample()
    ensures ParseInt("0x1f") == Some(31)
  {
    var h := "0x1f";
    assert SkipWhitespace(h) == h && Unsigned(h) == h && h[2..] == "1f";
    assert HexPrefix("1f") == "1f" by {
      assert "1f"[1..] == "f" && "f"[1..] == [];
      assert HexPrefix("f") == "f";
    }
    assert HexValueOf("1f") == 31 by {
      assert "1f"[..1] == "1" && "1"[..0] == [];
    }
  }

  /** A magnitude with the sign `t` starts with: negated after a '-', as it is otherwise. */
  function Signed(t: string, m: nat): int {
    if t != [] && t[0] == '-' then 0 - m else m
  }

  /** The text after an optional leading sign. */
  function Unsigned(t: string): string {
    if t != [] && (t[0] == '-' || t[0] == '+') then t[1..] else t
  }

  lemma DigitPrefixOfDigits(s: string)
    requires AllDigits(s)
    ensures DigitPrefix(s) == s
  {
  }

  lemma DigitsNotHexMarked(d: string)
    requires AllDigits(d)
    ensures !HexMarked(d)
  {
    if |d| >= 2 {
      assert IsDigit(d[1]);
    }
  }

  /** A run of digits, with or without a leading minus sign, parses to its value. */
  lemma ParseIntOfDigits(d: string)
    requires d != [] && AllDigits(d)
    ensures ParseInt(d) == Some(ValueOf(d))
    ensures ParseInt("-" + d) == Some(0 - ValueOf(d) as int)
  {
    DigitPrefixOfDigits(d);
    DigitsNotHexMarked(d);
    assert !IsWhitespace(d[0]);
    assert SkipWhitespace(d) == d;
    assert Unsigned(d) == d;
    var s := "-" + d;
    assert s[0] == '-' && s[1..] == d;
    assert SkipWhitespace(s) == s;
    assert Unsigned(s) == d;
  }

  /** What `String` writes for an integer, `parseInt` reads back unchanged. */
  lemma {:induction false} ParseIntToString(n: int)
    ensures ParseInt(IntToString(n)) == Some(n)
  {
    var m: nat := if n < 0 then -n else n;
    ValueOfDigits(m);
    ParseIntOfDigits(Digits(m));
  }
}

=== FILE: ledger.dfy ===
/**
 * The order ledger: the products, orders and order-item tables that checkout
 * reconciliation writes, and the loop both reconciliation paths run over a
 * cart snapshot (add an order item per line whose product still exists and
 * clamp that product's stock at zero).
 */
module Ledger {
  import opened Common
  import opened Models

  datatype Ledger = Ledger(products: seq<Product>, orders: seq<Order>, items: seq<OrderItem>)

  /** One entry of the cart snapshot a checkout session carries in its metadata. */
  datatype SnapshotItem = SnapshotItem(
    productId: nat,
    quantity: int,
    price: real,
    size: Option<string>,
    color: Option<string>)

  predicate HasProduct(products: seq<Product>, id: nat) {
    exists i | 0 <= i < |products| :: products[i].id == id
  }

  /** Some line of the snapshot names product `id`. */
  predicate Mentions(cart: seq<SnapshotItem>, id: nat) {
    exists k | 0 <= k < |cart| :: cart[k].productId == id
  }

  // ------------------------------------------------------------------ stock

  /** The stock of product `id` after one snapshot line: `max(0, stock - quantity)` if the line names it. */
  function LineStock(stock: int, id: nat, line: SnapshotItem): int {
    if line.productId == id then Max(0, stock - line.quantity) else stock
  }

  /** The stock of product `id` after the lines of the snapshot, one after the other. */
  function StockAfter(stock: int, id: nat, cart: seq<SnapshotItem>): int
    decreases |cart|
  {
    if cart == [] then stock else StockAfter(LineStock(stock, id, cart[0]), id, cart[1..])
  }

  /** Total quantity the snapshot orders of product `id`. */
  function QuantityOf(cart: seq<SnapshotItem>, id: nat): int {
    if cart == [] then 0
    else (if cart[0].productId == id then cart[0].quantity else 0) + QuantityOf(cart[1..], id)
  }

  lemma {:induction false} MentionsCons(cart: seq<SnapshotItem>)
    requires cart != []
    ensures forall id :: Mentions(cart, id) <==> cart[0].productId == id || Mentions(cart[1..], id)
  {
    forall id ensures Mentions(cart, id) <==> cart[0].productId == id || Mentions(cart[1..], id) {
      if Mentions(cart, id) {
        var k :| 0 <= k < |cart| && cart[k].productId == id;
        if k > 0 { assert cart[1..][k - 1].productId == id; }
      }
      if Mentions(cart[1..], id) {
        var k :| 0 <= k < |cart[1..]| && cart[1..][k].productId == id;
        assert cart[k + 1].productId == id;
      }
    }
  }

  /** A product the snapshot does not name keeps its stock. */
  lemma {:induction false} StockUnmentioned(stock: int, id: nat, cart: seq<SnapshotItem>)
    requires !Mentions(cart, id)
    ensures StockAfter(stock, id, cart) == stock
    ensures QuantityOf(cart, id) == 0
    decreases |cart|
  {
    if cart != [] {
      MentionsCons(cart);
      StockUnmentioned(stock, id, cart[1..]);
    }
  }

  /**
   * A product the snapshot names never ends below zero; when no quantity is
   * negative, clamping after every line equals clamping once after the whole
   * cart: the stock ends as `max(0, stock - total quantity ordered)`.
   */
  lemma {:induction false} StockMentioned(stock: int, id: nat, cart: seq<SnapshotItem>)
    requires Mentions(cart, id)
    ensures StockAfter(stock, id, cart) >= 0
    ensures (forall k :: 0 <= k < |cart| ==> cart[k].quantity >= 0) ==>
              StockAfter(stock, id, cart) == Max(0, stock - QuantityOf(cart, id))
    decreases |cart|
  {
    MentionsCons(cart);
    var c := cart[0];
    var next := LineStock(stock, id, c);
    if c.productId == id {
      if Mentions(cart[1..], id) {
        StockMentioned(next, id, cart[1..]);
        if forall k :: 0 <= k < |cart| ==> cart[k].quantity >= 0 {
          QuantityNonNegative(cart[1..], id);
        }
      } else {
        StockUnmentioned(next, id, cart[1..]);
      }
    } else {
      StockMentioned(next, id, cart[1..]);
    }
  }

  lemma {:induction false} QuantityNonNegative(cart: seq<SnapshotItem>, id: nat)
    requires forall k :: 0 <= k < |cart| ==> cart[k].quantity >= 0
    ensures QuantityOf(cart, id) >= 0
  {
    if cart != [] {
      QuantityNonNegative(cart[1..], id);
    }
  }

  /** `after` is the catalogue `before` with each product's stock run through the snapshot, and nothing else changed. */
  predicate StockOnly(before: seq<Product>, after: seq<Product>, cart: seq<SnapshotItem>) {
    && |after| == |before|
    && forall i :: 0 <= i < |after| ==>
         after[i] == before[i].(stock := StockAfter(before[i].stock, before[i].id, cart))
  }

  // ------------------------------------------------------------------ items

  /** The snapshot lines whose product is in the catalogue, in cart order. */
  function LinesInCatalogue(products: seq<Product>, cart: seq<SnapshotItem>): (r: seq<SnapshotItem>)
    ensures |r| <= |cart|
    ensures forall k :: 0 <= k < |r| ==> r[k] in cart && HasProduct(products, r[k].productId)
    ensures forall k :: 0 <= k < |cart| && HasProduct(products, cart[k].productId) ==> cart[k] in r
    decreases |cart|
  {
    if cart == [] then []
    else if HasProduct(products, cart[0].productId) then [cart[0]] + LinesInCatalogue(products, cart[1..])
    else LinesInCatalogue(products, cart[1..])
  }

  /** A snapshot none of whose products is in the catalogue keeps no line. */
  lemma {:induction false} NoLinesInCatalogue(products: seq<Product>, cart: seq<SnapshotItem>)
    requires forall k :: 0 <= k < |cart| ==> !HasProduct(products, cart[k].productId)
    ensures LinesInCatalogue(products, cart) == []
    decreases |cart|
  {
    if cart != [] {
      assert !HasProduct(products, cart[0].productId);
      NoLinesInCatalogue(products, cart[1..]);
    }
  }

  /** Two catalogues with the same identifiers keep the same snapshot lines. */
  lemma {:induction false} CatalogueLinesSameIds(a: seq<Product>, b: seq<Product>, cart: seq<SnapshotItem>)
    requires forall id :: HasProduct(a, id) == HasProduct(b, id)
    ensures LinesInCatalogue(a, cart) == LinesInCatalogue(b, cart)
    decreases |cart|
  {
    if cart != [] {
      CatalogueLinesSameIds(a, b, cart[1..]);
    }
  }

  /** The order item recorded for a snapshot line: its quantity and snapshot price. */
  function ItemFor(id: nat, orderId: nat, line: SnapshotItem): OrderItem {
    OrderItem(id, orderId, line.productId, line.quantity, line.price)
  }

  /** A ledger item records snapshot line `line` for order `orderId`. */
  predicate Records(item: OrderItem, orderId: nat, line: SnapshotItem) {
    item.orderId == orderId && item.productId == line.productId
    && item.quantity == line.quantity && item.price == line.price
  }

  /** `after` is `before` followed by one item per line of `added`, in order, each recording that line for `orderId`. */
  predicate ItemsAppended(before: seq<OrderItem>, after: seq<OrderItem>, orderId: nat, added: seq<SnapshotItem>) {
    && |after| == |before| + |added|
    && after[..|before|] == before
    && (forall k :: 0 <= k < |added| ==> Records(after[|before| + k], orderId, added[k]))
  }

  // ------------------------------------------------------------------- loop

  /** `product.stock = max(0, product.stock - quantity)` on the product the line names. */
  function Decrement(products: seq<Product>, line: SnapshotItem): (r: seq<Product>)
    ensures |r| == |products|
    ensures forall i :: 0 <= i < |r| ==>
              r[i] == products[i].(stock := LineStock(products[i].stock, products[i].id, line))
  {
    if products == [] then []
    else
      var p := products[0];
      [p.(stock := LineStock(p.stock, p.id, line))] + Decrement(products[1..], line)
  }

  /**
   * One pass of the loop over a snapshot line: when the product exists, an
   * order item is added and the product's stock becomes `max(0, stock - quantity)`.
   */
  function Step(l: Ledger, orderId: nat, c: SnapshotItem): (r: Ledger)
    ensures r.orders == l.orders
    ensures StockOnly(l.products, r.products, [c])
    ensures forall id :: HasProduct(r.products, id) == HasProduct(l.products, id)
    ensures ItemsAppended(l.items, r.items, orderId, if HasProduct(l.products, c.productId) then [c] else [])
  {
    var r :=
      if HasProduct(l.products, c.productId) then
        Ledger(Decrement(l.products, c), l.orders,
               l.items + [ItemFor(NextId(l.items, (it: OrderItem) => it.id), orderId, c)])
      else l;
    assert forall i :: 0 <= i < |l.products| ==>
      StockAfter(l.products[i].stock, l.products[i].id, [c]) == LineStock(l.products[i].stock, l.products[i].id, c);
    assert !HasProduct(l.products, c.productId) ==>
      forall i :: 0 <= i < |l.products| ==> LineStock(l.products[i].stock, l.products[i].id, c) == l.products[i].stock;
    assert forall id :: HasProduct(r.products, id) == HasProduct(l.products, id) by {
      forall id ensures HasProduct(r.products, id) == HasProduct(l.products, id) {
        if HasProduct(l.products, id) {
          var i :| 0 <= i < |l.products| && l.products[i].id == id;
          assert r.products[i].id == id;
        }
        if HasProduct(r.products, id) {
          var i :| 0 <= i < |r.products| && r.products[i].id == id;
          assert l.products[i].id == id;
        }
      }
    }
    r
  }

  /**
   * The loop over the cart snapshot: for each line whose product exists, add
   * an order item with the snapshot's quantity and price to order `orderId`
   * and set the product's stock to `max(0, stock - quantity)`; lines whose
   * product no longer exists are skipped. Orders are not touched.
   */
  function ApplyCart(l: Ledger, orderId: nat, cart: seq<SnapshotItem>): (r: Ledger)
    ensures r.orders == l.orders
    ensures StockOnly(l.products, r.products, cart)
    ensures ItemsAppended(l.items, r.items, orderId, LinesInCatalogue(l.products, cart))
    decreases |cart|
  {
    if cart == [] then l
    else
      var next := Step(l, orderId, cart[0]);
      CatalogueLinesSameIds(l.products, next.products, cart[1..]);
      var r := ApplyCart(next, orderId, cart[1..]);
      StepThenRestProducts(l.products, next.products, r.products, cart);
      StepThenRestItems(l, next, r, orderId, cart);
      r
  }

  /** The stock effects of one line followed by those of the rest of the cart are those of the whole cart. */
  lemma {:induction false} StepThenRestProducts(before: seq<Product>, mid: seq<Product>, after: seq<Product>, cart: seq<SnapshotItem>)
    requires cart != []
    requires StockOnly(before, mid, [cart[0]])
    requires StockOnly(mid, after, cart[1..])
    ensures StockOnly(before, after, cart)
  {
    forall i | 0 <= i < |after|
      ensures after[i] == before[i].(stock := StockAfter(before[i].stock, before[i].id, cart))
    {
      assert mid[i].id == before[i].id;
      assert StockAfter(before[i].stock, before[i].id, [cart[0]]) == LineStock(before[i].stock, before[i].id, cart[0]);
    }
  }

  /** Appending the items for `first` and then those for `rest` appends the items for `first + rest`. */
  lemma {:induction false} ItemsAppendedCompose(before: seq<OrderItem>, mid: seq<OrderItem>, after: seq<OrderItem>, orderId: nat,
                             first: seq<SnapshotItem>, rest: seq<SnapshotItem>)
    requires ItemsAppended(before, mid, orderId, first)
    requires ItemsAppended(mid, after, orderId, rest)
    ensures ItemsAppended(before, after, orderId, first + rest)
  {
    assert after[..|before|] == mid[..|before|];
    forall k | 0 <= k < |first + rest| ensures Records(after[|before| + k], orderId, (first + rest)[k]) {
      if k < |first| {
        assert after[|before| + k] == mid[|before| + k];
      } else {
        assert (first + rest)[k] == rest[k - |first|];
        assert after[|before| + k] == after[|mid| + (k - |first|)];
      }
    }
  }

  /** The items of one step followed by those of the rest of the cart are those of the whole cart. */
  lemma {:induction false} StepThenRestItems(l: Ledger, next: Ledger, r: Ledger, orderId: nat, cart: seq<SnapshotItem>)
    requires cart != [] && next == Step(l, orderId, cart[0])
    requires LinesInCatalogue(next.products, cart[1..]) == LinesInCatalogue(l.products, cart[1..])
    requires ItemsAppended(next.items, r.items, orderId, LinesInCatalogue(next.products, cart[1..]))
    ensures ItemsAppended(l.items, r.items, orderId, LinesInCatalogue(l.products, cart))
  {
    var first := if HasProduct(l.products, cart[0].productId) then [cart[0]] else [];
    assert LinesInCatalogue(l.products, cart) == first + LinesInCatalogue(l.products, cart[1..]);
    ItemsAppendedCompose(l.items, next.items, r.items, orderId, first, LinesInCatalogue(l.products, cart[1..]));
  }

  /**
   * What the loop does to one product: a product the cart does not name is
   * untouched; one it names ends with non-negative stock, equal to
   * `max(0, stock - total quantity ordered)` when no quantity is negative.
   */
  lemma ApplyCartStock(l: Ledger, orderId: nat, cart: seq<SnapshotItem>, i: nat)
    requires i < |l.products|
    ensures i < |ApplyCart(l, orderId, cart).products|
    ensures !Mentions(cart, l.products[i].id) ==> ApplyCart(l, orderId, cart).products[i] == l.products[i]
    ensures Mentions(cart, l.products[i].id) ==> ApplyCart(l, orderId, cart).products[i].stock >= 0
    ensures Mentions(cart, l.products[i].id) && (forall k :: 0 <= k < |cart| ==> cart[k].quantity >= 0) ==>
              ApplyCart(l, orderId, cart).products[i].stock
              == Max(0, l.products[i].stock - QuantityOf(cart, l.products[i].id))
  {
    StockOnlyAt(l.products, ApplyCart(l, orderId, cart).products, cart, i);
  }

  /** One product of a catalogue whose stock went through the snapshot. */
  lemma {:induction false} StockOnlyAt(before: seq<Product>, after: seq<Product>, cart: seq<SnapshotItem>, i: nat)
    requires StockOnly(before, after, cart) && i < |before|
    ensures i < |after|
    ensures !Mentions(cart, before[i].id) ==> after[i] == before[i]
    ensures Mentions(cart, before[i].id) ==> after[i].stock >= 0
    ensures Mentions(cart, before[i].id) && (forall k :: 0 <= k < |cart| ==> cart[k].quantity >= 0) ==>
              after[i].stock == Max(0, before[i].stock - QuantityOf(cart, before[i].id))
  {
    var p := before[i];
    assert after[i] == p.(stock := StockAfter(p.stock, p.id, cart));
    if Mentions(cart, p.id) {
      StockMentioned(p.stock, p.id, cart);
    } else {
      StockUnmentioned(p.stock, p.id, cart);
    }
  }

  // ----------------------------------------------------------------- delete

  /**
   * Deleting an order cascades to its items: the order and every item that
   * belongs to it disappear, everything else stays.
   */
  function DeleteOrder(l: Ledger, orderId: nat): (r: Ledger)
    ensures r.products == l.products
    ensures forall o :: o in r.orders <==> o in l.orders && o.id != orderId
    ensures forall it :: it in r.items <==> it in l.items && it.orderId != orderId
  {
    Ledger(l.products,
           FilterOrders(l.orders, (o: Order) => o.id != orderId),
           FilterItems(l.items, (it: OrderItem) => it.orderId != orderId))
  }

  function FilterOrders(s: seq<Order>, keep: Order -> bool): (r: seq<Order>)
    ensures forall o :: o in r <==> o in s && keep(o)
  {
    if s == [] then [] else (if keep(s[0]) then [s[0]] else []) + FilterOrders(s[1..], keep)
  }

  function FilterItems(s: seq<OrderItem>, keep: OrderItem -> bool): (r: seq<OrderItem>)
    ensures forall it :: it in r <==> it in s && keep(it)
  {
    if s == [] then [] else (if keep(s[0]) then [s[0]] else []) + FilterItems(s[1..], keep)
  }
}

=== FILE: models.dfy ===
/**
 * The database entities of the shop (users, products, comments, orders and
 * their line items), their enumerations, column defaults and the uniqueness
 * constraints the schema declares.
 */
module Models {
  import opened Common

  datatype UserRole = RoleAdmin | RoleUser {
    function Value(): string {
      match this
      case RoleAdmin => "admin"
      case RoleUser => "user"
    }
  }

  datatype UserStatus = Active | Inactive {
    function Value(): string {
      match this
      case Active => "active"
      case Inactive => "inactive"
    }
  }

  datatype OrderStatus = Pending | Processing | Completed | Cancelled {
    function Value(): string {
      match this
      case Pending => "pending"
      case Processing => "processing"
      case Completed => "completed"
      case Cancelled => "cancelled"
    }
  }

  /**
   * Reading an order status from its stored or requested text: exactly the
   * four enumeration values are accepted.
   */
  function ParseOrderStatus(s: string): (r: Option<OrderStatus>)
    ensures r.Some? ==> r.value.Value() == s
    ensures forall st: OrderStatus :: st.Value() == s ==> r == Some(st)
  {
    if s == "pending" then Some(Pending)
    else if s == "processing" then Some(Processing)
    else if s == "completed" then Some(Completed)
    else if s == "cancelled" then Some(Cancelled)
    else None
  }

  datatype User = User(
    id: nat,
    username: string,
    email: string,
    passwordHash: string,
    role: UserRole,
    status: UserStatus,
    createdAt: int)

  /** The discount columns of a product: `discount_enabled`, `discount_type`, `discount_value`. */
  datatype DiscountTerms = DiscountTerms(enabled: bool, kind: Option<string>, value: Option<real>)

  /** The voucher columns of a product. */
  datatype VoucherTerms = VoucherTerms(
    enabled: bool,
    code: Option<string>,
    kind: Option<string>,
    value: Option<real>,
    expiry: Option<int>)

  const NoDiscount := DiscountTerms(false, None, None)
  const NoVoucher := VoucherTerms(false, None, None, None, None)

  datatype Product = Product(
    id: nat,
    name: string,
    description: string,
    price: real,
    category: string,
    stock: int,
    image: Option<string>,
    createdAt: int,
    discount: DiscountTerms,
    voucher: VoucherTerms)

  /** A product review; `orderId` names the purchase it reviews, if any. */
  datatype Comment = Comment(
    id: nat,
    productId: nat,
    userId: nat,
    orderId: Option<nat>,
    rating: int,
    text: string,
    createdAt: int)

  datatype Order = Order(
    id: nat,
    userId: nat,
    status: OrderStatus,
    totalAmount: real,
    paymentMethod: Option<string>,
    paymentStatus: string,
    shippingAddress: Option<string>,
    notes: Option<string>,
    createdAt: int)

  /** One line of an order; `price` is the unit price at the time of purchase. */
  datatype OrderItem = OrderItem(id: nat, orderId: nat, productId: nat, quantity: int, price: real)

  // ------------------------------------------------------------ defaults

  /**
   * A user row as inserted when only the required columns are given: the
   * role and status columns take their defaults.
   */
  function InsertUser(id: nat, username: string, email: string, hash: string, role: Option<UserRole>, now: int): (u: User)
    ensures u.id == id && u.email == email && u.createdAt == now
    ensures role.None? ==> u.role == RoleUser
    ensures u.status == Active
  {
    User(id, username, email, hash, role.GetOr(RoleUser), Active, now)
  }

  /** A product row as inserted: stock defaults to 0 and is never null; discount and voucher default to off. */
  function InsertProduct(
    id: nat, name: string, description: string, price: real, category: string,
    stock: Option<int>, discount: Option<DiscountTerms>, voucher: Option<VoucherTerms>, now: int): (p: Product)
    ensures stock.None? ==> p.stock == 0
    ensures stock.Some? ==> p.stock == stock.value
    ensures discount.None? ==> !p.discount.enabled
    ensures voucher.None? ==> !p.voucher.enabled
  {
    Product(id, name, description, price, category, stock.GetOr(0), None, now,
            discount.GetOr(NoDiscount), voucher.GetOr(NoVoucher))
  }

  /** An order row as inserted with only the required columns: status PENDING, payment status "pending". */
  function InsertOrder(id: nat, userId: nat, total: real, now: int): (o: Order)
    ensures o.status == Pending && o.paymentStatus == "pending"
    ensures o.userId == userId && o.totalAmount == total
  {
    Order(id, userId, Pending, total, None, "pending", None, None, now)
  }

  // ---------------------------------------------------------- constraints

  /** `users.email` is UNIQUE. */
  ghost predicate UniqueEmails(users: seq<User>) {
    forall i, j :: 0 <= i < |users| && 0 <= j < |users| && i != j ==> users[i].email != users[j].email
  }

  /** `products.voucher_code` is UNIQUE; NULLs do not collide. */
  ghost predicate UniqueVoucherCodes(products: seq<Product>) {
    forall i, j :: 0 <= i < |products| && 0 <= j < |products| && i != j && products[i].voucher.code.Some? ==>
      products[i].voucher.code != products[j].voucher.code
  }

  function FindUserByEmail(users: seq<User>, email: string): Option<User> {
    FindBy(users, (u: User) => u.email, email)
  }

  function FindUser(users: seq<User>, id: nat): Option<User> {
    FindBy(users, (u: User) => u.id, id)
  }

  function FindProduct(products: seq<Product>, id: nat): Option<Product> {
    FindBy(products, (p: Product) => p.id, id)
  }

  function FindOrder(orders: seq<Order>, id: nat): Option<Order> {
    FindBy(orders, (o: Order) => o.id, id)
  }

  /** `status.lower() in ['completed', 'delivered']` on an order's status text. */
  predicate IsReviewableStatus(s: OrderStatus) {
    Lower(s.Value()) == "completed" || Lower(s.Value()) == "delivered"
  }

  /** Every status value is already lower case. */
  lemma LowerOfValue(s: OrderStatus)
    ensures Lower(s.Value()) == s.Value()
  {
    var v := s.Value();
    assert forall i :: 0 <= i < |v| ==> !('A' <= v[i] <= 'Z');
  }

  /** Of the four statuses only COMPLETED passes the completed/delivered test. */
  lemma ReviewableIsCompleted(s: OrderStatus)
    ensures IsReviewableStatus(s) <==> s == Completed
  {
    LowerOfValue(s);
  }
}

=== FILE: orders.dfy ===
/**
 * The order routes: the payment webhook that records an order for a completed
 * checkout session, a shopper's own orders (one, or all newest first), and the
 * administrator's status update.
 */
module Orders {
  import opened Common
  import opened Models
  import opened Ledger
  import Sorting
  import Payments

  // ---------------------------------------------------------------- webhook

  /**
   * `customer_details.address` in the event: a missing key, JSON null, or the
   * gateway's address object, given as the text the column ends up holding.
   */
  datatype AddressField = AddressAbsent | AddressNull | AddressObject(stored: string)

  /** `customer_details` in the event: a missing key, JSON null, or an object. */
  datatype CustomerDetails = DetailsAbsent | DetailsNull | Details(address: AddressField)

  /** The `data.object` of a webhook event, as far as the handler reads it. */
  datatype EventSession = EventSession(
    userId: Option<string>,     // metadata.user_id
    cartData: Option<string>,   // metadata.cart_data, still JSON text
    amountTotal: int,           // amount_total, in cents
    details: CustomerDetails)   // customer_details

  datatype WebhookEvent = WebhookEvent(kind: string, session: EventSession)

  const CompletedEvent := "checkout.session.completed"

  /** The body of every answer the webhook gives. */
  const WebhookSuccess := "success"

  /** Starlette's answer to an exception the handler does not catch. */
  const Uncaught := InternalError("Internal Server Error")

  /** The event is a completed checkout whose metadata names a user and carries a cart. */
  predicate Qualifies(e: WebhookEvent) {
    e.kind == CompletedEvent && Truthy(e.session.userId) && Truthy(e.session.cartData)
  }

  /**
   * The handler gets through a qualifying event: its cart data decodes, its
   * user id parses and its customer details are not null. Every other event
   * is acknowledged untouched.
   */
  predicate Accepted(e: WebhookEvent, decodeCart: string -> Option<seq<SnapshotItem>>, parseUserId: string -> Option<nat>) {
    Qualifies(e) ==>
      decodeCart(e.session.cartData.value).Some? && parseUserId(e.session.userId.value).Some?
      && !e.session.details.DetailsNull?
  }

  /**
   * `session.get('customer_details', {}).get('address', '')`: the empty text
   * when either key is missing and `None` when the address is JSON null.
   * When `customer_details` itself is null, `.get` is called on `None` and
   * raises, which is the outer `None` here.
   */
  function StoredAddress(d: CustomerDetails): (r: Option<Option<string>>)
    ensures r.None? <==> d.DetailsNull?
    ensures r == Some(Some("")) <==> d.DetailsAbsent? || (d.Details? && (d.address.AddressAbsent? || d.address == AddressObject("")))
    ensures r == Some(None) <==> d.Details? && d.address.AddressNull?
  {
    match d
    case DetailsAbsent => Some(Some(""))
    case DetailsNull => None
    case Details(a) =>
      match a
      case AddressAbsent => Some(Some(""))
      case AddressNull => Some(None)
      case AddressObject(t) => Some(Some(t))
  }

  /** The order a qualifying event records: processing, paid, total = amount in cents / 100, payment method "stripe". */
  function WebhookOrder(id: nat, userId: nat, amountTotal: int, address: Option<string>, now: int): (o: Order)
    ensures o.id == id && o.userId == userId && o.createdAt == now
    ensures o.status == Processing && o.paymentStatus == "completed" && o.paymentMethod == Some("stripe")
    ensures o.totalAmount * 100.0 == amountTotal as real
    ensures o.shippingAddress == address && o.notes.None?
  {
    Order(id, userId, Processing, amountTotal as real / 100.0, Some("stripe"), "completed", address, None, now)
  }

  /**
   * Handling a webhook event (signature checking is not modelled). A
   * completed checkout whose metadata has a user id and cart data becomes a
   * new order and runs the cart loop; there is no duplicate check. Cart data
   * that is not JSON, a user id that is not a number, or null customer
   * details escape the handler as a 500. Every other event is acknowledged
   * without a change.
   */
  function Webhook(
    l: Ledger, e: WebhookEvent,
    decodeCart: string -> Option<seq<SnapshotItem>>, parseUserId: string -> Option<nat>,
    now: int): (r: Result<(Ledger, string)>)
    ensures !Qualifies(e) ==> r == Ok((l, WebhookSuccess))
    ensures r.Ok? ==> r.value.1 == WebhookSuccess
    ensures r.Ok? <==> Accepted(e, decodeCart, parseUserId)
    ensures Qualifies(e) && r.Err? ==> r.error == Uncaught
    ensures Qualifies(e) && r.Ok? ==>
              Recorded(l, r.value.0, parseUserId(e.session.userId.value).value, e.session,
                       decodeCart(e.session.cartData.value).value, now)
  {
    if !Qualifies(e) then Ok((l, WebhookSuccess))
    else
      match decodeCart(e.session.cartData.value)
      case None => Err(Uncaught)
      case Some(cart) =>
        match parseUserId(e.session.userId.value)
        case None => Err(Uncaught)
        case Some(userId) =>
          match StoredAddress(e.session.details)
          case None => Err(Uncaught)
          case Some(address) =>
            var id := NextId(l.orders, (o: Order) => o.id);
            var withOrder := l.(orders := l.orders + [WebhookOrder(id, userId, e.session.amountTotal, address, now)]);
            Ok((ApplyCart(withOrder, id, cart), WebhookSuccess))
  }

  /**
   * `after` is `before` with one more order for `userId` (fresh id,
   * processing, payment completed, method "stripe", total = cents / 100)
   * and the cart loop applied for it.
   */
  ghost predicate Recorded(before: Ledger, after: Ledger, userId: nat, s: EventSession, cart: seq<SnapshotItem>, now: int) {
    && |after.orders| == |before.orders| + 1
    && after.orders[..|before.orders|] == before.orders
    && var o := after.orders[|before.orders|];
    && (forall i :: 0 <= i < |before.orders| ==> before.orders[i].id < o.id)
    && o.userId == userId && o.status == Processing && o.paymentStatus == "completed"
    && o.paymentMethod == Some("stripe")
    && o.totalAmount == s.amountTotal as real / 100.0
    && Some(o.shippingAddress) == StoredAddress(s.details)
    && StockOnly(before.products, after.products, cart)
    && ItemsAppended(before.items, after.items, o.id, LinesInCatalogue(before.products, cart))
  }

  /** The same qualifying event delivered twice records two orders. */
  lemma WebhookNoDedup(
    l: Ledger, e: WebhookEvent,
    decodeCart: string -> Option<seq<SnapshotItem>>, parseUserId: string -> Option<nat>,
    now: int, later: int)
    requires Qualifies(e)
    requires Accepted(e, decodeCart, parseUserId)
    ensures Webhook(Webhook(l, e, decodeCart, parseUserId, now).value.0, e, decodeCart, parseUserId, later).Ok?
    ensures |Webhook(Webhook(l, e, decodeCart, parseUserId, now).value.0, e, decodeCart, parseUserId, later).value.0.orders|
            == |l.orders| + 2
  {
  }

  /**
   * A webhook order is never found by the session-status duplicate check:
   * its payment method is "stripe", never "stripe_" followed by a session id.
   */
  lemma WebhookOrderNeverTagged(
    l: Ledger, e: WebhookEvent,
    decodeCart: string -> Option<seq<SnapshotItem>>, parseUserId: string -> Option<nat>,
    now: int, userId: nat, sessionId: string)
    requires Accepted(e, decodeCart, parseUserId)
    ensures Payments.HasSessionOrder(Webhook(l, e, decodeCart, parseUserId, now).value.0.orders, userId, sessionId)
            == Payments.HasSessionOrder(l.orders, userId, sessionId)
  {
    var after := Webhook(l, e, decodeCart, parseUserId, now).value.0;
    if Qualifies(e) {
      var n := |l.orders|;
      assert |Payments.SessionTag(sessionId)| != |"stripe"|;
      assert !Payments.IsSessionOrder(after.orders[n], userId, sessionId);
      forall i | 0 <= i < n ensures after.orders[i] == l.orders[i] {
        assert after.orders[..n][i] == after.orders[i];
      }
      if Payments.HasSessionOrder(after.orders, userId, sessionId) {
        var i :| 0 <= i < |after.orders| && Payments.IsSessionOrder(after.orders[i], userId, sessionId);
        assert Payments.IsSessionOrder(l.orders[i], userId, sessionId);
      }
    }
  }

  /**
   * When the webhook records a session's order before the shopper returns,
   * the shopper's status request records a second order for the same
   * payment: the two paths do not see each other.
   */
  lemma WebhookThenStatusRecordsTwice(
    l: Ledger, e: WebhookEvent,
    decodeCart: string -> Option<seq<SnapshotItem>>, parseUserId: string -> Option<nat>,
    now: int, userId: nat, sessionId: string, s: Payments.RetrievedSession, later: int)
    requires Qualifies(e)
    requires Accepted(e, decodeCart, parseUserId)
    requires Payments.Creates(l, userId, sessionId, s)
    ensures var l1 := Webhook(l, e, decodeCart, parseUserId, now).value.0;
            var l2 := Payments.GetSessionStatus(l1, userId, sessionId, Payments.Retrieved(s), later);
            l2.Ok? && |l2.value.0.orders| == |l.orders| + 2
  {
    WebhookOrderNeverTagged(l, e, decodeCart, parseUserId, now, userId, sessionId);
  }

  // ---------------------------------------------------------------- reading

  /** One line of an order as the routes return it (images are not modelled). */
  datatype ItemView = ItemView(id: nat, productId: nat, productName: string, quantity: int, price: real)

  datatype OrderView = OrderView(order: Order, items: seq<ItemView>)

  /** The name shown for a line: its product's name, or "Unknown Product" once the product is gone. */
  function ProductName(products: seq<Product>, id: nat): (r: string)
    ensures HasProduct(products, id) ==> r == FindProduct(products, id).value.name
    ensures !HasProduct(products, id) ==> r == "Unknown Product"
  {
    match FindProduct(products, id)
    case Some(p) => p.name
    case None => "Unknown Product"
  }

  function ItemsOf(items: seq<OrderItem>, orderId: nat): (r: seq<OrderItem>)
    ensures forall it :: it in r <==> it in items && it.orderId == orderId
  {
    FilterItems(items, (it: OrderItem) => it.orderId == orderId)
  }

  function ViewItems(products: seq<Product>, items: seq<OrderItem>): (r: seq<ItemView>)
    ensures |r| == |items|
    ensures forall k :: 0 <= k < |items| ==>
              r[k] == ItemView(items[k].id, items[k].productId, ProductName(products, items[k].productId),
                               items[k].quantity, items[k].price)
  {
    if items == [] then []
    else
      var it := items[0];
      [ItemView(it.id, it.productId, ProductName(products, it.productId), it.quantity, it.price)]
        + ViewItems(products, items[1..])
  }

  /** The price an order line shows is the one recorded at purchase: editing or repricing the catalogue
      between two views changes at most the product names shown. */
  lemma {:induction false} PurchasePriceIgnoresCatalogue(before: seq<Product>, after: seq<Product>, items: seq<OrderItem>)
    ensures |ViewItems(before, items)| == |ViewItems(after, items)|
    ensures forall k :: 0 <= k < |items| ==>
              ViewItems(before, items)[k].price == ViewItems(after, items)[k].price == items[k].price
              && ViewItems(before, items)[k].quantity == ViewItems(after, items)[k].quantity
  {
  }

  /** An order with its lines, each showing the quantity and the price recorded at purchase. */
  function View(l: Ledger, o: Order): OrderView {
    OrderView(o, ViewItems(l.products, ItemsOf(l.items, o.id)))
  }

  predicate OwnedBy(o: Order, orderId: nat, userId: nat) {
    o.id == orderId && o.userId == userId
  }

  function FindOwned(orders: seq<Order>, orderId: nat, userId: nat): (r: Option<Order>)
    ensures r.Some? ==> r.value in orders && OwnedBy(r.value, orderId, userId)
    ensures r.None? ==> forall i :: 0 <= i < |orders| ==> !OwnedBy(orders[i], orderId, userId)
  {
    if orders == [] then None
    else if OwnedBy(orders[0], orderId, userId) then Some(orders[0])
    else FindOwned(orders[1..], orderId, userId)
  }

  /**
   * One order of the caller: found only when it exists and belongs to the
   * caller; someone else's order is reported as missing, like an order that
   * does not exist.
   */
  function GetOrder(l: Ledger, userId: nat, orderId: nat): (r: Result<OrderView>)
    ensures r.Ok? <==> exists i :: 0 <= i < |l.orders| && OwnedBy(l.orders[i], orderId, userId)
    ensures r.Err? ==> r.error == NotFound("Order not found")
    ensures r.Ok? ==> r.value.order in l.orders && r.value.order.id == orderId && r.value.order.userId == userId
    ensures r.Ok? ==> forall v :: v in r.value.items ==>
              exists it :: it in l.items && it.orderId == orderId && it.id == v.id && it.price == v.price
                           && it.quantity == v.quantity && it.productId == v.productId
    ensures r.Ok? ==> forall it :: it in l.items && it.orderId == orderId ==>
              ItemView(it.id, it.productId, ProductName(l.products, it.productId), it.quantity, it.price) in r.value.items
    ensures r.Ok? ==> r.value.items == ViewItems(l.products, ItemsOf(l.items, orderId))
  {
    match FindOwned(l.orders, orderId, userId)
    case None => Err(NotFound("Order not found"))
    case Some(o) =>
      var v := View(l, o);
      ViewsEveryItem(l.products, ItemsOf(l.items, o.id));
      assert forall w :: w in v.items ==>
        exists it :: it in ItemsOf(l.items, o.id) && it.id == w.id && it.price == w.price
                     && it.quantity == w.quantity && it.productId == w.productId by {
        forall w | w in v.items
          ensures exists it :: it in ItemsOf(l.items, o.id) && it.id == w.id && it.price == w.price
                               && it.quantity == w.quantity && it.productId == w.productId
        {
          var k :| 0 <= k < |v.items| && v.items[k] == w;
          assert ItemsOf(l.items, o.id)[k] in ItemsOf(l.items, o.id);
        }
      }
      Ok(v)
  }

  /** Every line handed to the view shows up in it, with its product's current name. */
  lemma {:induction false} ViewsEveryItem(products: seq<Product>, items: seq<OrderItem>)
    ensures forall it :: it in items ==>
              ItemView(it.id, it.productId, ProductName(products, it.productId), it.quantity, it.price)
                in ViewItems(products, items)
  {
    var r := ViewItems(products, items);
    forall it | it in items
      ensures ItemView(it.id, it.productId, ProductName(products, it.productId), it.quantity, it.price) in r
    {
      var k :| 0 <= k < |items| && items[k] == it;
      assert r[k] == ItemView(it.id, it.productId, ProductName(products, it.productId), it.quantity, it.price);
    }
  }

  /** Newer orders come first. */
  function NewestFirst(a: Order, b: Order): bool {
    a.createdAt >= b.createdAt
  }

  lemma NewestFirstIsTotal()
    ensures Sorting.TotalPreorder(NewestFirst)
  {
  }

  /** The caller's orders, newest first. */
  function MyOrders(orders: seq<Order>, userId: nat): (r: seq<Order>)
    ensures multiset(r) == multiset(FilterOrders(orders, (o: Order) => o.userId == userId))
    ensures forall o :: o in r <==> o in orders && o.userId == userId
    ensures forall i, j :: 0 <= i < j < |r| ==> r[i].createdAt >= r[j].createdAt
  {
    NewestFirstIsTotal();
    var mine := FilterOrders(orders, (o: Order) => o.userId == userId);
    var r := Sorting.SortBy(mine, NewestFirst);
    forall o ensures o in r <==> o in mine {
      Sorting.SortByMembers(mine, NewestFirst, o);
    }
    r
  }

  /** `get_my_orders`: the caller's orders, newest first, each with its lines. */
  function GetMyOrders(l: Ledger, userId: nat): (r: seq<OrderView>)
    ensures |r| == |MyOrders(l.orders, userId)|
    ensures forall i :: 0 <= i < |r| ==> r[i] == View(l, MyOrders(l.orders, userId)[i])
  {
    Views(l, MyOrders(l.orders, userId))
  }

  function Views(l: Ledger, orders: seq<Order>): (r: seq<OrderView>)
    ensures |r| == |orders|
    ensures forall i :: 0 <= i < |r| ==> r[i] == View(l, orders[i])
  {
    if orders == [] then []
    else
      var rest := Views(l, orders[1..]);
      assert forall i :: 1 <= i < |orders| ==> orders[i] == orders[1..][i - 1];
      [View(l, orders[0])] + rest
  }

  /** The listing holds exactly the caller's orders, newest first. */
  lemma MyOrdersListing(l: Ledger, userId: nat)
    ensures forall o :: (exists i :: 0 <= i < |GetMyOrders(l, userId)| && GetMyOrders(l, userId)[i].order == o)
                        <==> o in l.orders && o.userId == userId
    ensures forall i, j :: 0 <= i < j < |GetMyOrders(l, userId)| ==>
              GetMyOrders(l, userId)[i].order.createdAt >= GetMyOrders(l, userId)[j].order.createdAt
  {
    var mine := MyOrders(l.orders, userId);
    var r := GetMyOrders(l, userId);
    assert forall i :: 0 <= i < |r| ==> r[i].order == mine[i];
    ViewsKeepOrders(r, mine);
  }

  /** A listing whose views carry the given orders lists exactly those orders, in their order. */
  lemma {:induction false} ViewsKeepOrders(r: seq<OrderView>, mine: seq<Order>)
    requires |r| == |mine|
    requires forall i :: 0 <= i < |r| ==> r[i].order == mine[i]
    ensures forall o :: (exists i :: 0 <= i < |r| && r[i].order == o) <==> o in mine
    ensures (forall i, j :: 0 <= i < j < |mine| ==> mine[i].createdAt >= mine[j].createdAt) ==>
              forall i, j :: 0 <= i < j < |r| ==> r[i].order.createdAt >= r[j].order.createdAt
  {
    forall o ensures (exists i :: 0 <= i < |r| && r[i].order == o) <==> o in mine {
      if o in mine {
        var i :| 0 <= i < |mine| && mine[i] == o;
        assert r[i].order == o;
      }
    }
  }

  // ---------------------------------------------------------------- update

  /** Index of the first order with identifier `id`. */
  function IndexOfOrder(orders: seq<Order>, id: nat): Option<nat> {
    IndexBy(orders, (o: Order) => o.id, id)
  }

  /** The message pydantic gives for a status outside the enumeration. */
  const StatusRejected := Unprocessable("Input should be 'pending', 'processing', 'completed' or 'cancelled'")

  /**
   * The administrator's status update. The requested text must name one of
   * the four statuses (else 422); a missing order is a 404 and nothing
   * changes; otherwise the order takes the new status, whatever it had
   * before, and nothing else changes. The answer echoes the status text.
   */
  function UpdateOrderStatus(orders: seq<Order>, orderId: nat, requested: string): (r: Result<(seq<Order>, string)>)
    ensures ParseOrderStatus(requested).None? ==> r == Err(StatusRejected)
    ensures ParseOrderStatus(requested).Some? && (forall j :: 0 <= j < |orders| ==> orders[j].id != orderId) ==>
              r == Err(NotFound("Order not found"))
    ensures r.Ok? ==> r.value.1 == requested && StatusSet(orders, r.value.0, orderId, ParseOrderStatus(requested).value)
    ensures r.Ok? <==> ParseOrderStatus(requested).Some? && exists j :: 0 <= j < |orders| && orders[j].id == orderId
  {
    match ParseOrderStatus(requested)
    case None => Err(StatusRejected)
    case Some(st) =>
      match IndexOfOrder(orders, orderId)
      case None => Err(NotFound("Order not found"))
      case Some(i) => Ok((orders[i := orders[i].(status := st)], st.Value()))
  }

  /** `after` is `before` with the first order numbered `orderId` given status `st`, and every other order unchanged. */
  ghost predicate StatusSet(before: seq<Order>, after: seq<Order>, orderId: nat, st: OrderStatus) {
    && |after| == |before|
    && exists i :: 0 <= i < |before| && before[i].id == orderId
         && (forall j :: 0 <= j < i ==> before[j].id != orderId)
         && after[i] == before[i].(status := st)
         && forall j :: 0 <= j < |before| && j != i ==> after[j] == before[j]
  }

  /** There are no transition rules: every status can be set from every status, including back from cancelled. */
  lemma AnyTransitionAllowed(o: Order, st: OrderStatus)
    ensures UpdateOrderStatus([o], o.id, st.Value()).Ok?
    ensures UpdateOrderStatus([o], o.id, st.Value()).value.0 == [o.(status := st)]
  {
    assert ParseOrderStatus(st.Value()) == Some(st);
  }
}

=== FILE: page_tracking.dfy ===
/**
 * The activity type the storefront reports for a page visit, decided from
 * the path alone, the first matching rule winning.
 */
module PageTracking {
  import opened Common

  datatype PageActivity = AdminAction | ProductView | CartView | OrderView | PageView {
    function Value(): string {
      match this
      case AdminAction => "admin_action"
      case ProductView => "product_view"
      case CartView => "cart_view"
      case OrderView => "order_view"
      case PageView => "page_view"
    }
  }

  function CountChar(s: string, c: char): (r: nat)
    ensures r <= |s|
  {
    if s == [] then 0 else (if s[0] == c then 1 else 0) + CountChar(s[1..], c)
  }

  /** `s.split(c)`: the pieces between the separators; one more piece than there are separators. */
  function Split(s: string, c: char): (r: seq<string>)
    ensures |r| == CountChar(s, c) + 1
  {
    if s == [] then [""]
    else
      var rest := Split(s[1..], c);
      if s[0] == c then [""] + rest else [[s[0]] + rest[0]] + rest[1..]
  }

  /**
   * The activity of a visit to `path`: every type but the default is backed
   * by its keyword in the path, and a product view is never on an admin page.
   */
  function Classify(path: string): (r: PageActivity)
    ensures r == AdminAction ==> Contains(path, "/admin")
    ensures r == ProductView ==> Contains(path, "/products/") && !Contains(path, "/admin")
    ensures r == CartView ==> Contains(path, "/cart") && !Contains(path, "/admin")
    ensures r == OrderView ==> Contains(path, "/orders") && !Contains(path, "/admin")
    ensures (!Contains(path, "/admin") && !Contains(path, "/products/") && !Contains(path, "/cart")
             && !Contains(path, "/orders")) ==> r == PageView
  {
    if Contains(path, "/admin") then AdminAction
    else if Contains(path, "/products/") && |Split(path, '/')| > 2 then ProductView
    else if Contains(path, "/cart") then CartView
    else if Contains(path, "/orders") then OrderView
    else PageView
  }

  lemma {:induction false} CountCharAppend(a: string, b: string, c: char)
    ensures CountChar(a + b, c) == CountChar(a, c) + CountChar(b, c)
  {
    if a != [] {
      assert (a + b)[1..] == a[1..] + b;
      CountCharAppend(a[1..], b, c);
    } else {
      assert a + b == b;
    }
  }

  /** A path holding "/products/" always has more than two pieces, so the piece-count test never decides. */
  lemma ProductPathsHaveThreePieces(path: string)
    requires Contains(path, "/products/")
    ensures |Split(path, '/')| > 2
  {
    var i :| 0 <= i <= |path| - |"/products/"| && OccursAt(path, "/products/", i);
    var j := i + |"/products/"|;
    assert path == path[..i] + (path[i..j] + path[j..]);
    CountCharAppend(path[..i], path[i..j] + path[j..], '/');
    CountCharAppend(path[i..j], path[j..], '/');
    assert CountChar("/products/", '/') == 2;
  }

  /** The rules as one table: admin first, then product pages, cart, orders, anything else. */
  lemma ClassifyRules(path: string)
    ensures Classify(path) == AdminAction <==> Contains(path, "/admin")
    ensures Classify(path) == ProductView <==> !Contains(path, "/admin") && Contains(path, "/products/")
    ensures Classify(path) == CartView <==>
              !Contains(path, "/admin") && !Contains(path, "/products/") && Contains(path, "/cart")
    ensures Classify(path) == OrderView <==>
              !Contains(path, "/admin") && !Contains(path, "/products/") && !Contains(path, "/cart") && Contains(path, "/orders")
    ensures Classify(path) == PageView <==>
              !Contains(path, "/admin") && !Contains(path, "/products/") && !Contains(path, "/cart") && !Contains(path, "/orders")
  {
    if Contains(path, "/products/") {
      ProductPathsHaveThreePieces(path);
    }
  }

  /** An admin page about products is an admin action, not a product view. */
  lemma AdminWins(rest: string)
    ensures Contains("/admin/products/" + rest, "/products/")
    ensures Classify("/admin/products/" + rest) == AdminAction
  {
    assert OccursAt("/admin/products/" + rest, "/admin", 0);
    assert OccursAt("/admin/products/" + rest, "/products/", 6);
  }
}

=== FILE: payments.dfy ===
/**
 * Checkout: validating a cart and building the payment-gateway session request
 * (line items priced from the catalogue, a shipping line, and the cart snapshot
 * carried in the session metadata), and reconciling a paid session into an
 * order when the shopper returns from the gateway.
 *
 * The gateway itself is not modelled: its answers (a session, or the error it
 * raised) are inputs, and so is the conversion of rupiah to US cents.
 */
module Payments {
  import opened Common
  import opened Models
  import opened Ledger
  import Decimal

  /** One entry of the checkout request body. */
  datatype CartLine = CartLine(productId: nat, quantity: int, size: Option<string>, color: Option<string>)

  /** One `line_items` entry of the session request: product name and description, unit amount in cents, quantity. */
  datatype LineItem = LineItem(name: string, description: string, unitAmount: int, quantity: int)

  /** What the handler asks the gateway to create. */
  datatype SessionRequest = SessionRequest(
    lineItems: seq<LineItem>,
    customerEmail: string,
    userId: nat,
    userEmail: string,
    cartData: seq<SnapshotItem>)

  /** The least amount, in cents, the gateway accepts for a line. */
  const MinimumCents: int := 50

  /** The flat shipping charge in rupiah. */
  const ShippingIdr: real := 50000.0

  // ---------------------------------------------------------------- pricing

  /** The product's discount is on and its value is present and non-zero. */
  predicate DiscountApplies(d: DiscountTerms) {
    d.enabled && d.value.Some? && d.value.value != 0.0
  }

  /**
   * The unit price a shopper pays: a percentage discount takes `v` percent
   * off, a fixed one takes `v` off without going below zero; an unknown kind,
   * or a discount that is off or zero, leaves the list price.
   */
  function DiscountedPrice(p: Product): (r: real)
    ensures !DiscountApplies(p.discount) ==> r == p.price
    ensures DiscountApplies(p.discount) && p.discount.kind == Some("percentage") ==>
              r == p.price * (1.0 - p.discount.value.value / 100.0)
    ensures DiscountApplies(p.discount) && p.discount.kind == Some("fixed") ==>
              r == MaxReal(0.0, p.price - p.discount.value.value)
    ensures p.discount.kind != Some("percentage") && p.discount.kind != Some("fixed") ==> r == p.price
  {
    if DiscountApplies(p.discount) then
      var v := p.discount.value.value;
      if p.discount.kind == Some("percentage") then p.price * (1.0 - v / 100.0)
      else if p.discount.kind == Some("fixed") then MaxReal(0.0, p.price - v)
      else p.price
    else p.price
  }

  /**
   * A discount never raises the price and never makes a non-negative price
   * negative, provided a percentage lies between 0 and 100 and a fixed
   * amount is not negative.
   */
  lemma DiscountedPriceBounds(p: Product)
    requires p.price >= 0.0
    requires p.discount.kind == Some("percentage") && p.discount.value.Some? ==> 0.0 <= p.discount.value.value <= 100.0
    requires p.discount.kind == Some("fixed") && p.discount.value.Some? ==> p.discount.value.value >= 0.0
    ensures 0.0 <= DiscountedPrice(p) <= p.price
  {
    if DiscountApplies(p.discount) && p.discount.kind == Some("percentage") {
      var v := p.discount.value.value;
      ScaleWithin(p.price, 1.0 - v / 100.0);
      assert DiscountedPrice(p) == p.price * (1.0 - v / 100.0);
    }
  }

  /** Scaling a non-negative amount by a factor between 0 and 1 stays between 0 and the amount. */
  lemma ScaleWithin(a: real, f: real)
    requires a >= 0.0 && 0.0 <= f <= 1.0
    ensures 0.0 <= a * f <= a
  {
    assert a * f + a * (1.0 - f) == a;
    assert a * (1.0 - f) >= 0.0;
  }

  /** The unit amount sent for a price: the converted amount, but never below the gateway minimum. */
  function UnitAmount(price: real, toCents: real -> int): (r: int)
    ensures r >= MinimumCents
    ensures toCents(price) >= MinimumCents ==> r == toCents(price)
  {
    Max(MinimumCents, toCents(price))
  }

  /** The line-item name: the product name, then the size and the colour when given. */
  function LineName(name: string, size: Option<string>, color: Option<string>): (r: string)
    ensures |name| <= |r| && r[..|name|] == name
    ensures r == name <==> !Truthy(size) && !Truthy(color)
  {
    var withSize := if Truthy(size) then name + " - Size: " + size.value else name;
    if Truthy(color) then withSize + " - Color: " + color.value else withSize
  }

  /** The name begins with the product name and mentions exactly the size and colour that were given. */
  lemma LineNameShape(name: string, size: Option<string>, color: Option<string>)
    ensures StartsWith(LineName(name, size, color), name)
    ensures Truthy(size) ==> Contains(LineName(name, size, color), " - Size: " + size.value)
    ensures Truthy(color) ==> Contains(LineName(name, size, color), " - Color: " + color.value)
    ensures !Truthy(size) && !Truthy(color) ==> LineName(name, size, color) == name
    ensures |LineName(name, size, color)| == |name| + (if Truthy(size) then 9 + |size.value| else 0)
                                                     + (if Truthy(color) then 10 + |color.value| else 0)
  {
    var r := LineName(name, size, color);
    var withSize := if Truthy(size) then name + " - Size: " + size.value else name;
    assert r[..|name|] == name;
    if Truthy(size) {
      var part := " - Size: " + size.value;
      assert r[|name|..|name| + |part|] == part;
      assert OccursAt(r, part, |name|);
    }
    if Truthy(color) {
      var part := " - Color: " + color.value;
      assert r[|withSize|..|withSize| + |part|] == part;
      assert OccursAt(r, part, |withSize|);
    }
  }

  /** The description sent for a product: at most its first hundred characters. */
  function Description(d: string): (r: string)
    ensures |r| <= 100
    ensures r <= d
    ensures |d| <= 100 ==> r == d
    ensures |d| > 100 ==> |r| == 100 && r == d[..100]
  {
    if |d| > 100 then d[..100] else d
  }

  // ------------------------------------------------------------- validation

  /** What is wrong with one cart line, if anything: its product is unknown, or has fewer units in stock than asked for. */
  function LineProblem(products: seq<Product>, line: CartLine): (r: Option<Error>)
    ensures r.None? ==> FindProduct(products, line.productId).Some?
    ensures r.None? <==> HasProduct(products, line.productId)
                         && FindProduct(products, line.productId).value.stock >= line.quantity
  {
    match FindProduct(products, line.productId)
    case None => Some(NotFound("Product with ID " + Decimal.IntToString(line.productId) + " not found"))
    case Some(p) =>
      if p.stock < line.quantity then Some(BadRequest("Insufficient stock for " + p.name)) else None
  }

  /** The problem of the first bad line, checked in cart order. */
  function FirstProblem(products: seq<Product>, lines: seq<CartLine>): Option<Error> {
    if lines == [] then None
    else
      match LineProblem(products, lines[0])
      case Some(e) => Some(e)
      case None => FirstProblem(products, lines[1..])
  }

  /** There is a first problem exactly when some line has one, and it is the problem of the first such line. */
  lemma FirstProblemIsFirst(products: seq<Product>, lines: seq<CartLine>)
    ensures FirstProblem(products, lines).None? <==> forall i :: 0 <= i < |lines| ==> LineProblem(products, lines[i]).None?
    ensures FirstProblem(products, lines).Some? ==>
              exists i :: 0 <= i < |lines| && FirstProblem(products, lines) == LineProblem(products, lines[i])
                          && forall j :: 0 <= j < i ==> LineProblem(products, lines[j]).None?
  {
    NoFirstProblem(products, lines);
    if FirstProblem(products, lines).Some? {
      var i := FirstProblemAt(products, lines);
    }
  }

  /** No first problem exactly when no line has one. */
  lemma {:induction false} NoFirstProblem(products: seq<Product>, lines: seq<CartLine>)
    ensures FirstProblem(products, lines).None? <==> forall i :: 0 <= i < |lines| ==> LineProblem(products, lines[i]).None?
  {
    if lines != [] && LineProblem(products, lines[0]).None? {
      NoFirstProblem(products, lines[1..]);
      assert forall i :: 0 < i < |lines| ==> lines[i] == lines[1..][i - 1];
    }
  }

  /** The position of the first bad line, whose problem is the first problem. */
  lemma {:induction false} FirstProblemAt(products: seq<Product>, lines: seq<CartLine>) returns (i: nat)
    requires FirstProblem(products, lines).Some?
    ensures i < |lines| && FirstProblem(products, lines) == LineProblem(products, lines[i])
    ensures forall j :: 0 <= j < i ==> LineProblem(products, lines[j]).None?
  {
    if LineProblem(products, lines[0]).None? {
      var k := FirstProblemAt(products, lines[1..]);
      i := k + 1;
      assert lines[i] == lines[1..][k];
      forall j | 0 < j < i ensures LineProblem(products, lines[j]).None? {
        assert lines[j] == lines[1..][j - 1];
      }
    } else {
      i := 0;
    }
  }

  /**
   * The checks before the gateway is called: an empty cart is refused before
   * any product is looked up; otherwise the first line whose product is
   * unknown or short of stock decides the error.
   */
  function Validate(products: seq<Product>, lines: seq<CartLine>): (r: Option<Error>)
    ensures lines == [] ==> r == Some(BadRequest("Cart is empty"))
    ensures r.None? <==> lines != [] && forall i :: 0 <= i < |lines| ==> LineProblem(products, lines[i]).None?
  {
    FirstProblemIsFirst(products, lines);
    if lines == [] then Some(BadRequest("Cart is empty")) else FirstProblem(products, lines)
  }

  /** Every line's product is in the catalogue. */
  predicate AllFound(products: seq<Product>, lines: seq<CartLine>) {
    forall i :: 0 <= i < |lines| ==> FindProduct(products, lines[i].productId).Some?
  }

  // ---------------------------------------------------------------- request

  /** The line item for one cart line of product `p`. */
  function ItemOf(p: Product, line: CartLine, toCents: real -> int): LineItem {
    LineItem(LineName(p.name, line.size, line.color), Description(p.description),
             UnitAmount(DiscountedPrice(p), toCents), line.quantity)
  }

  /** The snapshot entry for one cart line of product `p`: the line as sent, with the price charged. */
  function SnapshotOf(p: Product, line: CartLine): SnapshotItem {
    SnapshotItem(line.productId, line.quantity, DiscountedPrice(p), line.size, line.color)
  }

  /** The product line items, one per cart line, in cart order. */
  function LineItems(products: seq<Product>, lines: seq<CartLine>, toCents: real -> int): (r: seq<LineItem>)
    requires AllFound(products, lines)
    ensures |r| == |lines|
    ensures forall i :: 0 <= i < |lines| ==> r[i] == ItemOf(FindProduct(products, lines[i].productId).value, lines[i], toCents)
  {
    if lines == [] then []
    else
      assert AllFound(products, lines[1..]) by {
        forall i | 0 <= i < |lines[1..]| ensures FindProduct(products, lines[1..][i].productId).Some? {
          assert lines[1..][i] == lines[i + 1];
        }
      }
      [ItemOf(FindProduct(products, lines[0].productId).value, lines[0], toCents)]
        + LineItems(products, lines[1..], toCents)
  }

  /** The cart snapshot: one entry per line whose product exists, in cart order. */
  function CartData(products: seq<Product>, lines: seq<CartLine>): (r: seq<SnapshotItem>)
    ensures |r| <= |lines|
    ensures AllFound(products, lines) ==>
              |r| == |lines|
              && forall i :: 0 <= i < |lines| ==> r[i] == SnapshotOf(FindProduct(products, lines[i].productId).value, lines[i])
  {
    if lines == [] then []
    else
      var rest := CartData(products, lines[1..]);
      assert AllFound(products, lines) ==> AllFound(products, lines[1..]) by {
        if AllFound(products, lines) {
          forall i | 0 <= i < |lines[1..]| ensures FindProduct(products, lines[1..][i].productId).Some? {
            assert lines[1..][i] == lines[i + 1];
          }
        }
      }
      match FindProduct(products, lines[0].productId)
      case Some(p) => [SnapshotOf(p, lines[0])] + rest
      case None => rest
  }

  /** The last line item: shipping, one unit of the flat charge. */
  function ShippingItem(toCents: real -> int): LineItem {
    LineItem("Shipping", "Standard shipping", UnitAmount(ShippingIdr, toCents), 1)
  }

  /**
   * Creating a checkout session. The cart is validated first; a failure of
   * the gateway call (`gatewayError`) becomes a 400 "Stripe error". The
   * request carries one line item per cart line, priced with the
   * discounted price, then the shipping line, and a snapshot of the cart
   * whose prices are those the line items were priced with.
   *
   * This is the behaviour the handler's error responses evidently intend;
   * `CreateCheckoutSessionAsWritten` is the handler as written.
   */
  function CreateCheckoutSession(
    products: seq<Product>, user: User, lines: seq<CartLine>,
    toCents: real -> int, gatewayError: Option<string>): (r: Result<SessionRequest>)
    ensures lines == [] ==> r == Err(BadRequest("Cart is empty"))
    ensures r.Ok? <==> lines != [] && gatewayError.None?
                       && forall i :: 0 <= i < |lines| ==> LineProblem(products, lines[i]).None?
    ensures Validate(products, lines).Some? ==> r == Err(Validate(products, lines).value)
    ensures Validate(products, lines).None? && gatewayError.Some? ==>
              r == Err(BadRequest("Stripe error: " + gatewayError.value))
    ensures r.Ok? ==> RequestMatchesCart(products, user, lines, toCents, r.value)
  {
    match Validate(products, lines)
    case Some(e) => Err(e)
    case None =>
      if gatewayError.Some? then Err(BadRequest("Stripe error: " + gatewayError.value))
      else
        var items := LineItems(products, lines, toCents) + [ShippingItem(toCents)];
        Ok(SessionRequest(items, user.email, user.id, user.email, CartData(products, lines)))
  }

  /**
   * The request fits the cart: one item per line with the line's quantity
   * and name, each charged at least the minimum, the shipping line last,
   * the snapshot lists every line with the discounted price of its
   * product, and each line item's amount is computed from that snapshot
   * price; the metadata names the shopper.
   */
  ghost predicate RequestMatchesCart(products: seq<Product>, user: User, lines: seq<CartLine>, toCents: real -> int, q: SessionRequest) {
    && |q.lineItems| == |lines| + 1
    && q.lineItems[|lines|] == ShippingItem(toCents)
    && |q.cartData| == |lines|
    && q.userId == user.id && q.userEmail == user.email && q.customerEmail == user.email
    && forall i :: 0 <= i < |lines| ==>
         && FindProduct(products, lines[i].productId).Some?
         && q.lineItems[i].quantity == lines[i].quantity
         && q.lineItems[i].unitAmount >= MinimumCents
         && q.lineItems[i].name == LineName(FindProduct(products, lines[i].productId).value.name, lines[i].size, lines[i].color)
         && q.cartData[i].productId == lines[i].productId
         && q.cartData[i].quantity == lines[i].quantity
         && q.cartData[i].size == lines[i].size && q.cartData[i].color == lines[i].color
         && q.cartData[i].price == DiscountedPrice(FindProduct(products, lines[i].productId).value)
         && q.lineItems[i].unitAmount == UnitAmount(q.cartData[i].price, toCents)
  }

  /** The shipping line and every product line are charged at least the gateway minimum. */
  lemma AmountsAtLeastMinimum(products: seq<Product>, user: User, lines: seq<CartLine>, toCents: real -> int)
    requires CreateCheckoutSession(products, user, lines, toCents, None).Ok?
    ensures forall k :: 0 <= k < |CreateCheckoutSession(products, user, lines, toCents, None).value.lineItems| ==>
              CreateCheckoutSession(products, user, lines, toCents, None).value.lineItems[k].unitAmount >= MinimumCents
  {
    var q := CreateCheckoutSession(products, user, lines, toCents, None).value;
    assert RequestMatchesCart(products, user, lines, toCents, q);
    forall k | 0 <= k < |q.lineItems| ensures q.lineItems[k].unitAmount >= MinimumCents {
      if k == |lines| {
        assert q.lineItems[k] == ShippingItem(toCents);
      }
    }
  }

  /**
   * Stock is checked line by line, not per product: two lines of the same
   * product pass when each fits the stock even though together they do not.
   */
  lemma StockCheckedPerLine(p: Product, q: int)
    requires 0 <= q <= p.stock < 2 * q
    ensures Validate([p], [CartLine(p.id, q, None, None), CartLine(p.id, q, None, None)]).None?
    ensures q + q > p.stock
  {
    var lines := [CartLine(p.id, q, None, None), CartLine(p.id, q, None, None)];
    assert forall i :: 0 <= i < |lines| ==> LineProblem([p], lines[i]).None? by {
      assert HasProduct([p], p.id) by { assert [p][0].id == p.id; }
    }
  }

  /** A quantity equal to the stock passes; one more than the stock is refused as insufficient. */
  lemma StockBoundary(products: seq<Product>, line: CartLine)
    requires FindProduct(products, line.productId).Some?
    ensures line.quantity == FindProduct(products, line.productId).value.stock ==> LineProblem(products, line).None?
    ensures line.quantity > FindProduct(products, line.productId).value.stock ==>
              LineProblem(products, line) == Some(BadRequest("Insufficient stock for " + FindProduct(products, line.productId).value.name))
  {
  }

  // ----------------------------------------------------- handler as written

  /**
   * The handler as written: the whole body sits in a `try` whose last
   * `except Exception` also catches the handler's own HTTP errors, so the
   * empty-cart 400, the unknown-product 404 and the insufficient-stock 400
   * reach the client as a 500 whose detail is the caught error's text
   * (`"<code>: <detail>"`). Only the gateway's own error keeps its 400.
   */
  function CreateCheckoutSessionAsWritten(
    products: seq<Product>, user: User, lines: seq<CartLine>,
    toCents: real -> int, gatewayError: Option<string>): (r: Result<SessionRequest>)
    ensures Validate(products, lines).Some? ==>
              r == Err(InternalError("An error occurred: " + Decimal.IntToString(Validate(products, lines).value.Code())
                                     + ": " + Validate(products, lines).value.detail))
    ensures Validate(products, lines).None? ==> r == CreateCheckoutSession(products, user, lines, toCents, gatewayError)
  {
    match Validate(products, lines)
    case Some(e) => Err(InternalError("An error occurred: " + Decimal.IntToString(e.Code()) + ": " + e.detail))
    case None => CreateCheckoutSession(products, user, lines, toCents, gatewayError)
  }

  /** An empty cart: the handler as written answers 500 where 400 "Cart is empty" is intended. */
  lemma EmptyCartAnswers500(products: seq<Product>, user: User, toCents: real -> int)
    ensures CreateCheckoutSessionAsWritten(products, user, [], toCents, None)
            == Err(InternalError("An error occurred: 400: Cart is empty"))
    ensures CreateCheckoutSessionAsWritten(products, user, [], toCents, None).error.Code() == 500
    ensures CreateCheckoutSession(products, user, [], toCents, None).error.Code() == 400
  {
    assert Decimal.DigitChar(0) == '0' && Decimal.DigitChar(4) == '4';
    assert Decimal.Digits(4) == "4";
    assert Decimal.Digits(40) == "40";
    assert Decimal.Digits(400) == "400";
    assert Decimal.IntToString(400) == "400";
    assert Validate(products, []) == Some(BadRequest("Cart is empty"));
    assert BadRequest("Cart is empty").Code() == 400;
    assert "An error occurred: " + "400" + ": " + "Cart is empty" == "An error occurred: 400: Cart is empty";
  }

  // --------------------------------------------------------- reconciliation

  /** The postal address the gateway collected; every part is optional. */
  datatype CustomerAddress = CustomerAddress(
    line1: Option<string>,
    line2: Option<string>,
    city: Option<string>,
    state: Option<string>,
    postalCode: Option<string>,
    country: Option<string>)

  /** The `cart_data` metadata of a session: absent or empty, not valid JSON, or a decoded snapshot. */
  datatype CartMetadata = NoCartData | Unparseable(message: string) | CartSnapshot(items: seq<SnapshotItem>)

  /** A session as the gateway returns it. `address` is `None` when no customer details or no address were collected. */
  datatype RetrievedSession = RetrievedSession(
    paymentStatus: string,
    customerEmail: Option<string>,
    address: Option<CustomerAddress>,
    cart: CartMetadata)

  /** The gateway's answer to retrieving a session. */
  datatype Retrieval = Retrieved(session: RetrievedSession) | GatewayFailure(message: string)

  datatype SessionStatus = SessionStatus(status: string, customerEmail: Option<string>)

  /** The payment-method text that ties an order to the session it was reconciled from. */
  function SessionTag(sessionId: string): (r: string)
    ensures StartsWith(r, "stripe_") && |r| == |sessionId| + 7
  {
    "stripe_" + sessionId
  }

  predicate IsSessionOrder(o: Order, userId: nat, sessionId: string) {
    o.userId == userId && o.paymentMethod == Some(SessionTag(sessionId))
  }

  /** The duplicate check: the user already has an order tagged with this session. */
  predicate HasSessionOrder(orders: seq<Order>, userId: nat, sessionId: string) {
    exists i | 0 <= i < |orders| :: IsSessionOrder(orders[i], userId, sessionId)
  }

  /** Σ price × quantity over the snapshot. */
  function CartTotal(cart: seq<SnapshotItem>): real {
    if cart == [] then 0.0 else cart[0].price * cart[0].quantity as real + CartTotal(cart[1..])
  }

  /** The address fields in the order the route reads them: line 1, line 2, city, state, postal code, country. */
  function AddressFields(a: CustomerAddress): seq<Option<string>> {
    [a.line1, a.line2, a.city, a.state, a.postalCode, a.country]
  }

  /** The one-element list of a truthy field's value, or nothing. */
  function Keep(f: Option<string>): seq<string> {
    if Truthy(f) then [f.value] else []
  }

  /** The values of the truthy entries, in order. */
  function TruthyValues(fields: seq<Option<string>>): (r: seq<string>)
    ensures forall k :: 0 <= k < |r| ==> r[k] != ""
    ensures |r| <= |fields|
  {
    if fields == [] then [] else Keep(fields[0]) + TruthyValues(fields[1..])
  }

  /** Filtering a field in front of the rest. */
  lemma TruthyValuesCons(f: Option<string>, rest: seq<Option<string>>)
    ensures TruthyValues([f] + rest) == Keep(f) + TruthyValues(rest)
  {
    assert ([f] + rest)[1..] == rest;
  }

  /** A value is kept exactly when some field holds it and is truthy. */
  lemma {:induction false} TruthyValuesMembers(fields: seq<Option<string>>, v: string)
    ensures v in TruthyValues(fields) <==> exists k :: 0 <= k < |fields| && Truthy(fields[k]) && fields[k].value == v
  {
    if fields != [] {
      TruthyValuesMembers(fields[1..], v);
      if v in TruthyValues(fields[1..]) {
        var k :| 0 <= k < |fields[1..]| && Truthy(fields[1..][k]) && fields[1..][k].value == v;
        assert Truthy(fields[k + 1]) && fields[k + 1].value == v;
      }
      if exists k :: 0 <= k < |fields| && Truthy(fields[k]) && fields[k].value == v {
        var k :| 0 <= k < |fields| && Truthy(fields[k]) && fields[k].value == v;
        if k > 0 {
          assert fields[1..][k - 1] == fields[k];
        }
      }
    }
  }

  /** The collected address parts: the truthy fields' values, in the order line 1, line 2, city, state, postal code, country. */
  function AddressParts(a: CustomerAddress): (r: seq<string>)
    ensures r == TruthyValues(AddressFields(a))
    ensures forall k :: 0 <= k < |r| ==> r[k] != ""
    ensures |r| <= 6
  {
    AddressPartsFilter(a);
    Keep(a.line1) + (Keep(a.line2) + (Keep(a.city) + (Keep(a.state) + (Keep(a.postalCode) + Keep(a.country)))))
  }

  lemma AddressPartsFilter(a: CustomerAddress)
    ensures TruthyValues(AddressFields(a))
            == Keep(a.line1) + (Keep(a.line2) + (Keep(a.city) + (Keep(a.state) + (Keep(a.postalCode) + Keep(a.country)))))
  {
    var s6 := [a.country];
    var s5 := [a.postalCode] + s6;
    var s4 := [a.state] + s5;
    var s3 := [a.city] + s4;
    var s2 := [a.line2] + s3;
    var s1 := [a.line1] + s2;
    TruthyValuesCons(a.country, []);
    assert s6 == [a.country] + [];
    assert TruthyValues(s6) == Keep(a.country);
    TruthyValuesCons(a.postalCode, s6);
    TruthyValuesCons(a.state, s5);
    TruthyValuesCons(a.city, s4);
    TruthyValuesCons(a.line2, s3);
    TruthyValuesCons(a.line1, s2);
    assert s1 == AddressFields(a);
  }

  /**
   * The shipping address stored on the order: the collected parts joined by
   * ", ", "No address provided" when none is filled in, and the shopper's
   * e-mail when no address was collected at all.
   */
  function ShippingAddress(s: RetrievedSession): (r: string)
    ensures r != ""
    ensures s.address.None? ==> r == "Email: " + PyStr(s.customerEmail)
    ensures s.address.Some? && AddressParts(s.address.value) == [] ==> r == "No address provided"
    ensures s.address.Some? && AddressParts(s.address.value) != [] ==> r == Join(AddressParts(s.address.value), ", ")
    ensures s.address.Some? ==>
              forall k :: 0 <= k < |AddressParts(s.address.value)| ==> Contains(r, AddressParts(s.address.value)[k])
  {
    match s.address
    case None => "Email: " + PyStr(s.customerEmail)
    case Some(a) =>
      var parts := AddressParts(a);
      if parts == [] then "No address provided"
      else
        JoinContainsAll(parts, ", ");
        Join(parts, ", ")
  }

  /** A fully filled-in address is stored as its six fields separated by ", ". */
  lemma FullAddressJoined(s: RetrievedSession)
    requires s.address.Some?
    requires var a := s.address.value;
             Truthy(a.line1) && Truthy(a.line2) && Truthy(a.city) && Truthy(a.state) && Truthy(a.postalCode) && Truthy(a.country)
    ensures var a := s.address.value;
            ShippingAddress(s) == a.line1.value + ", " + a.line2.value + ", " + a.city.value + ", " + a.state.value
                                  + ", " + a.postalCode.value + ", " + a.country.value
  {
    var a := s.address.value;
    var p := [a.line1.value, a.line2.value, a.city.value, a.state.value, a.postalCode.value, a.country.value];
    assert AddressParts(a) == p;
    JoinSix(p, ", ");
  }

  /** A join of six parts spelled out. */
  lemma JoinSix(p: seq<string>, sep: string)
    requires |p| == 6
    ensures Join(p, sep) == p[0] + sep + p[1] + sep + p[2] + sep + p[3] + sep + p[4] + sep + p[5]
  {
    assert p[5..] == [p[5]];
    var j4 := JoinStep(p, 4, sep);
    var j3 := JoinStep(p, 3, sep);
    var j2 := JoinStep(p, 2, sep);
    var j1 := JoinStep(p, 1, sep);
    var j0 := JoinStep(p, 0, sep);
    assert p[0..] == p;
  }

  /** One step of a join: the part at `i`, the separator, then the join of the rest. */
  lemma JoinStep(p: seq<string>, i: nat, sep: string) returns (j: string)
    requires i + 1 < |p|
    ensures j == Join(p[i..], sep) == p[i] + sep + Join(p[i + 1..], sep)
  {
    assert p[i..][1..] == p[i + 1..];
    j := Join(p[i..], sep);
  }

  /** The order a paid session turns into. */
  function SessionOrder(id: nat, userId: nat, sessionId: string, s: RetrievedSession, cart: seq<SnapshotItem>, now: int): Order {
    Order(id, userId, Processing, CartTotal(cart) + ShippingIdr, Some(SessionTag(sessionId)), "completed",
          Some(ShippingAddress(s)), None, now)
  }

  /**
   * Reporting a session's status when the shopper returns. A paid session
   * for which the user has no order tagged with it yet, and whose metadata
   * carries a cart, becomes a new order (processing, payment completed,
   * total = snapshot total + 50 000 shipping) followed by the cart loop of
   * the ledger; in every other case the tables are left alone. A gateway
   * failure is a 400, undecodable cart metadata a 500.
   */
  function GetSessionStatus(l: Ledger, userId: nat, sessionId: string, retrieval: Retrieval, now: int): (r: Result<(Ledger, SessionStatus)>)
    ensures retrieval.GatewayFailure? ==> r == Err(BadRequest("Stripe error: " + retrieval.message))
    ensures retrieval.Retrieved? && r.Ok? ==>
              r.value.1 == SessionStatus(retrieval.session.paymentStatus, retrieval.session.customerEmail)
    ensures retrieval.Retrieved? && !Creates(l, userId, sessionId, retrieval.session) && !retrieval.session.cart.Unparseable? ==>
              r.Ok? && r.value.0 == l
    ensures retrieval.Retrieved? && retrieval.session.paymentStatus == "paid" && !HasSessionOrder(l.orders, userId, sessionId)
            && retrieval.session.cart.Unparseable? ==>
              r == Err(InternalError("An error occurred: " + retrieval.session.cart.message))
    ensures retrieval.Retrieved? && (retrieval.session.paymentStatus != "paid" || HasSessionOrder(l.orders, userId, sessionId)) ==>
              r.Ok? && r.value.0 == l
    ensures retrieval.Retrieved? && Creates(l, userId, sessionId, retrieval.session) ==>
              r.Ok? && Reconciled(l, r.value.0, userId, sessionId, retrieval.session, now)
  {
    match retrieval
    case GatewayFailure(msg) => Err(BadRequest("Stripe error: " + msg))
    case Retrieved(s) =>
      var status := SessionStatus(s.paymentStatus, s.customerEmail);
      if s.paymentStatus != "paid" || HasSessionOrder(l.orders, userId, sessionId) then Ok((l, status))
      else
        match s.cart
        case NoCartData => Ok((l, status))
        case Unparseable(msg) => Err(InternalError("An error occurred: " + msg))
        case CartSnapshot(cart) =>
          var id := NextId(l.orders, (o: Order) => o.id);
          var withOrder := l.(orders := l.orders + [SessionOrder(id, userId, sessionId, s, cart, now)]);
          Ok((ApplyCart(withOrder, id, cart), status))
  }

  /** The session is paid, not yet reconciled for this user, and carries a decoded cart. */
  predicate Creates(l: Ledger, userId: nat, sessionId: string, s: RetrievedSession) {
    s.paymentStatus == "paid" && !HasSessionOrder(l.orders, userId, sessionId) && s.cart.CartSnapshot?
  }

  /**
   * `after` is `before` with exactly one new order for the session (fresh
   * id, processing, payment completed, total = snapshot total + shipping,
   * tagged with the session, the session's shipping address) and the
   * cart loop applied: stock clamped per product, an item for every line
   * whose product exists.
   */
  ghost predicate Reconciled(before: Ledger, after: Ledger, userId: nat, sessionId: string, s: RetrievedSession, now: int)
    requires s.cart.CartSnapshot?
  {
    var cart := s.cart.items;
    && |after.orders| == |before.orders| + 1
    && after.orders[..|before.orders|] == before.orders
    && var o := after.orders[|before.orders|];
    && (forall i :: 0 <= i < |before.orders| ==> before.orders[i].id < o.id)
    && o.userId == userId && o.status == Processing && o.paymentStatus == "completed"
    && o.totalAmount == CartTotal(cart) + 50000.0
    && o.paymentMethod == Some("stripe_" + sessionId)
    && o.shippingAddress == Some(ShippingAddress(s))
    && o.createdAt == now
    && StockOnly(before.products, after.products, cart)
    && ItemsAppended(before.items, after.items, o.id, LinesInCatalogue(before.products, cart))
  }

  /**
   * Reconciling is idempotent: once a session has produced its order, asking
   * for its status again changes nothing.
   */
  lemma SessionStatusIdempotent(l: Ledger, userId: nat, sessionId: string, s: RetrievedSession, now: int, later: int)
    requires !(s.paymentStatus == "paid" && !HasSessionOrder(l.orders, userId, sessionId) && s.cart.Unparseable?)
    ensures GetSessionStatus(GetSessionStatus(l, userId, sessionId, Retrieved(s), now).value.0, userId, sessionId, Retrieved(s), later)
            == Ok((GetSessionStatus(l, userId, sessionId, Retrieved(s), now).value.0, SessionStatus(s.paymentStatus, s.customerEmail)))
  {
    var l1 := GetSessionStatus(l, userId, sessionId, Retrieved(s), now).value.0;
    if Creates(l, userId, sessionId, s) {
      var n := |l.orders|;
      assert IsSessionOrder(l1.orders[n], userId, sessionId);
      assert HasSessionOrder(l1.orders, userId, sessionId);
    }
  }

  /** The number of the user's orders tagged with the session. */
  function SessionOrderCount(orders: seq<Order>, userId: nat, sessionId: string): nat {
    if orders == [] then 0
    else SessionOrderCount(orders[..|orders| - 1], userId, sessionId)
         + (if IsSessionOrder(orders[|orders| - 1], userId, sessionId) then 1 else 0)
  }

  lemma {:induction false} NoSessionOrderCountsZero(orders: seq<Order>, userId: nat, sessionId: string)
    requires !HasSessionOrder(orders, userId, sessionId)
    ensures SessionOrderCount(orders, userId, sessionId) == 0
  {
    if orders != [] {
      var init := orders[..|orders| - 1];
      forall i | 0 <= i < |init| ensures !IsSessionOrder(init[i], userId, sessionId) {
        assert init[i] == orders[i];
      }
      NoSessionOrderCountsZero(init, userId, sessionId);
      assert !IsSessionOrder(orders[|orders| - 1], userId, sessionId);
    }
  }

  /**
   * Asking twice for the status of a paid session with a cart leaves
   * exactly one order tagged with it, when there was none before.
   */
  lemma ReconcileTwiceOneOrder(l: Ledger, userId: nat, sessionId: string, s: RetrievedSession, now: int, later: int)
    requires !HasSessionOrder(l.orders, userId, sessionId)
    requires s.paymentStatus == "paid" && s.cart.CartSnapshot?
    ensures GetSessionStatus(l, userId, sessionId, Retrieved(s), now).Ok?
    ensures var l1 := GetSessionStatus(l, userId, sessionId, Retrieved(s), now).value.0;
            && GetSessionStatus(l1, userId, sessionId, Retrieved(s), later).Ok?
            && SessionOrderCount(GetSessionStatus(l1, userId, sessionId, Retrieved(s), later).value.0.orders, userId, sessionId) == 1
  {
    var l1 := GetSessionStatus(l, userId, sessionId, Retrieved(s), now).value.0;
    SessionStatusIdempotent(l, userId, sessionId, s, now, later);
    NoSessionOrderCountsZero(l.orders, userId, sessionId);
    var n := |l.orders|;
    assert l1.orders[..n] == l.orders;
    assert l1.orders[..|l1.orders| - 1] == l.orders;
    assert IsSessionOrder(l1.orders[n], userId, sessionId);
  }

  /** The new order's total counts every snapshot line, also those whose product no longer exists. */
  lemma TotalCountsMissingProducts(l: Ledger, userId: nat, sessionId: string, s: RetrievedSession, now: int)
    requires Creates(l, userId, sessionId, s)
    requires forall k :: 0 <= k < |s.cart.items| ==> !HasProduct(l.products, s.cart.items[k].productId)
    ensures var l1 := GetSessionStatus(l, userId, sessionId, Retrieved(s), now).value.0;
            && l1.items == l.items
            && l1.products == l.products
            && l1.orders[|l.orders|].totalAmount == CartTotal(s.cart.items) + 50000.0
  {
    var cart := s.cart.items;
    var l1 := GetSessionStatus(l, userId, sessionId, Retrieved(s), now).value.0;
    NoLinesInCatalogue(l.products, cart);
    assert l1.items[..|l.items|] == l.items;
    forall i | 0 <= i < |l.products| ensures l1.products[i] == l.products[i] {
      assert HasProduct(l.products, l.products[i].id);
      forall k | 0 <= k < |cart| ensures cart[k].productId != l.products[i].id {
        assert !HasProduct(l.products, cart[k].productId);
      }
      StockUnmentioned(l.products[i].stock, l.products[i].id, cart);
    }
  }
}

=== FILE: products.dfy ===
/**
 * The catalogue routes: the filtered listing, one product, the partial
 * update, the category list and the bestseller ranking, together with the
 * response shape they share.
 */
module Products {
  import opened Common
  import opened Models
  import opened Ledger
  import Sorting

  /**
   * A product as the routes return it: the discount and voucher groups are
   * present only when switched on, and the colour list is always empty.
   */
  datatype ProductView = ProductView(
    id: nat,
    name: string,
    description: string,
    price: real,
    category: string,
    stock: int,
    image: Option<string>,
    colors: seq<string>,
    createdAt: int,
    discount: Option<DiscountTerms>,
    voucher: Option<VoucherTerms>)

  function Project(p: Product): (v: ProductView)
    ensures v.discount.Some? <==> p.discount.enabled
    ensures v.voucher.Some? <==> p.voucher.enabled
    ensures v.colors == []
  {
    ProductView(p.id, p.name, p.description, p.price, p.category, p.stock, p.image, [], p.createdAt,
                if p.discount.enabled then Some(p.discount) else None,
                if p.voucher.enabled then Some(p.voucher) else None)
  }

  /**
   * The response keeps every column of the product, except that a switched
   * off discount or voucher group is dropped: the product can be read back
   * from its view up to those groups.
   */
  lemma ProjectKeepsColumns(p: Product)
    ensures var v := Project(p);
            && v.id == p.id && v.name == p.name && v.description == p.description && v.price == p.price
            && v.category == p.category && v.stock == p.stock && v.image == p.image && v.createdAt == p.createdAt
            && (v.discount.Some? ==> v.discount.value == p.discount)
            && (v.voucher.Some? ==> v.voucher.value == p.voucher)
  {
  }

  function ProjectAll(ps: seq<Product>): (r: seq<ProductView>)
    ensures |r| == |ps|
    ensures forall i :: 0 <= i < |ps| ==> r[i] == Project(ps[i])
  {
    if ps == [] then [] else [Project(ps[0])] + ProjectAll(ps[1..])
  }

  // ---------------------------------------------------------------- listing

  /** The listing's filters: the category must equal a given category, and a given search term must occur in the name or the description, ignoring case. */
  predicate Matches(p: Product, category: Option<string>, search: Option<string>) {
    && (Truthy(category) ==> p.category == category.value)
    && (Truthy(search) ==> ContainsIgnoreCase(p.name, search.value) || ContainsIgnoreCase(p.description, search.value))
  }

  function Filter(ps: seq<Product>, category: Option<string>, search: Option<string>): (r: seq<Product>)
    ensures |r| <= |ps|
    ensures forall p :: p in r <==> p in ps && Matches(p, category, search)
  {
    if ps == [] then []
    else (if Matches(ps[0], category, search) then [ps[0]] else []) + Filter(ps[1..], category, search)
  }

  /** Filtering keeps table order: the hits of two stretches of the table are the hits of the first, then those of the second. */
  lemma {:induction false} FilterAppend(a: seq<Product>, b: seq<Product>, category: Option<string>, search: Option<string>)
    ensures Filter(a + b, category, search) == Filter(a, category, search) + Filter(b, category, search)
  {
    if a == [] {
      assert a + b == b;
    } else {
      assert (a + b)[0] == a[0];
      assert (a + b)[1..] == a[1..] + b;
      FilterAppend(a[1..], b, category, search);
    }
  }

  /** The largest page the listing serves. */
  const MaxPage: nat := 100

  /**
   * `get_products`: the products that pass the filters, in table order,
   * from position `skip` on and at most `limit` of them. A negative skip or
   * a limit above 100 is refused by the query validation.
   */
  function GetProducts(products: seq<Product>, category: Option<string>, search: Option<string>, skip: int, limit: nat): (r: Result<seq<ProductView>>)
    ensures r.Ok? <==> skip >= 0 && limit <= MaxPage
    ensures r.Err? ==> r.error.Unprocessable?
    ensures r.Ok? ==> |r.value| <= limit
    ensures r.Ok? ==> forall i :: 0 <= i < |r.value| ==>
              exists p :: p in products && Matches(p, category, search) && r.value[i] == Project(p)
    ensures r.Ok? && skip == 0 && |Filter(products, category, search)| <= limit ==>
              forall p :: p in products && Matches(p, category, search) ==> Project(p) in r.value
    ensures r.Ok? && skip <= |Filter(products, category, search)| ==>
              |r.value| == Min(limit, |Filter(products, category, search)| - skip)
    ensures r.Ok? ==> forall i :: 0 <= i < |r.value| ==>
              skip + i < |Filter(products, category, search)|
              && r.value[i] == Project(Filter(products, category, search)[skip + i])
  {
    if skip < 0 then Err(Unprocessable("Input should be greater than or equal to 0"))
    else if limit > MaxPage then Err(Unprocessable("Input should be less than or equal to 100"))
    else
      ListingPage(products, category, search, skip, limit, ProjectAll(Page(Filter(products, category, search), skip, limit)));
      Ok(ProjectAll(Page(Filter(products, category, search), skip, limit)))
  }

  /** What a listing page shows, gathered from the three lemmas below. */
  lemma ListingPage(products: seq<Product>, category: Option<string>, search: Option<string>,
                    skip: nat, limit: nat, r: seq<ProductView>)
    requires r == ProjectAll(Page(Filter(products, category, search), skip, limit))
    ensures |r| <= limit
    ensures forall i :: 0 <= i < |r| ==> exists p :: p in products && Matches(p, category, search) && r[i] == Project(p)
    ensures skip == 0 && |Filter(products, category, search)| <= limit ==>
              forall p :: p in products && Matches(p, category, search) ==> Project(p) in r
    ensures skip <= |Filter(products, category, search)| ==> |r| == Min(limit, |Filter(products, category, search)| - skip)
    ensures forall i :: 0 <= i < |r| ==>
              skip + i < |Filter(products, category, search)| && r[i] == Project(Filter(products, category, search)[skip + i])
  {
    var hits := Filter(products, category, search);
    PageProjected(hits, skip, limit, r);
    HitsMatch(products, category, search, hits, skip, r);
    HitsShown(products, category, search, hits, skip, limit, r);
  }

  /** A projected page holds the projections of the hits from position `skip` on, at most `limit` of them. */
  lemma {:induction false} PageProjected(hits: seq<Product>, skip: nat, limit: nat, r: seq<ProductView>)
    requires r == ProjectAll(Page(hits, skip, limit))
    ensures |r| <= limit
    ensures skip <= |hits| ==> |r| == Min(limit, |hits| - skip)
    ensures forall i :: 0 <= i < |r| ==> skip + i < |hits| && r[i] == Project(hits[skip + i])
  {
    var page := Page(hits, skip, limit);
    forall i | 0 <= i < |r| ensures skip + i < |hits| && r[i] == Project(hits[skip + i]) {
      assert page[i] == hits[skip + i];
    }
  }

  /** Every entry of a page of hits is the projection of a product that passes the filters. */
  lemma {:induction false} HitsMatch(products: seq<Product>, category: Option<string>, search: Option<string>,
                                     hits: seq<Product>, skip: nat, r: seq<ProductView>)
    requires hits == Filter(products, category, search)
    requires forall i :: 0 <= i < |r| ==> skip + i < |hits| && r[i] == Project(hits[skip + i])
    ensures forall i :: 0 <= i < |r| ==> exists p :: p in products && Matches(p, category, search) && r[i] == Project(p)
  {
    forall i | 0 <= i < |r| ensures exists p :: p in products && Matches(p, category, search) && r[i] == Project(p) {
      var view := r[i];
      var q := hits[skip + i];
      ShownMatches(products, category, search, hits, q);
      assert r[i] == Project(q);
    }
    // One projection of a hit in scope lets the solver match the witnesses above against the postcondition.
    if |r| > 0 {
      var first := r[0];
      assert first == Project(hits[skip]);
    }
  }

  lemma {:induction false} ShownMatches(products: seq<Product>, category: Option<string>, search: Option<string>,
                                        hits: seq<Product>, p: Product)
    requires hits == Filter(products, category, search)
    requires p in hits
    ensures p in products && Matches(p, category, search)
  {
  }

  /** When the first page holds all the hits, every product that passes the filters is shown. */
  lemma {:induction false} HitsShown(products: seq<Product>, category: Option<string>, search: Option<string>,
                                     hits: seq<Product>, skip: nat, limit: nat, r: seq<ProductView>)
    requires hits == Filter(products, category, search)
    requires skip <= |hits| ==> |r| == Min(limit, |hits| - skip)
    requires forall i :: 0 <= i < |r| ==> skip + i < |hits| && r[i] == Project(hits[skip + i])
    ensures skip == 0 && |hits| <= limit ==>
              forall p :: p in products && Matches(p, category, search) ==> Project(p) in r
  {
    if skip == 0 && |hits| <= limit {
      forall p | p in products && Matches(p, category, search) ensures Project(p) in r {
        var i :| 0 <= i < |hits| && hits[i] == p;
        assert r[i] == Project(hits[skip + i]);
      }
    }
  }

  /** `get_product`: the product with that identifier, or 404. */
  function GetProduct(products: seq<Product>, id: nat): (r: Result<ProductView>)
    ensures r.Ok? <==> HasProduct(products, id)
    ensures r.Err? ==> r.error == NotFound("Product not found")
    ensures r.Ok? ==> exists p :: p in products && p.id == id && r.value == Project(p)
  {
    match FindProduct(products, id)
    case None => Err(NotFound("Product not found"))
    case Some(p) => Ok(Project(p))
  }

  // ---------------------------------------------------------------- update

  /** The update body: every field optional; the discount and voucher groups come whole. */
  datatype ProductUpdate = ProductUpdate(
    name: Option<string>,
    description: Option<string>,
    price: Option<real>,
    category: Option<string>,
    stock: Option<int>,
    image: Option<string>,
    discount: Option<DiscountTerms>,
    voucher: Option<VoucherTerms>)

  const NoChange := ProductUpdate(None, None, None, None, None, None, None, None)

  /** Each supplied scalar field overwrites the column; a supplied discount or voucher group replaces the whole group. */
  function ApplyUpdate(p: Product, u: ProductUpdate): (r: Product)
    ensures r.id == p.id && r.createdAt == p.createdAt
    ensures r.name == u.name.GetOr(p.name) && r.description == u.description.GetOr(p.description)
    ensures r.price == u.price.GetOr(p.price) && r.category == u.category.GetOr(p.category)
    ensures r.stock == u.stock.GetOr(p.stock)
    ensures r.image == (if u.image.Some? then u.image else p.image)
    ensures r.discount == u.discount.GetOr(p.discount) && r.voucher == u.voucher.GetOr(p.voucher)
  {
    p.(name := u.name.GetOr(p.name),
       description := u.description.GetOr(p.description),
       price := u.price.GetOr(p.price),
       category := u.category.GetOr(p.category),
       stock := u.stock.GetOr(p.stock),
       image := if u.image.Some? then u.image else p.image,
       discount := u.discount.GetOr(p.discount),
       voucher := u.voucher.GetOr(p.voucher))
  }

  /** An empty update changes nothing, and applying the same update twice is applying it once. */
  lemma ApplyUpdateLaws(p: Product, u: ProductUpdate)
    ensures ApplyUpdate(p, NoChange) == p
    ensures ApplyUpdate(ApplyUpdate(p, u), u) == ApplyUpdate(p, u)
  {
  }

  /** `update_product`: 404 for an unknown product; otherwise that product is updated and every other row stays. */
  function UpdateProduct(products: seq<Product>, id: nat, u: ProductUpdate): (r: Result<seq<Product>>)
    ensures r.Ok? <==> HasProduct(products, id)
    ensures r.Err? ==> r.error == NotFound("Product not found")
    ensures r.Ok? ==> |r.value| == |products|
    ensures r.Ok? ==> exists i :: 0 <= i < |products| && products[i].id == id
                        && r.value[i] == ApplyUpdate(products[i], u)
                        && forall j :: 0 <= j < |products| && j != i ==> r.value[j] == products[j]
  {
    match IndexOfProduct(products, id)
    case None => Err(NotFound("Product not found"))
    case Some(i) => Ok(products[i := ApplyUpdate(products[i], u)])
  }

  /** `products.id` is the primary key. */
  ghost predicate UniqueProductIds(products: seq<Product>) {
    forall i, j :: 0 <= i < |products| && 0 <= j < |products| && i != j ==> products[i].id != products[j].id
  }

  /** No product other than `id` holds voucher code `code`; an absent code is always free. */
  ghost predicate VoucherCodeFree(products: seq<Product>, id: nat, code: Option<string>) {
    code.None? || forall j :: 0 <= j < |products| && products[j].id != id ==> products[j].voucher.code != code
  }

  /** The voucher-code UNIQUE constraint survives `update_product` exactly when the update keeps the
      product's voucher group or brings a code that no other product holds. */
  lemma {:induction false} UpdateKeepsUniqueVoucherCodes(products: seq<Product>, id: nat, u: ProductUpdate)
    requires UniqueVoucherCodes(products) && UniqueProductIds(products)
    requires UpdateProduct(products, id, u).Ok?
    ensures UniqueVoucherCodes(UpdateProduct(products, id, u).value) <==>
              u.voucher.None? || VoucherCodeFree(products, id, u.voucher.value.code)
  {
    var i := IndexOfProduct(products, id).value;
    var r := UpdateProduct(products, id, u).value;
    assert r == products[i := ApplyUpdate(products[i], u)];
    if u.voucher.None? || VoucherCodeFree(products, id, u.voucher.value.code) {
      forall a, b | 0 <= a < |r| && 0 <= b < |r| && a != b && r[a].voucher.code.Some?
        ensures r[a].voucher.code != r[b].voucher.code
      {
        if a == i {
          assert products[b].id != id;
        } else if b == i {
          assert products[a].id != id;
        }
      }
    } else {
      var c := u.voucher.value.code;
      var j :| 0 <= j < |products| && products[j].id != id && products[j].voucher.code == c;
      assert j != i && r[i].voucher.code == c && r[j] == products[j];
    }
  }

  function IndexOfProduct(products: seq<Product>, id: nat): (r: Option<nat>)
    ensures r.Some? ==> r.value < |products| && products[r.value].id == id
    ensures r.None? <==> !HasProduct(products, id)
  {
    IndexBy(products, (p: Product) => p.id, id)
  }

  // ------------------------------------------------------------- categories

  /** `get_categories`: the distinct non-empty categories, each once. */
  function Categories(products: seq<Product>): (r: seq<string>)
    ensures forall c :: c in r <==> c != "" && exists p :: p in products && p.category == c
    ensures forall i, j :: 0 <= i < j < |r| ==> r[i] != r[j]
  {
    if products == [] then []
    else
      var rest := Categories(products[1..]);
      var c := products[0].category;
      var r := if c == "" || c in rest then rest else [c] + rest;
      assert forall q :: q in products <==> q == products[0] || q in products[1..];
      r
  }

  // ------------------------------------------------------------ bestsellers

  /** An order item counts as a sale when its order is completed and paid. */
  predicate IsSale(orders: seq<Order>, it: OrderItem) {
    match FindOrder(orders, it.orderId)
    case Some(o) => o.status == Completed && o.paymentStatus == "completed"
    case None => false
  }

  /** Units of product `id` sold: Σ quantity over its sales. */
  function Sold(l: Ledger, items: seq<OrderItem>, id: nat): int {
    if items == [] then 0
    else (if items[0].productId == id && IsSale(l.orders, items[0]) then items[0].quantity else 0) + Sold(l, items[1..], id)
  }

  predicate HasSale(l: Ledger, id: nat) {
    exists k | 0 <= k < |l.items| :: l.items[k].productId == id && IsSale(l.orders, l.items[k])
  }

  /** The products with at least one sale (the groups of the join). */
  function Sellers(l: Ledger, ps: seq<Product>): (r: seq<Product>)
    ensures forall p :: p in r <==> p in ps && HasSale(l, p.id)
  {
    if ps == [] then []
    else (if HasSale(l, ps[0].id) then [ps[0]] else []) + Sellers(l, ps[1..])
  }

  function InStock(ps: seq<Product>): (r: seq<Product>)
    ensures forall p :: p in r <==> p in ps && p.stock > 0
  {
    if ps == [] then [] else (if ps[0].stock > 0 then [ps[0]] else []) + InStock(ps[1..])
  }

  function Take<T>(s: seq<T>, n: nat): (r: seq<T>)
    ensures |r| == Min(n, |s|) && r == s[..|r|]
  {
    if n <= |s| then s[..n] else s
  }

  /** Ranking order: more units sold first. */
  function MoreSold(l: Ledger): (Product, Product) -> bool {
    (a: Product, b: Product) => Sold(l, l.items, a.id) >= Sold(l, l.items, b.id)
  }

  function Newer(a: Product, b: Product): bool {
    a.createdAt >= b.createdAt
  }

  lemma OrdersAreTotal(l: Ledger)
    ensures Sorting.TotalPreorder(MoreSold(l))
    ensures Sorting.TotalPreorder(Newer)
  {
  }

  /**
   * `get_bestsellers`: the products that have sales in completed, paid
   * orders, most units sold first, at most `limit` of them; when nothing has
   * sold, the newest products in stock instead. A limit above 20 is refused.
   */
  function GetBestsellers(l: Ledger, limit: nat): (r: Result<seq<Product>>)
    ensures r.Ok? <==> limit <= 20
    ensures r.Ok? ==> |r.value| <= limit
    ensures r.Ok? && Sellers(l, l.products) != [] ==> TopSellers(l, limit, r.value)
    ensures r.Ok? && Sellers(l, l.products) == [] ==> NewestInStock(l.products, limit, r.value)
  {
    if limit > 20 then Err(Unprocessable("Input should be less than or equal to 20"))
    else if Sellers(l, l.products) != [] then Ok(RankSellers(l, limit))
    else Ok(Newest(l.products, limit))
  }

  /**
   * `top` lists `min(limit, number of sellers)` products that have sales,
   * most units sold first, and no seller left out sold more than one kept.
   */
  ghost predicate TopSellers(l: Ledger, limit: nat, top: seq<Product>) {
    && |top| == Min(limit, |Sellers(l, l.products)|)
    && multiset(top) <= multiset(Sellers(l, l.products))
    && (forall i :: 0 <= i < |top| ==> top[i] in l.products && HasSale(l, top[i].id))
    && (forall i, j :: 0 <= i < j < |top| ==> Sold(l, l.items, top[i].id) >= Sold(l, l.items, top[j].id))
    && (forall p, i :: p in Sellers(l, l.products) && p !in top && 0 <= i < |top| ==>
          Sold(l, l.items, top[i].id) >= Sold(l, l.items, p.id))
  }

  /**
   * `r` lists `min(limit, number in stock)` products in stock, each no more
   * often than it is stored, newest first, and no product in stock left out
   * is newer than one kept.
   */
  ghost predicate NewestInStock(products: seq<Product>, limit: nat, r: seq<Product>) {
    && |r| == Min(limit, |InStock(products)|)
    && multiset(r) <= multiset(InStock(products))
    && (forall i :: 0 <= i < |r| ==> r[i] in products && r[i].stock > 0)
    && (forall i, j :: 0 <= i < j < |r| ==> r[i].createdAt >= r[j].createdAt)
    && (forall p, i :: p in InStock(products) && p !in r && 0 <= i < |r| ==> r[i].createdAt >= p.createdAt)
  }

  function RankSellers(l: Ledger, limit: nat): (r: seq<Product>)
    ensures TopSellers(l, limit, r)
  {
    OrdersAreTotal(l);
    var ranked := Sorting.SortBy(Sellers(l, l.products), MoreSold(l));
    RankingIsTop(l, ranked, limit);
    Take(ranked, limit)
  }

  /** The first `limit` products of a ranking of the sellers are the top sellers. */
  lemma RankingIsTop(l: Ledger, ranked: seq<Product>, limit: nat)
    requires multiset(ranked) == multiset(Sellers(l, l.products))
    requires Sorting.SortedBy(ranked, MoreSold(l))
    ensures TopSellers(l, limit, Take(ranked, limit))
  {
    var sellers := Sellers(l, l.products);
    RankedMembers(sellers, ranked);
    TopBeatsRest(l, ranked, limit);
    TakeWithin(ranked, limit);
    var top := Take(ranked, limit);
    forall i, j | 0 <= i < j < |top| ensures Sold(l, l.items, top[i].id) >= Sold(l, l.items, top[j].id) {
      assert MoreSold(l)(ranked[i], ranked[j]);
    }
  }

  function Newest(products: seq<Product>, limit: nat): (r: seq<Product>)
    ensures NewestInStock(products, limit, r)
  {
    OrdersAreTotal(Ledger([], [], []));
    var newest := Sorting.SortBy(InStock(products), Newer);
    RankedMembers(InStock(products), newest);
    NewestBeatRest(newest, limit);
    TakeWithin(newest, limit);
    Take(newest, limit)
  }

  /** A prefix holds each element no more often than the whole sequence does. */
  lemma TakeWithin<T>(s: seq<T>, n: nat)
    ensures multiset(Take(s, n)) <= multiset(s)
  {
    var k := |Take(s, n)|;
    assert s == s[..k] + s[k..];
  }

  /** In a newest-first listing, every product left out of the first `n` is no newer than any product kept. */
  lemma NewestBeatRest(newest: seq<Product>, n: nat)
    requires Sorting.SortedBy(newest, Newer)
    ensures forall p, i :: p in newest && p !in Take(newest, n) && 0 <= i < |Take(newest, n)| ==>
              Take(newest, n)[i].createdAt >= p.createdAt
  {
    var top := Take(newest, n);
    forall p, i | p in newest && p !in top && 0 <= i < |top|
      ensures top[i].createdAt >= p.createdAt
    {
      var k :| 0 <= k < |newest| && newest[k] == p;
      assert Newer(newest[i], newest[k]);
    }
  }

  lemma RankedMembers(s: seq<Product>, r: seq<Product>)
    requires multiset(r) == multiset(s)
    ensures |r| == |s|
    ensures forall p :: p in r <==> p in s
  {
    assert |r| == |multiset(r)| == |multiset(s)| == |s|;
    forall p ensures p in r <==> p in s {
      assert p in r <==> p in multiset(r);
      assert p in s <==> p in multiset(s);
    }
  }

  /** In a ranking, every product left out of the top `n` sold no more than any product kept. */
  lemma TopBeatsRest(l: Ledger, ranked: seq<Product>, n: nat)
    requires Sorting.SortedBy(ranked, MoreSold(l))
    ensures forall p, i :: p in ranked && p !in Take(ranked, n) && 0 <= i < |Take(ranked, n)| ==>
              Sold(l, l.items, Take(ranked, n)[i].id) >= Sold(l, l.items, p.id)
  {
    var top := Take(ranked, n);
    forall p, i | p in ranked && p !in top && 0 <= i < |top|
      ensures Sold(l, l.items, top[i].id) >= Sold(l, l.items, p.id)
    {
      var k :| 0 <= k < |ranked| && ranked[k] == p;
      assert MoreSold(l)(ranked[i], ranked[k]);
    }
  }

  /** Sales count only in orders that are both completed and paid. */
  lemma SaleNeedsCompletedPaidOrder(orders: seq<Order>, it: OrderItem)
    ensures IsSale(orders, it) <==>
              exists i :: 0 <= i < |orders| && orders[i].id == it.orderId
                          && (forall j :: 0 <= j < i ==> orders[j].id != it.orderId)
                          && orders[i].status == Completed && orders[i].paymentStatus == "completed"
  {
    if FindOrder(orders, it.orderId).Some? {
      var o := FindOrder(orders, it.orderId).value;
      FirstOrderWithId(orders, it.orderId);
    } else {
    }
  }

  lemma {:induction false} FirstOrderWithId(orders: seq<Order>, id: nat)
    requires FindOrder(orders, id).Some?
    ensures exists i :: 0 <= i < |orders| && orders[i] == FindOrder(orders, id).value
                        && forall j :: 0 <= j < i ==> orders[j].id != id
  {
    if orders[0].id != id {
      FirstOrderWithId(orders[1..], id);
      var i :| 0 <= i < |orders[1..]| && orders[1..][i] == FindOrder(orders[1..], id).value
               && forall j :: 0 <= j < i ==> orders[1..][j].id != id;
      assert orders[i + 1] == orders[1..][i];
      forall j | 0 <= j < i + 1 ensures orders[j].id != id {
        if j > 0 { assert orders[j] == orders[1..][j - 1]; }
      }
    } else {
      assert orders[0] == FindOrder(orders, id).value;
    }
  }
}

=== FILE: session.dfy ===
/**
 * The browser's login session kept in local storage: the token, the user
 * record (as JSON text), the time it was stored and the cart. A stored user
 * expires two hours after it was written. The clock is a parameter `now`
 * in milliseconds; decoding the user's JSON is a parameter where needed.
 */
module Session {
  import opened Common
  import opened Decimal

  type Store = map<string, string>

  const TokenKey := "access_token"
  const UserKey := "user"
  const StampKey := "user_timestamp"
  const CartKey := "cart"
  const TwoHours := 2 * 60 * 60 * 1000

  /** The keys a logout or an expiry clears. */
  const SessionKeys := {TokenKey, UserKey, StampKey, CartKey}

  /** A stored entry that is present and non-empty. */
  predicate Has(store: Store, key: string) {
    key in store && store[key] != ""
  }

  /**
   * Whether a stored timestamp has run out at `now`. A timestamp that does
   * not read as a number never runs out, as `now - NaN > limit` is false.
   */
  predicate Expired(stamp: string, now: int) {
    match ParseInt(stamp)
    case None => false
    case Some(t) => now - t > TwoHours
  }

  /**
   * `getUser`: nothing when the user or the timestamp is missing; nothing,
   * and the session keys cleared, once expired; otherwise the stored user.
   */
  function GetUser(store: Store, now: int): (r: (Option<string>, Store))
    ensures !Has(store, UserKey) || !Has(store, StampKey) ==> r == (None, store)
    ensures Has(store, UserKey) && Has(store, StampKey) && Expired(store[StampKey], now) ==>
              r.0.None? && r.1 == store - SessionKeys
    ensures r.0.Some? <==> Has(store, UserKey) && Has(store, StampKey) && !Expired(store[StampKey], now)
    ensures r.0.Some? ==> r.0.value == store[UserKey] && r.1 == store
  {
    if !Has(store, UserKey) || !Has(store, StampKey) then (None, store)
    else if Expired(store[StampKey], now) then (None, store - SessionKeys)
    else (Some(store[UserKey]), store)
  }

  /** `setUser`: the user's JSON and the current time. */
  function SetUser(store: Store, userJson: string, now: int): (r: Store)
    ensures r.Keys == store.Keys + {UserKey, StampKey}
    ensures forall k :: k in store && k != UserKey && k != StampKey ==> r[k] == store[k]
    ensures r[UserKey] == userJson && r[StampKey] == IntToString(now)
    ensures ParseInt(r[StampKey]) == Some(now)
  {
    ParseIntToString(now);
    store[UserKey := userJson][StampKey := IntToString(now)]
  }

  function SetToken(store: Store, token: string): (r: Store)
    ensures TokenKey in r && r[TokenKey] == token
    ensures forall k :: k != TokenKey ==> (k in r <==> k in store)
    ensures forall k :: k in store && k != TokenKey ==> r[k] == store[k]
  {
    store[TokenKey := token]
  }

  /** `logout`: the session keys go and nothing else changes. */
  function Logout(store: Store): (r: Store)
    ensures forall k :: k in r <==> k in store && k !in SessionKeys
    ensures forall k :: k in r ==> r[k] == store[k]
  {
    store - SessionKeys
  }

  /** `isAuthenticated`: a non-empty token is stored. */
  predicate IsAuthenticated(store: Store) {
    Has(store, TokenKey)
  }

  /** `isAdmin`: the unexpired user's role is "admin"; reading the user may clear an expired session. */
  function IsAdmin(store: Store, now: int, roleOf: string -> Option<string>): (r: (bool, Store))
    ensures r.0 <==> GetUser(store, now).0.Some? && roleOf(GetUser(store, now).0.value) == Some("admin")
    ensures r.1 == GetUser(store, now).1
  {
    var (u, s) := GetUser(store, now);
    (u.Some? && roleOf(u.value) == Some("admin"), s)
  }

  /** A user just stored is read back unchanged for exactly two hours. */
  lemma SetThenGet(store: Store, userJson: string, at: int, now: int)
    requires userJson != ""
    requires at <= now <= at + TwoHours
    ensures GetUser(SetUser(store, userJson, at), now) == (Some(userJson), SetUser(store, userJson, at))
  {
    ParseIntToString(at);
  }

  /** One millisecond past two hours, the user is gone and so are the token and the cart. */
  lemma ExpiresAfterTwoHours(store: Store, userJson: string, at: int)
    requires userJson != ""
    ensures var s := SetUser(store, userJson, at);
            GetUser(s, at + TwoHours + 1) == (None, s - SessionKeys)
    ensures !IsAuthenticated(GetUser(SetUser(store, userJson, at), at + TwoHours + 1).1)
  {
    ParseIntToString(at);
  }

  /** After a logout no user is read and no token is held. */
  lemma LogoutEndsSession(store: Store, now: int)
    ensures GetUser(Logout(store), now) == (None, Logout(store))
    ensures !IsAuthenticated(Logout(store))
  {
  }

  /** A timestamp that is not a number keeps the user signed in at any time. */
  lemma GarbageStampNeverExpires(store: Store, now: int)
    requires Has(store, UserKey) && Has(store, StampKey) && ParseInt(store[StampKey]).None?
    ensures GetUser(store, now).0 == Some(store[UserKey])
  {
  }
}

=== FILE: sorting.dfy ===
/**
 * `ORDER BY` as the model sees it: a listing is some permutation of the
 * selected rows that is sorted by the query's comparison. Rows that compare
 * equal may come in any order in the database; the model fixes one.
 */
module Sorting {

  /** `le` is a total preorder: every two rows are comparable, and it is transitive. */
  ghost predicate TotalPreorder<T(!new)>(le: (T, T) -> bool) {
    && (forall a, b :: le(a, b) || le(b, a))
    && (forall a, b, c :: le(a, b) && le(b, c) ==> le(a, c))
  }

  ghost predicate SortedBy<T>(s: seq<T>, le: (T, T) -> bool) {
    forall i, j :: 0 <= i < j < |s| ==> le(s[i], s[j])
  }

  function Insert<T(!new)>(x: T, s: seq<T>, le: (T, T) -> bool): (r: seq<T>)
    requires TotalPreorder(le)
    requires SortedBy(s, le)
    ensures multiset(r) == multiset(s) + multiset{x}
    ensures SortedBy(r, le)
  {
    if s == [] then [x]
    else if le(x, s[0]) then
      HeadBelowSorted(x, s, le);
      ConsSorted(x, s, le);
      [x] + s
    else
      var t := Insert(x, s[1..], le);
      assert s == [s[0]] + s[1..];
      SortedTail(s, le);
      HeadBelowInserted(x, s, t, le);
      ConsSorted(s[0], t, le);
      [s[0]] + t
  }

  lemma {:induction false} SortedTail<T>(s: seq<T>, le: (T, T) -> bool)
    requires s != [] && SortedBy(s, le)
    ensures SortedBy(s[1..], le)
    ensures forall y :: y in s[1..] ==> le(s[0], y)
  {
    forall i, j | 0 <= i < j < |s[1..]| ensures le(s[1..][i], s[1..][j]) {
      assert s[1..][i] == s[i + 1] && s[1..][j] == s[j + 1];
    }
    forall y | y in s[1..] ensures le(s[0], y) {
      var k :| 0 <= k < |s[1..]| && s[1..][k] == y;
      assert s[k + 1] == y;
    }
  }

  /** A row placed before the smallest row of a sorted listing is below every row of it. */
  lemma {:induction false} HeadBelowSorted<T(!new)>(x: T, s: seq<T>, le: (T, T) -> bool)
    requires TotalPreorder(le) && s != [] && SortedBy(s, le) && le(x, s[0])
    ensures forall y :: y in s ==> le(x, y)
  {
    forall y | y in s ensures le(x, y) {
      var k :| 0 <= k < |s| && s[k] == y;
      if k > 0 {
        assert le(s[0], s[k]);
      }
    }
  }

  /** When `x` goes after the head, the head is below every row of the insertion into the tail. */
  lemma {:induction false} HeadBelowInserted<T(!new)>(x: T, s: seq<T>, t: seq<T>, le: (T, T) -> bool)
    requires TotalPreorder(le) && s != [] && !le(x, s[0])
    requires forall y :: y in s[1..] ==> le(s[0], y)
    requires multiset(t) == multiset(s[1..]) + multiset{x}
    ensures forall y :: y in t ==> le(s[0], y)
  {
    assert le(s[0], x);
    forall y | y in t ensures le(s[0], y) {
      assert y in multiset(t);
      if y != x {
        assert y in multiset(s[1..]);
      }
    }
  }

  /** A row below every row of a sorted listing can go in front of it. */
  lemma {:induction false} ConsSorted<T>(a: T, t: seq<T>, le: (T, T) -> bool)
    requires SortedBy(t, le) && forall y :: y in t ==> le(a, y)
    ensures SortedBy([a] + t, le)
  {
    var r := [a] + t;
    forall i, j | 0 <= i < j < |r| ensures le(r[i], r[j]) {
      assert r[j] == t[j - 1] && t[j - 1] in t;
      if i > 0 {
        assert r[i] == t[i - 1];
      }
    }
  }

  /** The rows of `s` rearranged so that `le` holds between every earlier and later row. */
  function SortBy<T(!new)>(s: seq<T>, le: (T, T) -> bool): (r: seq<T>)
    requires TotalPreorder(le)
    ensures multiset(r) == multiset(s)
    ensures SortedBy(r, le)
  {
    if s == [] then []
    else
      var r := Insert(s[0], SortBy(s[1..], le), le);
      assert s == [s[0]] + s[1..];
      r
  }

  /** Sorting keeps exactly the rows it was given. */
  lemma SortByMembers<T(!new)>(s: seq<T>, le: (T, T) -> bool, x: T)
    requires TotalPreorder(le)
    ensures x in SortBy(s, le) <==> x in s
  {
    var r := SortBy(s, le);
    assert x in r <==> x in multiset(r);
    assert x in s <==> x in multiset(s);
  }
}

=== FILE: uploads.dfy ===
/**
 * Image uploads shared by the collection and banner routes: when a form
 * upload replaces a stored image, and how a stored image becomes the
 * `data:` URL of a response. Base64 encoding is a parameter `b64`.
 */
module Uploads {
  import opened Common

  /** A multipart file field as the route receives it. */
  datatype Upload = Upload(filename: string, contentType: Option<string>, data: seq<byte>)

  /** An upload counts only when the field is present and carries a file name. */
  predicate Supplied(u: Option<Upload>) {
    u.Some? && u.value.filename != ""
  }

  const DefaultMime := "image/jpeg"

  /** The stored media type, or JPEG when it is missing or empty. */
  function MimeOr(m: Option<string>): (r: string)
    ensures Truthy(m) ==> r == m.value
    ensures !Truthy(m) ==> r == DefaultMime
    ensures r != ""
  {
    if Truthy(m) then m.value else DefaultMime
  }

  /**
   * The stored image and media type after a create or update: a supplied
   * upload replaces both, anything else keeps them.
   */
  function Replace(image: Option<seq<byte>>, mime: Option<string>, u: Option<Upload>): (r: (Option<seq<byte>>, Option<string>))
    ensures !Supplied(u) ==> r == (image, mime)
    ensures Supplied(u) ==> r.0 == Some(u.value.data) && r.1.Some? && r.1.value == MimeOr(u.value.contentType)
  {
    if Supplied(u) then (Some(u.value.data), Some(MimeOr(u.value.contentType))) else (image, mime)
  }

  /** `convert_image_to_data_url`: "" for no bytes, otherwise the data URL. */
  function DataUrl(image: seq<byte>, mime: string, b64: seq<byte> -> string): (r: string)
    ensures r == "" <==> image == []
    ensures image != [] ==> StartsWith(r, "data:")
  {
    if image == [] then "" else "data:" + mime + ";base64," + b64(image)
  }

  /** The `image_url` of a response: a data URL when an image with bytes is stored, else none. */
  function ImageUrl(image: Option<seq<byte>>, mime: Option<string>, b64: seq<byte> -> string): (r: Option<string>)
    ensures r.Some? <==> HasBytes(image)
    ensures r.Some? ==> r.value != ""
  {
    if HasBytes(image) then Some(DataUrl(image.value, MimeOr(mime), b64)) else None
  }

  // ------------------------------------------------------ reading a data URL

  /** The text before the first `c` (all of `s` when there is none). */
  function Before(s: string, c: char): (r: string)
    ensures |r| <= |s| && r == s[..|r|]
    ensures c !in r
  {
    if s == [] || s[0] == c then [] else [s[0]] + Before(s[1..], c)
  }

  /** The text after the first `c` (empty when there is none). */
  function After(s: string, c: char): (r: string)
    ensures |r| <= |s|
  {
    if s == [] then [] else if s[0] == c then s[1..] else After(s[1..], c)
  }

  lemma {:induction false} SplitAtFirst(a: string, c: char, b: string)
    requires c !in a
    ensures Before(a + [c] + b, c) == a
    ensures After(a + [c] + b, c) == b
  {
    if a == [] {
      assert a + [c] + b == [c] + b;
    } else {
      assert (a + [c] + b)[1..] == a[1..] + [c] + b;
      SplitAtFirst(a[1..], c, b);
    }
  }

  /** The media type a data URL names: between "data:" and the first ';'. */
  function MediaType(url: string): Option<string> {
    if StartsWith(url, "data:") then Some(Before(url[5..], ';')) else None
  }

  /** The base64 payload of a data URL: what follows ";base64,". */
  function Payload(url: string): Option<string> {
    if !StartsWith(url, "data:") then None
    else
      var rest := After(url[5..], ';');
      if StartsWith(rest, "base64,") then Some(rest[7..]) else None
  }

  /** A data URL gives back the media type and the encoded bytes it was built from. */
  lemma DataUrlRoundTrip(image: seq<byte>, mime: string, b64: seq<byte> -> string)
    requires image != [] && ';' !in mime
    ensures MediaType(DataUrl(image, mime, b64)) == Some(mime)
    ensures Payload(DataUrl(image, mime, b64)) == Some(b64(image))
  {
    var url := DataUrl(image, mime, b64);
    assert url[5..] == mime + [';'] + ("base64," + b64(image));
    SplitAtFirst(mime, ';', "base64," + b64(image));
  }
}

=== FILE: users.dfy ===
/**
 * Admin user management: the filtered listing, reading, creating, updating
 * and deleting users, with the guards that protect the two built-in
 * accounts, reserve role changes to the system administrator and stop an
 * admin from deleting their own account.
 */
module Users {
  import opened Common
  import opened Models

  const SystemAdmin := "admin@admin.com"
  const SystemUser := "user@user.com"
  const MaxPage := 100

  /**
   * What the validator behind pydantic's `EmailStr` makes of a submitted
   * address: its normalised form (the domain lower-cased), or the reason it
   * is refused. The validator itself is foreign code and a parameter here.
   */
  datatype EmailVerdict = Normalised(address: string) | Refused(reason: string)

  /** The 422 a request body with a refused address gets before the route runs. */
  function InvalidEmail(reason: string): Error {
    Unprocessable("value is not a valid email address: " + reason)
  }

  /** The address the route sees: the normalised one, or the schema's 422. */
  function ValidEmail(check: string -> EmailVerdict, email: string): (r: Result<string>)
    ensures r.Ok? <==> check(email).Normalised?
    ensures r.Ok? ==> r.value == check(email).address
    ensures r.Err? ==> r.error == InvalidEmail(check(email).reason)
  {
    match check(email)
    case Normalised(a) => Ok(a)
    case Refused(why) => Err(InvalidEmail(why))
  }

  /** The built-in accounts that can be neither modified nor deleted. */
  predicate Protected(email: string) {
    email == SystemAdmin || email == SystemUser
  }

  // ---------------------------------------------------------------- listing

  /**
   * The listing filters, each applied only when given and non-empty:
   * role text equal, status text equal, and the search text inside the
   * username or the email, ignoring case.
   */
  predicate Matches(u: User, role: Option<string>, status: Option<string>, search: Option<string>) {
    && (Truthy(role) ==> u.role.Value() == role.value)
    && (Truthy(status) ==> u.status.Value() == status.value)
    && (Truthy(search) ==> ContainsIgnoreCase(u.username, search.value) || ContainsIgnoreCase(u.email, search.value))
  }

  function Filter(users: seq<User>, role: Option<string>, status: Option<string>, search: Option<string>): (r: seq<User>)
    ensures forall u :: u in r <==> u in users && Matches(u, role, status, search)
    ensures |r| <= |users|
  {
    if users == [] then []
    else (if Matches(users[0], role, status, search) then [users[0]] else []) + Filter(users[1..], role, status, search)
  }

  /** `get_users`: the matching users from position `skip` on, at most `limit` of them. */
  function GetUsers(users: seq<User>, role: Option<string>, status: Option<string>, search: Option<string>,
                    skip: int, limit: nat): (r: Result<seq<User>>)
    ensures r.Ok? <==> skip >= 0 && limit <= MaxPage
    ensures r.Err? ==> r.error.Unprocessable?
    ensures r.Ok? ==> |r.value| <= limit
    ensures r.Ok? ==> forall u :: u in r.value ==> u in users && Matches(u, role, status, search)
    ensures r.Ok? && skip == 0 && |Filter(users, role, status, search)| <= limit ==>
              forall u :: u in users && Matches(u, role, status, search) ==> u in r.value
    ensures r.Ok? && skip <= |Filter(users, role, status, search)| ==>
              |r.value| == Min(limit, |Filter(users, role, status, search)| - skip)
    ensures r.Ok? ==> forall i :: 0 <= i < |r.value| ==>
              skip + i < |Filter(users, role, status, search)| && r.value[i] == Filter(users, role, status, search)[skip + i]
  {
    if skip < 0 then Err(Unprocessable("Input should be greater than or equal to 0"))
    else if limit > MaxPage then Err(Unprocessable("Input should be less than or equal to 100"))
    else
      PageOfHits(users, role, status, search, skip, limit);
      Ok(Page(Filter(users, role, status, search), skip, limit))
  }

  lemma PageOfHits(users: seq<User>, role: Option<string>, status: Option<string>, search: Option<string>, skip: nat, limit: nat)
    ensures forall u :: u in Page(Filter(users, role, status, search), skip, limit) ==> u in users && Matches(u, role, status, search)
    ensures skip == 0 && |Filter(users, role, status, search)| <= limit ==>
              Page(Filter(users, role, status, search), skip, limit) == Filter(users, role, status, search)
  {
    var hits := Filter(users, role, status, search);
    var page := Page(hits, skip, limit);
    assert forall i :: 0 <= i < |page| ==> page[i] in hits;
  }

  /**
   * Paging through the listing misses and repeats no one: the page of `a`
   * users at `skip` followed by the page of `b` users right after it is the
   * page of `a + b` users at `skip`.
   */
  lemma ConsecutivePages(users: seq<User>, role: Option<string>, status: Option<string>, search: Option<string>,
                         skip: nat, a: nat, b: nat)
    requires a + b <= MaxPage
    ensures GetUsers(users, role, status, search, skip, a).value + GetUsers(users, role, status, search, skip + a, b).value
            == GetUsers(users, role, status, search, skip, a + b).value
  {
    PagesCompose(Filter(users, role, status, search), skip, a, b);
  }

  /** With no filter given, every user is listed (within the page). */
  lemma NoFilterKeepsAll(users: seq<User>)
    ensures Filter(users, None, None, None) == users
  {
  }

  function IndexOf(users: seq<User>, id: nat): Option<nat> {
    IndexBy(users, (u: User) => u.id, id)
  }

  const UserNotFound := NotFound("User not found")

  function GetUser(users: seq<User>, id: nat): (r: Result<User>)
    ensures r.Err? <==> forall j :: 0 <= j < |users| ==> users[j].id != id
    ensures r.Err? ==> r.error == UserNotFound
    ensures r.Ok? ==> r.value in users && r.value.id == id
  {
    match IndexOf(users, id)
    case None => Err(UserNotFound)
    case Some(i) => Ok(users[i])
  }

  // --------------------------------------------------------------- creation

  predicate EmailTaken(users: seq<User>, email: string, except: int) {
    exists j :: 0 <= j < |users| && users[j].email == email && users[j].id != except
  }

  function HolderOf(users: seq<User>, email: string, except: int): (r: Option<nat>)
    ensures r.Some? ==> r.value < |users| && users[r.value].email == email && users[r.value].id != except
    ensures r.None? <==> !EmailTaken(users, email, except)
  {
    if users == [] then None
    else if users[0].email == email && users[0].id != except then Some(0)
    else match HolderOf(users[1..], email, except)
      case None =>
        assert forall j :: 1 <= j < |users| ==> users[j] == users[1..][j - 1];
        None
      case Some(k) => Some(k + 1)
  }

  const EmailRegistered := BadRequest("Email already registered")

  /**
   * `create_user`: 422 when the body's address is refused by `EmailStr`,
   * 400 when the normalised address is registered, otherwise a new active
   * user with that address and the requested role (the user role when none
   * is given).
   */
  function CreateUser(users: seq<User>, username: string, email: string, hash: string,
                      role: Option<UserRole>, check: string -> EmailVerdict, now: int): (r: Result<seq<User>>)
    ensures check(email).Refused? ==> r == Err(InvalidEmail(check(email).reason))
    ensures check(email).Normalised? ==> (r.Err? <==> EmailTaken(users, check(email).address, -1))
    ensures check(email).Normalised? && r.Err? ==> r.error == EmailRegistered
    ensures r.Ok? ==> |r.value| == |users| + 1 && r.value[..|users|] == users
    ensures r.Ok? ==> var u := r.value[|users|];
              && check(email).Normalised? && u.email == check(email).address
              && u.username == username && u.status == Active
              && u.role == role.GetOr(RoleUser)
              && forall i :: 0 <= i < |users| ==> users[i].id < u.id
  {
    match ValidEmail(check, email)
    case Err(e) => Err(e)
    case Ok(address) =>
      if HolderOf(users, address, -1).Some? then Err(EmailRegistered)
      else Ok(users + [InsertUser(NextId(users, (u: User) => u.id), username, address, hash, role, now)])
  }

  lemma CreateKeepsUniqueEmails(users: seq<User>, username: string, email: string, hash: string, role: Option<UserRole>,
                                check: string -> EmailVerdict, now: int)
    requires UniqueEmails(users)
    requires CreateUser(users, username, email, hash, role, check, now).Ok?
    ensures UniqueEmails(CreateUser(users, username, email, hash, role, check, now).value)
  {
  }

  // ----------------------------------------------------------------- update

  /** The update form: `None` is a field the request leaves out. */
  datatype UserUpdate = UserUpdate(username: Option<string>, email: Option<string>,
                                   role: Option<UserRole>, status: Option<UserStatus>)

  const ProtectedEdit := Forbidden("Cannot modify default system users (admin@admin.com and user@user.com)")
  const RoleReserved := Forbidden("Only the system administrator can change user roles")
  const EmailInUse := BadRequest("Email already taken")

  function Apply(u: User, d: UserUpdate): (r: User)
    ensures r.id == u.id && r.passwordHash == u.passwordHash && r.createdAt == u.createdAt
    ensures d == UserUpdate(None, None, None, None) ==> r == u
    ensures d.username.None? ==> r.username == u.username
    ensures d.username.Some? ==> r.username == d.username.value
    ensures d.email.None? ==> r.email == u.email
    ensures d.email.Some? ==> r.email == d.email.value
    ensures d.role.None? ==> r.role == u.role
    ensures d.role.Some? ==> r.role == d.role.value
    ensures d.status.None? ==> r.status == u.status
    ensures d.status.Some? ==> r.status == d.status.value
  {
    u.(username := d.username.GetOr(u.username), email := d.email.GetOr(u.email),
       role := d.role.GetOr(u.role), status := d.status.GetOr(u.status))
  }

  /** The first guard `update_user` trips, in the order it checks them. */
  function UpdateProblem(users: seq<User>, callerEmail: string, id: nat, d: UserUpdate): (r: Option<Error>)
    ensures IndexOf(users, id).None? ==> r == Some(UserNotFound)
    ensures IndexOf(users, id).Some? && Protected(users[IndexOf(users, id).value].email) ==> r == Some(ProtectedEdit)
    ensures r.None? <==>
              && IndexOf(users, id).Some?
              && !Protected(users[IndexOf(users, id).value].email)
              && (d.role.Some? ==> callerEmail == SystemAdmin)
              && (d.email.Some? ==> !EmailTaken(users, d.email.value, id))
  {
    match IndexOf(users, id)
    case None => Some(UserNotFound)
    case Some(i) =>
      if Protected(users[i].email) then Some(ProtectedEdit)
      else if d.role.Some? && callerEmail != SystemAdmin then Some(RoleReserved)
      else if d.email.Some? && HolderOf(users, d.email.value, id).Some? then Some(EmailInUse)
      else None
  }

  /**
   * The body as the route sees it: a supplied address the schema refuses is
   * a 422, and an accepted one is replaced by its normalised form.
   */
  function ValidUpdate(d: UserUpdate, check: string -> EmailVerdict): (r: Result<UserUpdate>)
    ensures d.email.None? ==> r == Ok(d)
    ensures d.email.Some? && check(d.email.value).Refused? ==> r == Err(InvalidEmail(check(d.email.value).reason))
    ensures d.email.Some? && check(d.email.value).Normalised? ==>
              r == Ok(d.(email := Some(check(d.email.value).address)))
  {
    match d.email
    case None => Ok(d)
    case Some(e) =>
      match ValidEmail(check, e)
      case Err(err) => Err(err)
      case Ok(address) => Ok(d.(email := Some(address)))
  }

  /**
   * `update_user`: 422 for a supplied address the schema refuses, then 404,
   * then 403 for the built-in accounts, then 403 for a role change by anyone
   * but the system administrator, then 400 for an address held by another
   * user; otherwise the supplied fields are written, the address normalised.
   */
  function UpdateUser(users: seq<User>, callerEmail: string, id: nat, d: UserUpdate, check: string -> EmailVerdict): (r: Result<seq<User>>)
    ensures ValidUpdate(d, check).Err? ==> r == Err(ValidUpdate(d, check).error)
    ensures ValidUpdate(d, check).Ok? ==>
              (r.Err? <==> UpdateProblem(users, callerEmail, id, ValidUpdate(d, check).value).Some?)
    ensures ValidUpdate(d, check).Ok? && r.Err? ==> r.error == UpdateProblem(users, callerEmail, id, ValidUpdate(d, check).value).value
    ensures r.Ok? ==> var i := IndexOf(users, id).value;
              ValidUpdate(d, check).Ok? && r.value == users[i := Apply(users[i], ValidUpdate(d, check).value)]
  {
    match ValidUpdate(d, check)
    case Err(e) => Err(e)
    case Ok(v) =>
      match UpdateProblem(users, callerEmail, id, v)
      case Some(e) => Err(e)
      case None =>
        var i := IndexOf(users, id).value;
        Ok(users[i := Apply(users[i], v)])
  }

  /** A role change requested by any admin other than the system administrator is always refused. */
  lemma OnlySystemAdminChangesRoles(users: seq<User>, callerEmail: string, id: nat, d: UserUpdate, check: string -> EmailVerdict)
    requires d.role.Some? && callerEmail != SystemAdmin
    ensures UpdateUser(users, callerEmail, id, d, check).Err?
  {
  }

  /** The built-in accounts survive every update unchanged. */
  lemma ProtectedUnchanged(users: seq<User>, callerEmail: string, id: nat, d: UserUpdate, check: string -> EmailVerdict, k: nat)
    requires k < |users| && Protected(users[k].email)
    requires UpdateUser(users, callerEmail, id, d, check).Ok?
    ensures UpdateUser(users, callerEmail, id, d, check).value[k] == users[k]
  {
  }

  /** User identifiers are unique (the table's primary key). */
  ghost predicate UniqueIds(users: seq<User>) {
    forall i, j :: 0 <= i < |users| && 0 <= j < |users| && i != j ==> users[i].id != users[j].id
  }

  lemma UpdateKeepsUniqueEmails(users: seq<User>, callerEmail: string, id: nat, d: UserUpdate, check: string -> EmailVerdict)
    requires UniqueEmails(users) && UniqueIds(users)
    requires UpdateUser(users, callerEmail, id, d, check).Ok?
    ensures UniqueEmails(UpdateUser(users, callerEmail, id, d, check).value)
  {
    var v := ValidUpdate(d, check).value;
    var i := IndexOf(users, id).value;
    var r := UpdateUser(users, callerEmail, id, d, check).value;
    forall j, k | 0 <= j < |r| && 0 <= k < |r| && j != k ensures r[j].email != r[k].email {
      if j == i && v.email.Some? {
        assert users[k].id != id;
      } else if k == i && v.email.Some? {
        assert users[j].id != id;
      } else {
        assert r[j].email == users[j].email && r[k].email == users[k].email;
      }
    }
  }

  // --------------------------------------------------------------- deletion

  const SelfDelete := BadRequest("Cannot delete your own account")
  const ProtectedDelete := Forbidden("Cannot delete default system users (admin@admin.com and user@user.com)")

  /**
   * `delete_user`: 404, then 400 when callers target their own account
   * (checked before the built-in-account guard), then 403 for the built-in
   * accounts; otherwise exactly that user goes.
   */
  function DeleteUser(users: seq<User>, callerId: nat, id: nat): (r: Result<seq<User>>)
    ensures IndexOf(users, id).None? <==> r == Err(UserNotFound)
    ensures IndexOf(users, id).Some? && id == callerId ==> r == Err(SelfDelete)
    ensures r.Ok? <==> IndexOf(users, id).Some? && id != callerId && !Protected(users[IndexOf(users, id).value].email)
    ensures r.Ok? ==> var i := IndexOf(users, id).value;
              r.value == users[..i] + users[i + 1..]
  {
    match IndexOf(users, id)
    case None => Err(UserNotFound)
    case Some(i) =>
      if users[i].id == callerId then Err(SelfDelete)
      else if Protected(users[i].email) then Err(ProtectedDelete)
      else Ok(users[..i] + users[i + 1..])
  }

  /** The system administrator deleting their own account hears "own account", not "protected". */
  lemma SelfCheckedFirst(users: seq<User>, k: nat)
    requires k < |users| && users[k].email == SystemAdmin
    requires IndexOf(users, users[k].id) == Some(k)
    ensures DeleteUser(users, users[k].id, users[k].id) == Err(SelfDelete)
  {
  }

  /** No deletion removes a built-in account. */
  lemma ProtectedNeverDeleted(users: seq<User>, callerId: nat, id: nat)
    requires DeleteUser(users, callerId, id).Ok?
    ensures forall u :: u in users && Protected(u.email) ==> u in DeleteUser(users, callerId, id).value
  {
    var i := IndexOf(users, id).value;
    var r := DeleteUser(users, callerId, id).value;
    forall u | u in users && Protected(u.email) ensures u in r {
      var j :| 0 <= j < |users| && users[j] == u;
      if j < i {
        assert r[j] == u;
      } else {
        assert j != i;
        assert r[j - 1] == u;
      }
    }
  }
}

=== FILE: wishlist_page.dfy ===
/**
 * The shopper's wishlist page: the price shown for each listed product,
 * the stock message, the product link, the cart line added from the page,
 * and the list kept after a removal.
 */
module WishlistPage {
  import opened Common
  import opened Models
  import Payments
  import Cart
  import Wishlists
  import Decimal

  /**
   * `calculateFinalPrice` of the wishlist page: a missing value counts as
   * zero, an unknown kind leaves the price, and a fixed discount is not
   * kept from going below zero.
   */
  function FinalPrice(p: Product): (r: real)
    ensures !p.discount.enabled ==> r == p.price
    ensures p.discount.kind != Some("percentage") && p.discount.kind != Some("fixed") ==> r == p.price
    ensures p.discount.enabled && p.discount.kind == Some("fixed") ==>
              r == p.price - p.discount.value.GetOr(0.0)
    ensures p.discount.enabled && p.discount.value.GetOr(0.0) == 0.0 ==> r == p.price
  {
    var v := p.discount.value.GetOr(0.0);
    if !p.discount.enabled then p.price
    else if p.discount.kind == Some("percentage") then p.price * (1.0 - v / 100.0)
    else if p.discount.kind == Some("fixed") then p.price - v
    else p.price
  }

  /** Unless a fixed discount exceeds the price, the page shows what the checkout charges. */
  lemma PageAgreesWithCheckout(p: Product)
    requires p.discount.enabled && p.discount.kind == Some("fixed") ==> p.discount.value.GetOr(0.0) <= p.price
    ensures FinalPrice(p) == Payments.DiscountedPrice(p)
  {
  }

  /**
   * The struck-through list price appears only when the discount lowers the
   * price: a fixed discount exactly when its value is positive, a percentage
   * exactly when value and price have the same strict sign.
   */
  function HasDiscount(p: Product): (r: bool)
    ensures r ==> p.discount.enabled && p.discount.value.Some? && p.discount.value.value != 0.0
    ensures r ==> p.discount.kind == Some("percentage") || p.discount.kind == Some("fixed")
    ensures p.discount.enabled && p.discount.kind == Some("fixed") && p.discount.value.Some? ==>
              (r <==> p.discount.value.value > 0.0)
    ensures p.discount.enabled && p.discount.kind == Some("percentage") && p.discount.value.Some? ==>
              (r <==> p.price * p.discount.value.value > 0.0)
  {
    PercentLowers(p.price, p.discount.value.GetOr(0.0));
    p.discount.enabled && FinalPrice(p) < p.price
  }

  /** Taking `v` percent off lowers a price exactly when the two have the same strict sign. */
  lemma PercentLowers(price: real, v: real)
    ensures price * (1.0 - v / 100.0) < price <==> price * v > 0.0
  {
    assert price * (1.0 - v / 100.0) == price - price * v / 100.0;
  }

  /** A positive percentage or amount on a positive price shows as a discount. */
  lemma PositiveDiscountShows(p: Product)
    requires p.discount.enabled && p.price > 0.0
    requires p.discount.kind == Some("percentage") || p.discount.kind == Some("fixed")
    requires p.discount.value.Some? && p.discount.value.value > 0.0
    ensures HasDiscount(p)
  {
    if p.discount.kind == Some("percentage") {
      var v := p.discount.value.value;
      assert p.price * (1.0 - v / 100.0) == p.price - p.price * (v / 100.0);
      assert p.price * (v / 100.0) > 0.0;
    }
  }

  datatype StockNote = OutOfStock | OnlyLeft(n: int) | NoNote

  /** The stock message: none left at exactly 0, a count below 10, nothing from 10 on. */
  function Note(stock: int): (r: StockNote)
    ensures r == OutOfStock <==> stock == 0
    ensures r.OnlyLeft? <==> stock < 10 && stock != 0
    ensures r.OnlyLeft? ==> r.n == stock
  {
    if stock == 0 then OutOfStock else if stock < 10 then OnlyLeft(stock) else NoNote
  }

  /** The add-to-cart button is disabled exactly when the page says "Out of stock". */
  predicate AddDisabled(stock: int) {
    stock == 0
  }

  lemma DisabledIffOutOfStock(stock: int)
    ensures AddDisabled(stock) <==> Note(stock) == OutOfStock
    ensures stock < 0 ==> !AddDisabled(stock) && Note(stock) == OnlyLeft(stock)
  {
  }

  /** The string `replace(/\s+/g, '-')`: each run of white space becomes one dash. */
  function Dashes(s: string): (r: string)
    ensures forall i :: 0 <= i < |r| ==> !IsWhitespace(r[i])
    ensures |r| <= |s|
    decreases |s|
  {
    if s == [] then []
    else if IsWhitespace(s[0]) then "-" + Dashes(Decimal.SkipWhitespace(s[1..]))
    else [s[0]] + Dashes(s[1..])
  }

  /** The product link's name part: lower case, white space runs as dashes. */
  function Slug(name: string): (r: string)
    ensures forall i :: 0 <= i < |r| ==> !IsWhitespace(r[i])
    ensures |r| <= |name|
    ensures forall i :: 0 <= i < |r| ==> LowerChar(r[i]) == r[i]
  {
    DashesKeepsLower(Lower(name));
    Dashes(Lower(name))
  }

  lemma {:induction false} DashesKeepsPlain(s: string)
    requires forall i :: 0 <= i < |s| ==> !IsWhitespace(s[i])
    ensures Dashes(s) == s
  {
    if s != [] {
      DashesKeepsPlain(s[1..]);
    }
  }

  lemma {:induction false} DashesKeepsLower(s: string)
    requires forall i :: 0 <= i < |s| ==> LowerChar(s[i]) == s[i]
    ensures forall i :: 0 <= i < |Dashes(s)| ==> LowerChar(Dashes(s)[i]) == Dashes(s)[i]
    decreases |s|
  {
    if s != [] {
      if IsWhitespace(s[0]) {
        var t := Decimal.SkipWhitespace(s[1..]);
        assert t == s[1..][|s[1..]| - |t|..];
        assert forall i :: 0 <= i < |t| ==> t[i] == s[|s| - |t| + i];
        DashesKeepsLower(t);
      } else {
        DashesKeepsLower(s[1..]);
      }
    }
  }

  /** A slug is its own slug: lower case, no white space. */
  lemma SlugIdempotent(name: string)
    ensures Slug(Slug(name)) == Slug(name)
  {
    var s := Slug(name);
    DashesKeepsLower(Lower(name));
    assert Lower(s) == s;
    DashesKeepsPlain(s);
  }

  lemma {:induction false} DashesPlainPrefix(a: string, b: string)
    requires forall i :: 0 <= i < |a| ==> !IsWhitespace(a[i])
    ensures Dashes(a + b) == a + Dashes(b)
  {
    if a == [] {
      assert a + b == b;
    } else {
      assert (a + b)[1..] == a[1..] + b;
      DashesPlainPrefix(a[1..], b);
    }
  }

  /** Skipping white space in a run of white space followed by text that does not start with any leaves that text. */
  lemma {:induction false} SkipRun(w: string, b: string)
    requires forall i :: 0 <= i < |w| ==> IsWhitespace(w[i])
    requires b == [] || !IsWhitespace(b[0])
    ensures Decimal.SkipWhitespace(w + b) == b
  {
    if w != [] {
      assert (w + b)[1..] == w[1..] + b;
      SkipRun(w[1..], b);
    } else {
      assert w + b == b;
    }
  }

  /** A run of white space between a word and the rest becomes exactly one dash. */
  lemma DashesRun(a: string, w: string, b: string)
    requires forall i :: 0 <= i < |a| ==> !IsWhitespace(a[i])
    requires w != [] && forall i :: 0 <= i < |w| ==> IsWhitespace(w[i])
    requires b == [] || !IsWhitespace(b[0])
    ensures Dashes(a + w + b) == a + "-" + Dashes(b)
  {
    var wb := w + b;
    assert wb[1..] == w[1..] + b;
    SkipRun(w[1..], b);
    assert IsWhitespace(wb[0]);
    assert Dashes(wb) == "-" + Dashes(b);
    DashesPlainPrefix(a, wb);
    assert a + w + b == a + wb;
    assert a + ("-" + Dashes(b)) == a + "-" + Dashes(b);
  }

  /** The slug of a word, a run of white space and the rest: the word in lower case, one dash, the slug of the rest. */
  lemma SlugJoinsWords(a: string, w: string, b: string)
    requires forall i :: 0 <= i < |a| ==> !IsWhitespace(a[i])
    requires w != [] && forall i :: 0 <= i < |w| ==> IsWhitespace(w[i])
    requires b == [] || !IsWhitespace(b[0])
    ensures Slug(a + w + b) == Lower(a) + "-" + Slug(b)
  {
    var la, lb := Lower(a), Lower(b);
    LowerAppend(a + w, b);
    LowerAppend(a, w);
    LowerKeepsWhitespace(w);
    LowerKeepsPlain(a);
    LowerKeepsPlain(b);
    assert Lower(a + w + b) == la + w + lb;
    DashesRun(la, w, lb);
  }

  lemma LowerAppend(x: string, y: string)
    ensures Lower(x + y) == Lower(x) + Lower(y)
  {
    assert forall i :: 0 <= i < |x + y| ==> Lower(x + y)[i] == (Lower(x) + Lower(y))[i];
  }

  lemma LowerKeepsWhitespace(w: string)
    requires forall i :: 0 <= i < |w| ==> IsWhitespace(w[i])
    ensures Lower(w) == w
  {
  }

  /** Lower-casing neither makes nor removes white space. */
  lemma LowerKeepsPlain(a: string)
    ensures forall i :: 0 <= i < |a| ==> (IsWhitespace(Lower(a)[i]) <==> IsWhitespace(a[i]))
  {
  }

  /**
   * `handleAddToCart`: one of the product. The page works out a default
   * size and colour but passes them inside the single product argument, so
   * `addToCart` sees neither: the line is keyed by the product alone, with
   * no size and no colour, and merges with a line already keyed that way.
   */
  function AddFromWishlist(items: seq<Cart.CartItem>, p: Product): (r: seq<Cart.CartItem>)
    ensures r == Cart.AddToCart(items, Cart.CartProduct(p.id, p.name, p.price), None, None, None)
    ensures Cart.Count(r) == Cart.Count(items) + 1
    ensures Cart.FindKey(items, p.id, None, None).Some? ==>
              var k := Cart.FindKey(items, p.id, None, None).value;
              |r| == |items| && r[k].quantity == items[k].quantity + 1
    ensures Cart.FindKey(items, p.id, None, None).None? ==>
              |r| == |items| + 1 && r[|items|].product.id == p.id && r[|items|].quantity == 1
              && r[|items|].size.None? && r[|items|].color.None?
  {
    var product := Cart.CartProduct(p.id, p.name, p.price);
    Cart.AddCounts(items, product, None, None, None);
    Cart.AddToCart(items, product, None, None, None)
  }

  /** Adding from the wishlist keeps one cart line per product, size and colour. */
  lemma AddFromWishlistKeepsUniqueKeys(items: seq<Cart.CartItem>, p: Product)
    requires Cart.UniqueKeys(items)
    ensures Cart.UniqueKeys(AddFromWishlist(items, p))
  {
    Cart.AddKeepsUniqueKeys(items, Cart.CartProduct(p.id, p.name, p.price), None, None, None);
  }

  /** Adding the same product twice from the wishlist gives one line of two, not two lines. */
  lemma AddTwiceMerges(items: seq<Cart.CartItem>, p: Product)
    ensures |AddFromWishlist(AddFromWishlist(items, p), p)| == |AddFromWishlist(items, p)|
  {
    var once := AddFromWishlist(items, p);
    if Cart.FindKey(items, p.id, None, None).None? {
      assert Cart.SameKey(once[|items|], p.id, None, None);
    }
  }

  /** The list kept on the page after removing a product. */
  function Without(w: seq<Wishlists.Entry>, productId: nat): (r: seq<Wishlists.Entry>)
    ensures forall e :: e in r <==> e in w && e.productId != productId
  {
    if w == [] then [] else (if w[0].productId != productId then [w[0]] else []) + Without(w[1..], productId)
  }

  lemma {:induction false} WithoutAppend(a: seq<Wishlists.Entry>, b: seq<Wishlists.Entry>, productId: nat)
    ensures Without(a + b, productId) == Without(a, productId) + Without(b, productId)
  {
    if a == [] {
      assert a + b == b;
    } else {
      assert (a + b)[1..] == a[1..] + b;
      WithoutAppend(a[1..], b, productId);
    }
  }

  lemma {:induction false} WithoutAbsent(w: seq<Wishlists.Entry>, productId: nat)
    requires forall j :: 0 <= j < |w| ==> w[j].productId != productId
    ensures Without(w, productId) == w
  {
    if w != [] {
      WithoutAbsent(w[1..], productId);
    }
  }

  /** With the product only at position `i`, the page's filter drops exactly that entry. */
  lemma {:induction false} WithoutAt(w: seq<Wishlists.Entry>, i: nat, productId: nat)
    requires i < |w| && w[i].productId == productId
    requires forall j :: 0 <= j < |w| && j != i ==> w[j].productId != productId
    ensures Without(w, productId) == w[..i] + w[i + 1..]
    decreases i
  {
    var t := w[1..];
    assert forall j :: 0 <= j < |t| ==> t[j] == w[j + 1];
    if i == 0 {
      assert Without(w, productId) == Without(t, productId);
      WithoutAbsent(t, productId);
      assert w[..0] + w[1..] == t;
    } else {
      assert Without(w, productId) == [w[0]] + Without(t, productId);
      WithoutAt(t, i - 1, productId);
      ConsSlices(w, i);
    }
  }

  /** Splitting around position `i` after taking off the head. */
  lemma ConsSlices<T>(w: seq<T>, i: nat)
    requires 0 < i < |w|
    ensures [w[0]] + (w[1..][..i - 1] + w[1..][i..]) == w[..i] + w[i + 1..]
  {
    assert [w[0]] + w[1..][..i - 1] == w[..i];
    assert w[1..][i..] == w[i + 1..];
  }

  /**
   * The page's own copy of the list, after a removal, is the list the
   * server keeps: the server drops the one entry for the product, the page
   * drops every entry for it, and a user has at most one.
   */
  lemma PageMatchesServer(w: seq<Wishlists.Entry>, userId: nat, productId: nat)
    requires Wishlists.OnePerProduct(w)
    requires forall e :: e in w ==> e.userId == userId
    ensures Wishlists.Remove(w, userId, productId).Ok? ==>
              Without(w, productId) == Wishlists.Remove(w, userId, productId).value
    ensures Wishlists.Remove(w, userId, productId).Err? ==> Without(w, productId) == w
  {
    forall j | 0 <= j < |w| ensures w[j].userId == userId {
      assert w[j] in w;
    }
    match Wishlists.IndexOf(w, userId, productId)
    case None =>
      WithoutAbsent(w, productId);
    case Some(i) =>
      WithoutAt(w, i, productId);
  }
}

=== FILE: wishlists.dfy ===
/**
 * The caller's wishlist: list, add, remove and check. Entries behave as a
 * set of products per user: adding a product already listed is refused, so
 * no user lists a product twice.
 */
module Wishlists {
  import opened Common
  import opened Models
  import Sorting

  datatype Entry = Entry(id: nat, userId: nat, productId: nat, createdAt: int)

  /** The set invariant: at most one entry per (user, product). */
  ghost predicate OnePerProduct(w: seq<Entry>) {
    forall i, j :: 0 <= i < |w| && 0 <= j < |w| && i != j && w[i].userId == w[j].userId ==>
      w[i].productId != w[j].productId
  }

  predicate Listed(w: seq<Entry>, userId: nat, productId: nat) {
    exists j :: 0 <= j < |w| && w[j].userId == userId && w[j].productId == productId
  }

  /** Index of the first entry of the caller for the product. */
  function IndexOf(w: seq<Entry>, userId: nat, productId: nat): (r: Option<nat>)
    ensures r.Some? ==> r.value < |w| && w[r.value].userId == userId && w[r.value].productId == productId
    ensures r.None? <==> !Listed(w, userId, productId)
  {
    IndexBy(w, (e: Entry) => (e.userId, e.productId), (userId, productId))
  }

  const ProductMissing := NotFound("Product not found")
  const AlreadyListed := BadRequest("Product already in wishlist")
  const NotListed := NotFound("Product not in wishlist")

  /** `get_wishlist`: the caller's entries, newest first. */
  function NewerFirst(a: Entry, b: Entry): bool {
    a.createdAt >= b.createdAt
  }

  function OwnEntries(w: seq<Entry>, userId: nat): (r: seq<Entry>)
    ensures forall e :: e in r <==> e in w && e.userId == userId
  {
    if w == [] then [] else (if w[0].userId == userId then [w[0]] else []) + OwnEntries(w[1..], userId)
  }

  function GetWishlist(w: seq<Entry>, userId: nat): (r: seq<Entry>)
    ensures forall e :: e in r <==> e in w && e.userId == userId
    ensures forall i, j :: 0 <= i < j < |r| ==> r[i].createdAt >= r[j].createdAt
  {
    assert Sorting.TotalPreorder(NewerFirst);
    var r := Sorting.SortBy(OwnEntries(w, userId), NewerFirst);
    forall e ensures e in r <==> e in OwnEntries(w, userId) {
      Sorting.SortByMembers(OwnEntries(w, userId), NewerFirst, e);
    }
    r
  }

  /**
   * `add_to_wishlist`: 404 for an unknown product, 400 when the caller
   * already lists it, otherwise one new entry at the end.
   */
  function Add(w: seq<Entry>, products: seq<Product>, userId: nat, productId: nat, now: int): (r: Result<seq<Entry>>)
    ensures FindProduct(products, productId).None? <==> r == Err(ProductMissing)
    ensures FindProduct(products, productId).Some? && Listed(w, userId, productId) ==> r == Err(AlreadyListed)
    ensures r.Ok? <==> FindProduct(products, productId).Some? && !Listed(w, userId, productId)
    ensures r.Ok? ==> |r.value| == |w| + 1 && r.value[..|w|] == w
    ensures r.Ok? ==> var e := r.value[|w|];
              e.userId == userId && e.productId == productId && e.createdAt == now
              && forall i :: 0 <= i < |w| ==> w[i].id < e.id
  {
    if FindProduct(products, productId).None? then Err(ProductMissing)
    else if IndexOf(w, userId, productId).Some? then Err(AlreadyListed)
    else Ok(w + [Entry(NextId(w, (e: Entry) => e.id), userId, productId, now)])
  }

  lemma AddKeepsOnePerProduct(w: seq<Entry>, products: seq<Product>, userId: nat, productId: nat, now: int)
    requires OnePerProduct(w)
    requires Add(w, products, userId, productId, now).Ok?
    ensures OnePerProduct(Add(w, products, userId, productId, now).value)
  {
  }

  /** `remove_from_wishlist`: 404 when the caller does not list the product, otherwise exactly that entry goes. */
  function Remove(w: seq<Entry>, userId: nat, productId: nat): (r: Result<seq<Entry>>)
    ensures r.Err? <==> !Listed(w, userId, productId)
    ensures r.Err? ==> r.error == NotListed
    ensures r.Ok? ==> var i := IndexOf(w, userId, productId).value;
              r.value == w[..i] + w[i + 1..]
  {
    match IndexOf(w, userId, productId)
    case None => Err(NotListed)
    case Some(i) => Ok(w[..i] + w[i + 1..])
  }

  /** `check_wishlist`: whether the caller lists the product. */
  function Check(w: seq<Entry>, userId: nat, productId: nat): (r: bool)
    ensures r <==> Listed(w, userId, productId)
  {
    IndexOf(w, userId, productId).Some?
  }

  /** Under the set invariant a removed product is no longer listed, and every other entry stays. */
  lemma RemoveUnlists(w: seq<Entry>, userId: nat, productId: nat)
    requires OnePerProduct(w)
    requires Remove(w, userId, productId).Ok?
    ensures !Check(Remove(w, userId, productId).value, userId, productId)
    ensures OnePerProduct(Remove(w, userId, productId).value)
    ensures forall e :: e in w && !(e.userId == userId && e.productId == productId) ==>
              e in Remove(w, userId, productId).value
  {
    var i := IndexOf(w, userId, productId).value;
    var r := Remove(w, userId, productId).value;
    forall j | 0 <= j < |r| ensures !(r[j].userId == userId && r[j].productId == productId) {
      var bj := if j < i then j else j + 1;
      assert r[j] == w[bj] && bj != i;
    }
    forall j, k | 0 <= j < |r| && 0 <= k < |r| && j != k && r[j].userId == r[k].userId
      ensures r[j].productId != r[k].productId
    {
      var bj := if j < i then j else j + 1;
      var bk := if k < i then k else k + 1;
      assert r[j] == w[bj] && r[k] == w[bk];
    }
    forall e | e in w && !(e.userId == userId && e.productId == productId) ensures e in r {
      var j :| 0 <= j < |w| && w[j] == e;
      if j < i {
        assert r[j] == e;
      } else {
        assert j != i;
        assert r[j - 1] == e;
      }
    }
  }

  /** Adding then removing the same product gives back the wishlist unchanged. */
  lemma AddThenRemove(w: seq<Entry>, products: seq<Product>, userId: nat, productId: nat, now: int)
    requires Add(w, products, userId, productId, now).Ok?
    ensures Check(Add(w, products, userId, productId, now).value, userId, productId)
    ensures Remove(Add(w, products, userId, productId, now).value, userId, productId) == Ok(w)
  {
    var a := Add(w, products, userId, productId, now).value;
    assert a[|w|].userId == userId && a[|w|].productId == productId;
    var i := IndexOf(a, userId, productId).value;
    assert forall j :: 0 <= j < |w| ==> a[j] == w[j] && !(w[j].userId == userId && w[j].productId == productId);
    assert i == |w|;
    assert a[..|w|] + a[|w| + 1..] == w;
  }
}
